=== FILE: README.md ===
# Laundry reservation front end — a Dafny model

This project models the logic inside the Next.js front end of a dormitory laundry booking system. Students sign in with a phone number and a one-time code, see the free washing slots, book one and follow their reservations. Dormitory admins manage the slots and the reservation statuses. The front end is mostly React views plus thin proxy routes to a remote backend. The model keeps the pieces of it that decide something:

- **Arithmetic of times and pages** (`timepicker.dfy`, `clock.dfy`, `timeago.dfy`, `pagination.dfy`):
  - the cyclic hour and minute columns of the time picker and its apply button;
  - `HH:MM` formatting and parsing, and the `HH:MM` pattern of the new-slot form;
  - the "end after start, exactly 30 minutes" check of a new slot;
  - the unit `timeAgo` picks;
  - the five-page window of the reservation lists.
- **Collections** (`schedule.dfy`, `reservations.dfy`, `query.dfy`, `dates.dfy`):
  - the `date → {day, slots}` object of the slot pages, as an ordered association list, because `Object.keys` order matters;
  - its availability filter, slot deletion and in-place edit;
  - the tab a page shows, and the tab a picked date selects;
  - the status update of the admin list, the dashboard counters;
  - the URL query the lists write and read back.
- **Strings** (`persian.dfy`, `forms.dfy`, `proxy.dfy`, `text.dfy`):
  - Persian-to-ASCII digit normalisation and the two input validators;
  - the zod schemas of the sign-in, sign-up and profile forms;
  - the `auth_token` lookup in a raw `Cookie` header.
- **Decisions and state machines** (`access.dfy`, `forms.dfy`, `proxy.dfy`, `json.dfy`):
  - the route guard of `middleware.ts`;
  - the auth context's actions and redirects;
  - the phone/code sign-in and sign-up steps;
  - the status decisions of the proxy routes;
  - the role and status tables.

`json.dfy` holds the JavaScript value semantics the routes depend on: property reads that throw on `null`, truthiness, the loose `== ""`, `JSON.stringify` dropping `undefined`, and the last of duplicate keys winning in `JSON.parse`. `domain.dfy` holds the closed enumerations of `types/user.ts` and `types/reservation.ts`. `wrappers.dfy` and `arith.dfy` are support.

What the platform supplies enters as parameters:
- replies of the network (a reply, or none when `fetch` throws);
- the Jalali-to-Gregorian conversion;
- `new Date(key).toISOString()`;
- the millisecond difference `timeAgo` starts from.

## Model

| member | source | states |
|---|---|---|
| Domain.ParseRole | types/user.ts:2-6 | a role is read back from its wire name exactly for the four names of `UserRole` |
| Domain.ParseDormitory | types/user.ts:1 | the dormitory enumeration accepts exactly `dormitory-1` and `dormitory-2` |
| TimePicker.ValidValues | components/ui/time-picker.tsx:30-33 | a column holds `floor((max-min)/step)+1` values, none when `max < min` |
| TimePicker.ValidValuesMembers | components/ui/time-picker.tsx:30-33 | a value is listed iff it lies in `[min, max]` a whole number of steps above `min` |
| TimePicker.ValidValuesAscend | components/ui/time-picker.tsx:30-33 | the listed values ascend strictly |
| TimePicker.IndexOf | components/ui/time-picker.tsx:36 | `indexOf` is -1 iff the value is absent, else its first position |
| TimePicker.Increment | components/ui/time-picker.tsx:35-38 | up yields a listed value whenever the list is non-empty |
| TimePicker.Decrement | components/ui/time-picker.tsx:40-43 | down yields a listed value whenever the list is non-empty |
| TimePicker.StepsAreCyclic | components/ui/time-picker.tsx:35-43 | up moves one place and wraps from the last to the first; down moves back and wraps from the first to the last |
| TimePicker.StepsFromOutside | components/ui/time-picker.tsx:36-42 | a value not in the list goes to the first value on up and to the last on down |
| TimePicker.DecrementUndoesIncrement | components/ui/time-picker.tsx:35-43 | down after up, and up after down, return to the value |
| TimePicker.PressUpAdvances | components/ui/time-picker.tsx:35-38 | k presses of up advance k places round the list |
| TimePicker.PressUpFullCycle | components/ui/time-picker.tsx:35-38 | as many presses as the list is long return to the start |
| TimePicker.ColumnsContents | components/ui/time-picker.tsx:172-187 | the hour column is 0..23 and the minute column is exactly 0, 15, 30, 45 |
| TimePicker.HourColumnWraps | components/ui/time-picker.tsx:172-177 | up from 23 gives 0 and down from 0 gives 23 |
| TimePicker.MinuteColumnWraps | components/ui/time-picker.tsx:181-187 | down from 0 gives 45; minute 10 goes to 0 on up and to 45 on down |
| TimePicker.SetHours | components/ui/time-picker.tsx:123-128 | `setHours` sets the minute of the day, carries overflow into the day, keeps seconds and milliseconds |
| TimePicker.SetHoursInDay | components/ui/time-picker.tsx:123-128 | applying a valid time replaces only the clock reading of the bound date |
| TimePicker.HourStep | components/ui/time-picker.tsx:115-117 | an hour button changes only the hour, to a listed hour |
| TimePicker.MinuteStep | components/ui/time-picker.tsx:119-121 | a minute button changes only the minute, to a listed minute |
| TimePicker.Step | components/ui/time-picker.tsx:85-151 | only apply on an open popup changes the value, and it writes the column values; a closed popup ignores everything but the toggle |
| TimePicker.OpenThenApplyKeepsValue | components/ui/time-picker.tsx:85-128 | opening and applying at once keeps the value |
| TimePicker.MinuteButtonsSnapToQuarters | components/ui/time-picker.tsx:181-187 | after a minute button the column shows a quarter hour |
| Clock.FromMinutes | components/ui/time-picker.tsx:125 | the time a minute count lands on is valid and equals the count modulo a day |
| Clock.FromMinutesOfValid | components/ui/time-picker.tsx:125 | a valid time is the time its own minute count lands on |
| Clock.FormatTime | app/admin/timeslots/page.tsx:55-57 | five characters, a colon in the middle, two digits on each side reading as the hour and the minute |
| Clock.ParseFormat | app/admin/timeslots/page.tsx:48-57 | formatting then parsing returns the time |
| Clock.FormatParse | app/admin/timeslots/page.tsx:48-57 | a two-digit `HH:MM` in range parses and formats back to itself |
| Clock.NumberValue | app/admin/timeslots/page.tsx:49 | a run of decimal digits reads as its decimal value |
| Clock.ParseTime | app/admin/timeslots/page.tsx:48-53 | a parsed time is a valid time of day; a string without a colon never parses |
| Clock.ParseIgnoresTail | app/admin/timeslots/page.tsx:48-53 | text after a second colon is ignored |
| Clock.ParseUnpadded | app/admin/timeslots/page.tsx:48-53 | `9:5` parses as nine hours five minutes |
| Clock.InvalidTimeTextUnparsed | app/admin/timeslots/page.tsx:48-57 | `NaN:NaN`, the text of an invalid date, does not parse back into a time |
| Clock.FormatPads | app/admin/timeslots/page.tsx:55-57 | nine hours five minutes formats as `09:05` |
| Clock.PatternTimesAreValid | app/admin/timeslots/new/page.tsx:24-29 | every string the pattern accepts parses to a valid time |
| Clock.PatternAcceptsValidTimes | app/admin/timeslots/new/page.tsx:24-29 | every valid time is accepted, zero-padded and with a one-digit hour |
| Clock.PatternRejects | app/admin/timeslots/new/page.tsx:24-29 | `24:00` and `9:5` are rejected |
| Clock.PatternTime | app/admin/timeslots/new/page.tsx:24-29 | a field yields a time iff the pattern accepts it, and that time is what parsing gives |
| Clock.SubmitSlot | app/admin/timeslots/new/page.tsx:49-87 | a slot is submitted iff both times pass, the dormitory is known and the end is 30 minutes after the start, and it carries the date, the times and the dormitory; the three refusals (a field rejected by the schema, an end not after the start, a gap other than 30 minutes) each happen exactly in their own case |
| Clock.MidnightCrossingRejected | app/admin/timeslots/new/page.tsx:58-71 | `23:45` to `00:15` is rejected as an end before the start |
| TimeAgo.TimeAgo | lib/format-data.ts:9-31 | exactly one branch applies: future for a negative difference, else the largest unit with a non-zero count; hours print 1..23, minutes 1..59, seconds 0..59 |
| Text.Split | app/admin/timeslots/page.tsx:49 | at least one piece, none containing the separator |
| Text.JoinSplit | app/admin/timeslots/page.tsx:49 | joining the pieces back gives the string |
| Text.SplitLength | app/admin/timeslots/page.tsx:49 | one piece more than there are separators |
| Text.TrimEmptyIffBlank | app/admin/reservations/page.tsx:217 | a trimmed search is empty iff the search is all white space |
| Text.ParseIntToString | app/admin/reservations/page.tsx:97 | `parseInt` reads back any integer its decimal text writes |
| Text.ParseIntStopsAtNonDigit | app/admin/reservations/page.tsx:97 | `parseInt("12abc")` is 12 |
| Text.ParseIntNeedsADigit | app/admin/reservations/page.tsx:97 | `parseInt` of text without a leading digit is `NaN` |
| TimeAgo.AgoTextStartsWithAmount | lib/format-data.ts:22-30 | every text but the future one starts with the printed count, which `parseInt` reads back |
| Pagination.PageWindow | app/admin/reservations/page.tsx:237-244 | the window lies in `[1, total]`, holds `min(5, total)` pages, contains an in-range current page and centres it away from the ends |
| Pagination.Render | app/admin/reservations/page.tsx:233-297 | no bar for one page; otherwise the window's pages in order with only the current one active, previous enabled iff `current > 1` and next enabled iff `current < total` |
| Pagination.LinksAscendFromFirstToLast | app/admin/reservations/page.tsx:246-286 | the linked pages ascend strictly from 1 to the last page |
| Pagination.EllipsesMarkSkippedPages | app/admin/reservations/page.tsx:269-286 | first link iff the window starts after 1, ellipsis iff after 2; last link iff it ends before the last page, ellipsis iff before the one before it |
| Pagination.EveryPageLinkedOrElided | app/dashboard/reservations/page.tsx:197-256 | every page is linked or hidden behind an ellipsis |
| Pagination.ActivePageIsCurrent | app/admin/reservations/page.tsx:246-256 | an in-range current page is marked active and no other page is |
| Pagination.PreviousTarget | app/admin/reservations/page.tsx:262-266 | previous moves back one page and is inert on page 1 |
| Pagination.NextTarget | app/admin/reservations/page.tsx:289-293 | next moves on one page and is inert on the last |
| Pagination.ButtonsStayInRange | app/dashboard/reservations/page.tsx:197-256 | from a page in range both buttons stay in range, and next then previous returns |
| Query.GetFindsFirst | app/admin/reservations/page.tsx:92-95 | `get` finds a value iff some pair has the name, and finds the first such pair |
| Query.Param | app/admin/reservations/page.tsx:204-221 | an optional parameter is readable exactly when it was appended |
| Query.ReadPage | app/admin/reservations/page.tsx:97 | a page number is read iff `parseInt` finds one, else the page is `NaN` |
| Query.ReadPageString | app/admin/reservations/page.tsx:97 | a page written into the URL reads back as itself, `NaN` included |
| Query.AdminQuery | app/admin/reservations/page.tsx:204-221 | the query starts with `page` |
| Query.AdminQueryReads | app/admin/reservations/page.tsx:204-221 | page always; status and dormitory iff not `all`; search iff not blank; each readable under its name |
| Query.AdminDormitory | app/admin/reservations/page.tsx:84-85 | a dormitory admin's dormitory is their role without `admin-`, and exists iff the role starts with `admin-dormitory` |
| Query.ReadAdminUrl | app/admin/reservations/page.tsx:87-103 | a dormitory admin is pinned to their dormitory; others keep theirs unless main admin; absent parameters leave filters alone |
| Query.AdminUrlRoundTrip | app/admin/reservations/page.tsx:87-103 | writing the admin filters into the URL and reading them back restores them |
| Query.DormitoryAdminIsPinned | app/admin/reservations/page.tsx:84-99 | a URL never moves a dormitory admin off their dormitory; the main admin can pick any |
| Query.UserQuery | app/dashboard/reservations/page.tsx:147-161 | the user's query starts with `page` |
| Query.UserQueryReads | app/dashboard/reservations/page.tsx:147-161 | page always; status iff not `all`; id iff not blank; never a dormitory or a search |
| Query.ReadUserUrl | app/dashboard/reservations/page.tsx:76-86 | absent parameters leave the user's filters alone |
| Query.UserUrlRoundTrip | app/dashboard/reservations/page.tsx:76-86 | the user's filters survive a trip through the URL |
| Schedule.Filter | app/dashboard/reservations/new/page.tsx:95 | `filter` keeps exactly the accepted slots, in their original order |
| Schedule.LookupFindsKey | app/dashboard/reservations/new/page.tsx:92-103 | `timeSlots[date]` finds a day iff the date is a key |
| Schedule.Prune | app/dashboard/reservations/new/page.tsx:92-103 | every kept slot is accepted and no kept date is empty |
| Schedule.PruneLookup | app/dashboard/reservations/new/page.tsx:92-103 | date by date, a day survives iff a slot is kept, with its slots filtered and other fields unchanged |
| Schedule.PruneKeepsOrder | app/dashboard/reservations/new/page.tsx:92-103 | the kept dates keep their order |
| Schedule.AvailableOnly | app/dashboard/reservations/new/page.tsx:90-105 | every kept slot has capacity left and no kept date is empty |
| Schedule.AvailableOnlyLookup | app/reservations/new/page.tsx:67-74 | a date stays iff one of its slots has capacity, and keeps exactly those slots in order under the same day name |
| Schedule.DeleteSlot | app/admin/timeslots/page.tsx:207-215 | no slot with the id remains and no date is left empty |
| Schedule.DeleteSlotLookup | app/admin/timeslots/page.tsx:207-215 | every other slot stays under its date in order; a date goes iff the deleted slot was its only one |
| Schedule.EditSlot | app/admin/timeslots/page.tsx:170-177 | a save succeeds iff the date and index exist; only that slot's times change, the keys and every other date stay |
| Schedule.EditSameTimes | app/admin/timeslots/page.tsx:170-177 | saving a slot's own times changes nothing |
| Schedule.BeginEdit | app/admin/timeslots/page.tsx:129-140 | the editor opens iff the date and index exist, whatever the slot's times hold, with the slot's id and each time as `parseTimeString` reads it (an invalid date where it cannot) |
| Schedule.PickerText | app/admin/timeslots/page.tsx:55-57 | a picker value's text reads back as that value: five characters for a time, `NaN:NaN` for an invalid date |
| Schedule.SaveRequest | app/admin/timeslots/page.tsx:146-166 | the save body carries the slot id and two times that read back as the pickers' values, valid or not |
| Schedule.UnreadableTimeSavedAsNaN | app/admin/timeslots/page.tsx:129-166 | a slot whose start time has no colon still opens the editor, and saving it untouched sends `NaN:NaN` |
| Schedule.EditUntouchedRoundTrip | app/admin/timeslots/page.tsx:129-177 | opening the editor and saving untouched writes the slot back unchanged |
| Schedule.VisibleDates | app/admin/timeslots/page.tsx:253-254 | tab `all` shows every date key, any other tab that one date |
| Schedule.VisibleDatesAreKeys | app/reservations/new/page.tsx:184-185 | a tab that is `all` or a key shows only dates the map holds |
| Schedule.DeleteKeepingTab | app/admin/timeslots/page.tsx:205-217 | the deletion as written: slots pruned, the tab unchanged |
| Schedule.DeleteStrandsOpenTab | app/admin/timeslots/page.tsx:205-263 | deleting the last slot of the open tab's date leaves a tab naming no date |
| Schedule.DeleteResettingTab | app/admin/timeslots/page.tsx:205-217 | the corrected deletion keeps a showable tab, and keeps the old tab whenever it is still showable |
| Reservations.UpdateStatus | app/admin/reservations/page.tsx:170-176 | the list keeps its length and ids |
| Reservations.UpdateStatusChangesOnlyTarget | app/admin/reservations/page.tsx:170-176 | only the reservations with the id change, and only in their status |
| Reservations.UpdateStatusIdempotent | app/admin/reservations/page.tsx:170-176 | repeating a change is a no-op; an unknown id changes nothing |
| Reservations.UpdateStatusUndo | app/admin/reservations/page.tsx:170-176 | restoring the old status of a unique id restores the list |
| Reservations.ChangeStatus | app/admin/reservations/page.tsx:148-182 | the list changes only when the server accepted, and then the target takes the new status |
| Reservations.Count | app/dashboard/page.tsx:104 | a count never exceeds the list length |
| Reservations.CountUnion | app/dashboard/page.tsx:104 | counting two disjoint status groups together adds their counts |
| Reservations.CountMonotone | app/dashboard/page.tsx:104-119 | counting fewer statuses counts no more |
| Reservations.Summarize | app/dashboard/page.tsx:88-170 | total is the length; pending counts `waiting` and `washing`; ready counts `ready`; pending plus ready is at most the total; the list is the first five, with "view all" iff more exist; the list renders iff each of those five has a status of the badge table (`waiting`, `washing`, `ready`), since any other status throws at `status.color` |
| Reservations.CountAll | app/dashboard/page.tsx:104-119 | every reservation is counted iff every status is in the group |
| Reservations.PendingBreaksDashboard | app/dashboard/page.tsx:136-151 | a `pending` reservation among the first five stops the dashboard rendering; past the fifth it does not |
| Reservations.StatusChangeMovesOneCount | app/admin/reservations/page.tsx:170-176 | a status change moves one reservation between counters |
| Reservations.CancelOffered | app/dashboard/reservations/page.tsx:358-432 | cancel is offered iff the status is `pending`, on desktop and mobile alike |
| Reservations.StyleFor | components/status-style.tsx:3-29 | a style exists exactly for the five keys, and it is that status's entry |
| Reservations.StyleOf | components/status-style.tsx:3-29 | every status has a non-empty Persian label |
| Reservations.StylesDistinct | components/status-style.tsx:3-29 | different statuses have different labels, colours and icons |
| Reservations.SelectorStatusesStyled | components/status-style.tsx:3-29 | every selector status has a style; the declared `waiting` has none |
| Reservations.DashboardLabel | app/dashboard/page.tsx:14-30 | every declared status has a caption |
| Reservations.DashboardLabelsDistinct | app/dashboard/page.tsx:14-30 | the dashboard labels of the declared statuses are distinct |
| Persian.ConvertFAtoEN | components/ui/date-picker.tsx:27-35 | same length; each Persian digit becomes the ASCII digit of its value; all else unchanged; no Persian digit remains |
| Persian.ConvertIdempotent | components/ui/date-picker.tsx:27-35 | converting twice is converting once |
| Persian.ConvertInvertsPersianDigits | components/ui/date-picker.tsx:27-35 | text written in Persian digits converts back to its ASCII text |
| Persian.PersianDigitsInvertConvert | components/ui/date-picker.tsx:27-35 | text without ASCII digits is recovered from its conversion |
| Persian.ConvertKeepsSlashes | components/ui/date-picker.tsx:54-58 | the converted date has its `/` count and part count unchanged |
| Persian.ValidatePersian | lib/input-validate.ts:1-3 | accepted iff every character is in U+0600..U+06FF or is white space |
| Persian.ValidateNumber | lib/input-validate.ts:5-7 | accepted iff every character is an ASCII digit |
| Persian.ValidatorsCompose | lib/input-validate.ts:1-7 | both accept `""` and accept a concatenation iff they accept both parts |
| Persian.ValidatorsAcceptSubstrings | lib/input-validate.ts:1-7 | both accept every piece of what they accept |
| Persian.DigitScriptsDisagree | lib/input-validate.ts:1-7 | Persian digits are Persian text but not a number; ASCII digits the reverse |
| Persian.ConvertThenValidateNumber | lib/input-validate.ts:5-7 | a converted string is a number iff each character was a digit of either script |
| Dates.PickedDate | components/ui/date-picker.tsx:54-58 | the picker's date keeps its length and its `/`-separated part count |
| Dates.JalaliToGregorian | app/dashboard/reservations/new/page.tsx:33-50 | any shape but three parts gives `null` without conversion; otherwise the library's answer |
| Dates.PickedDatesPassTheGuard | app/dashboard/reservations/new/page.tsx:35-36 | every `YYYY/MM/DD` the picker produces passes the shape guard |
| Dates.FormatLocalDate | app/dashboard/reservations/new/page.tsx:130-135 | for a year from 0 the text splits into the year, the two-digit 1-based month and the two-digit day |
| Dates.LocalDateText | app/dashboard/reservations/new/page.tsx:130-135 | an invalid date formats as `NaN-NaN-NaN` |
| Dates.ReadFormatLocalDate | app/dashboard/reservations/new/page.tsx:130-135 | the formatted date reads back as the date |
| Dates.FormatLocalDateInjective | app/dashboard/reservations/new/page.tsx:130-135 | distinct dates never share a text |
| Dates.InvalidDateTextIsNoDate | app/dashboard/reservations/new/page.tsx:130-135 | no real date is written like an invalid one |
| Dates.FindDate | app/dashboard/reservations/new/page.tsx:147 | a found key is a listed key that normalises to the date |
| Dates.FindDateFirst | app/dashboard/reservations/new/page.tsx:147 | nothing is found iff every key normalises to another date; what is found is the first match |
| Dates.FindDateReaches | app/dashboard/reservations/new/page.tsx:147 | the search stops at the first matching key |
| Dates.SelectDate | app/dashboard/reservations/new/page.tsx:122-158 | empty date, no schedule, a refused shape or a failed conversion shows `all`; a search that finds no key shows `all`; a search aborted by a throwing key keeps the tab; a found non-empty key opens it; a changed tab is a loaded key |
| Dates.SelectDateKeepsTabSound | app/dashboard/reservations/new/page.tsx:122-158 | a pick never opens a tab that names no loaded date |
| Dates.SelectDateOpensFirstMatch | app/dashboard/reservations/new/page.tsx:147-153 | a pick opens the first key matching the picked date |
| Dates.ReserveRequest | app/dashboard/reservations/new/page.tsx:220-236 | no request without a selection; otherwise exactly the selected slot id |
| Dates.ReservedSlotsHaveCapacity | app/reservations/new/page.tsx:126-130 | a requested slot had capacity left under its date in the server's schedule |
| Forms.Failures | app/auth/register/page.tsx:17-23 | zod reports exactly the fields whose check fails |
| Forms.AcceptsEveryField | app/auth/register/page.tsx:17-23 | a schema accepts iff every field passes its check |
| Forms.DormitoryRuleIsEnum | app/auth/register/page.tsx:22 | the dormitory rule accepts exactly the names of the enumeration |
| Forms.RegisterValid | app/auth/register/page.tsx:17-23 | names of two or more, phone of ten or more, student id of five or more, a known dormitory |
| Forms.RegisterChecks | app/auth/register/page.tsx:17-23 | the sign-up schema accepts iff those five checks pass |
| Forms.CodeValid | app/auth/register/page.tsx:25-27 | a code passes iff it has exactly five characters |
| Forms.PhoneValid | app/auth/login/page.tsx:16-18 | a phone passes iff it has ten or more characters |
| Forms.PhoneNotCheckedForDigits | app/auth/login/page.tsx:17 | ten letters pass as a phone |
| Forms.ProfileValid | app/dashboard/profile/page.tsx:18-23 | names of two or more, a student id of nine (dashboard) or five (older page) or more, a known dormitory |
| Forms.ProfileChecks | app/profile/page.tsx:18-23 | each profile schema accepts iff those checks pass |
| Forms.StudentIdRulesDisagree | app/dashboard/profile/page.tsx:21 | a valid sign-up always saves on the older page, but on the dashboard only with a student id of nine or more |
| Forms.InitialProfile | app/dashboard/profile/page.tsx:31-45 | without a user every field is empty and the dormitory is `dormitory-1`; with one, the first name, last name and student id are the user's own (`''` when missing), and the dormitory is theirs unless empty, then `dormitory-1` |
| Forms.ApplyEdit | app/dashboard/profile/page.tsx:168-190 | edits keep the initial values, and the dashboard never changes the dormitory |
| Forms.DashboardDormitoryFixed | app/dashboard/profile/page.tsx:174-177 | no sequence of edits moves the dormitory on the dashboard |
| Forms.SaveProfile | app/dashboard/profile/page.tsx:47-55 | a request is made iff the form is dirty, idle and valid; it carries the values, and the dashboard adds the user id |
| Forms.LoginNext | app/auth/login/page.tsx:47-76 | a valid phone on the phone step calls `sendCode`, and when it reports success the code step opens for that phone with an empty code, otherwise the page stays; a five-character code on the code step calls `login` with the recorded phone, a code the verify button allows; no other event calls out; the code step is reached only that way; typing sets its field; back resets |
| Forms.LoginNextKeepsInvariant | app/auth/login/page.tsx:47-58 | the code step always holds a phone that passed the check |
| Forms.LoginRunLogsInCheckedPhones | app/auth/login/page.tsx:67-76 | every login of any run is for a checked phone with a five-character code |
| Forms.RegisterNext | app/auth/register/page.tsx:56-92 | a valid form on the form step calls `sendCode`, and on success stores the values and opens the code step with an empty code, otherwise the page stays; a five-character code on the code step with stored values calls `checkCode`, then `register` with the stored values iff it succeeded; verify on the form step or without stored values does nothing; typing sets its field; back resets |
| Forms.RegisterNextKeepsInvariant | app/auth/register/page.tsx:76-87 | `register` is called only with values that passed the sign-up check |
| Json.FieldFound | lib/config.ts:44 | a member is found iff some field has the key |
| Json.FieldFindsLast | lib/config.ts:44 | the value found is that of the last field with the key |
| Json.Prop | app/api/timeslots/edit/route.ts:8-9 | reading a member throws iff the value is `null` or `undefined`; a found member is the object's field |
| Json.FalsyAndLooselyEmptyDiffer | app/api/timeslots/edit/route.ts:45 | `!v` and `v == ""` agree on strings but differ on a missing member, `null` and `[null]` |
| Json.LooselyEmptyScalarsAreFalsy | app/api/timeslots/edit/route.ts:45 | a loosely empty value that is not an array is falsy |
| Json.Stringify | lib/config.ts:20 | as many fields as defined members, each from a defined member |
| Json.StringifyPlacesMember | lib/config.ts:20 | a defined member lands at the index counting the defined members before it |
| Json.StringifyKeepsDefinedInOrder | lib/config.ts:20 | the fields are exactly the defined members, in their order; `undefined` ones are dropped |
| Json.StringifyDefined | lib/config.ts:20 | defined members are all kept, in order |
| Access.HasAccess | lib/auth-utils.ts:34-37 | access iff there is a user and their role is listed |
| Access.HasAccessMonotone | lib/auth-utils.ts:34-37 | listing more roles never removes access |
| Access.GetRoleNameAsWritten | lib/auth-utils.ts:39-51 | every name outside the four `case` labels is untitled; each label `admin`, `admin-dorm1`, `admin-dorm2`, `user` gets the title of its role |
| Access.AsWrittenTitlesDistinct | lib/auth-utils.ts:39-51 | the four `case` labels each get a title, no two the same |
| Access.DormitoryAdminsUntitledAsWritten | lib/auth-utils.ts:39-51 | both real dormitory-admin roles are untitled |
| Access.RoleTitle | lib/auth-utils.ts:39-51 | untitled iff the name is no role of `types/user.ts` |
| Access.RoleTitlesDistinct | lib/auth-utils.ts:39-51 | every role has its own title |
| Access.AdminVerdict | middleware.ts:29-50 | no answer, a non-ok status, a body that does not parse or is `null`, and a truthy role that is not a string (its `startsWith` throws) go to sign-in; a falsy user or role, or a string role not starting `admin`, goes to the dashboard; a string role starting `admin` passes |
| Access.AdminVerdictAdmitsOnlyAdmins | middleware.ts:37-45 | an admin path passes iff the answer names a user with a role starting `admin` |
| Access.Middleware | middleware.ts:14-54 | unprotected paths pass; no or empty token goes to sign-in; protected non-admin paths with a token pass; admin paths with a token get the admin verdict, passing iff the token is there and the role is an admin one |
| Access.MatchedPathsAreProtected | middleware.ts:56-63 | every matched path is protected |
| Access.Route | middleware.ts:3-63 | unmatched paths pass; a matched path gets the guard's decision: sign-in without a token, a pass for a non-admin path with a token, the admin verdict for an `/admin` path with a token |
| Access.SendCodeResult | lib/auth-provider.tsx:59-85 | `sendCode` is true iff the reply is a parsed object whose last `success` member is truthy, whatever the status; false for a network failure |
| Access.CheckCodeResult | lib/auth-provider.tsx:87-114 | `checkCode` is true iff the status is 200 and the reply is an object with a truthy `success` |
| Access.CheckCodeStricterThanSendCode | lib/auth-provider.tsx:73-101 | `checkCode` accepts exactly the status-200 replies `sendCode` accepts; `sendCode` ignores the status |
| Access.Login | lib/auth-provider.tsx:116-151 | a refused reply changes nothing; an accepted one stores the reply's `user`; true iff accepted and the role is a string; then role `user` opens the dashboard, a role starting `admin` the admin area, any other string role nothing; a missing or non-string role is a failure without navigation |
| Access.LoginFailsAfterStoringUser | lib/auth-provider.tsx:130-147 | a user without a role is stored while `login` reports failure |
| Access.LoginRoutesEveryRole | lib/auth-provider.tsx:130-138 | role `user` goes to the dashboard and every admin role to the admin area |
| Access.Register | lib/auth-provider.tsx:172-201 | true iff the reply is accepted, then the user is stored and the dashboard opens; otherwise nothing changes |
| Access.Logout | lib/auth-provider.tsx:153-170 | once the request got through, the user is `null` and the home page `/` opens; a network failure keeps the user and navigates nowhere |
| Access.VerifyTokenClient | lib/auth-utils.ts:4-32 | a user comes back only from an accepted reply, and then it is the reply's user |
| Access.CheckAuth | lib/auth-provider.tsx:29-57 | a found user is stored, and on the auth pages sent to the dashboard when the role is the string `user` and to `/admin` otherwise; off the auth pages a found user stays put; nobody found goes to sign-in iff off the auth pages |
| Access.CheckAuthRoutesEveryRole | lib/auth-provider.tsx:34-41 | on the auth pages role `user` goes to the dashboard and every admin role to the admin area |
| Access.MountSignsInVerifiedUsers | lib/auth-provider.tsx:29-57 | signed in on mount iff the verification was accepted with a truthy user |
| Proxy.FindTokenCookie | app/api/timeslots/edit/route.ts:27-30 | a found cookie starts with `auth_token=` |
| Proxy.FindTokenCookieNone | app/api/timeslots/edit/route.ts:27-34 | nothing is found iff no trimmed segment starts with `auth_token=` |
| Proxy.FindTokenCookieFirst | app/api/timeslots/edit/route.ts:27-30 | the first trimmed segment carrying the prefix is found |
| Proxy.CookieValue | app/api/timeslots/edit/route.ts:36 | the token is the text after the prefix up to the next `=` |
| Proxy.CookieToken | app/api/timeslots/edit/route.ts:18-36 | no header or an empty one is "no cookie"; no matching segment is "no token" |
| Proxy.GuardCookieRoundTrip | middleware.ts:31-35 | the guard's cookie yields back the token it carries |
| Proxy.FirstTokenCookieWins | app/api/profile/edit/route.ts:27-36 | a later duplicate cookie is ignored |
| Proxy.TokenCutAtEquals | app/api/auth/verify-token/route.ts:41 | a token holding `=` is cut at it |
| Proxy.Outgoing | lib/config.ts:13-23 | the body is sent iff truthy; `Authorization` iff the token is non-empty |
| Proxy.SafeJsonFetch | lib/config.ts:4-54 | a parsed body is returned whatever the status; anything else is `null` |
| Proxy.SafeJsonFetchIgnoresStatus | lib/config.ts:25-45 | the reply's status never reaches the caller |
| Proxy.Forward | app/api/timeslots/get/route.ts:10-47 | a backend request iff a token was found, carrying it; 400 with the cookie or token message otherwise; 500 when the loose check throws on the reply's `message`; else 401 for a reply the check refuses and 200 with any other reply |
| Proxy.Members | app/api/timeslots/edit/route.ts:8-9 | destructuring a body succeeds iff the body is not `null` |
| Proxy.EditSlotRoute | app/api/timeslots/edit/route.ts:5-59 | statuses 200/400/401/500; 500 for a missing or `null` body; 400 with the slot message when a time is falsy; 400 with the cookie message when no token is found; otherwise exactly one request to `/timeslots/edit` with the token and the three members, then answered 500 when the loose check throws, 401 when it refuses the reply, else 200 with the reply |
| Proxy.EditProfileRoute | app/api/profile/edit/route.ts:5-59 | statuses 200/400/401/500; 500 without a body; 400 with the profile message for falsy `values`; 400 with the cookie message when no token is found; otherwise exactly one request to `/users/edit-profile` with the token, the id and the values, then answered 500 when the loose check throws, 401 when it refuses the reply, else 200 with the reply |
| Proxy.NewSlotsRoute | app/api/timeslots/new/route.ts:5-58 | statuses 200/400/401/500; 500 without a body; 400 for falsy `slotsData`; 400 when no token is found; otherwise exactly one request to `/timeslots/new` with the token and `slotsData` as the body, then answered 500 when the loose check throws, 401 when it refuses the reply, else 200 with the reply |
| Proxy.GetRoute | app/api/reservations/recent/route.ts:5-49 | statuses 200/400/401/500, 400 iff no backend request, with the cookie or token message; a request iff a token was found, to the handler's fixed endpoint (`/reservations/recent` here, `/timeslots/get` in app/api/timeslots/get/route.ts) with that token and no body; then 500 when the loose check throws, 401 when it refuses the reply, else 200 with the reply |
| Proxy.NoBackendCallWithoutToken | app/api/timeslots/edit/route.ts:18-34 | without a token no route reaches the backend |
| Proxy.BackendErrorRelayedAsSuccess | app/api/timeslots/get/route.ts:35-44 | a backend error reply with a message is answered 200 |
| Proxy.ReadVerifyToken | app/api/auth/verify-token/route.ts:19-41 | a cookie read never throws and yields the cookie token or the 400 messages; a body read never refuses, throws iff the body is missing or null or has no `token` object, and otherwise takes `token.value`, or `null` when that is falsy |
| Proxy.VerifyTokenRoute | app/api/auth/verify-token/route.ts:13-63 | statuses 200/400/401/500; 500 iff the read threw; 400 with the read's message or with "token not found" for a falsy token; a backend request iff a truthy token was found; after it 401 for a falsy reply or `message`, else the reply with 200 |
| Proxy.BodyTokenRead | app/api/auth/verify-token/route.ts:19-52 | a POST body `{token: {value: t}}` posts `t` to the backend |
| Proxy.BodyWithoutTokenThrows | app/api/auth/verify-token/route.ts:19-21 | a POST body `{}` is answered 500 |
| Proxy.BodyEmptyTokenRefused | app/api/auth/verify-token/route.ts:19-46 | a POST body whose token's `value` is empty is answered 400 "token not found" |
| Proxy.GuardTokenReachesBackend | app/api/auth/verify-token/route.ts:23-52 | the guard's token is the one verified |
| Proxy.VerifyFoundToken | app/api/auth/verify-token/route.ts:48-60 | once a truthy token is found, the answer is 401 iff the backend reply or its `message` is falsy |
| Proxy.VerifyTokenRefusesMissingMessage | app/api/auth/verify-token/route.ts:54-56 | a reply without `message` is 401 here |
| Proxy.LooseCheckAcceptsMissingMessage | app/api/timeslots/get/route.ts:35-44 | the same reply is 200 under the loose `== ""` check |
| Proxy.LooseCheckThrowsOnToStringMessage | app/api/timeslots/get/route.ts:35-47 | a reply whose `message` carries its own `toString` member makes `== ""` throw, answered 500 |
| Proxy.AuthRoute | app/api/auth/route.ts:5-42 | statuses 200/400/500; 500 without a body; 400 `عملیات نامعتبر` for any action but `sendCode` and `login`; those two always make one tokenless request with their fixed bodies; 500 iff the reply cannot be turned into text for the log line, else 200 with a truthy reply or with `{error: "خطا در عملیات"}` |
| Proxy.UnreachableBackendAnsweredOk | app/api/auth/route.ts:33-35 | an unreachable backend is answered `{error}` with status 200 |
| Proxy.ToStringReplyAnswered500 | app/api/auth/route.ts:26-40 | a reply carrying its own `toString` member is answered 500 after the call, and so is one nested in an array |
| Proxy.SendCodeOmitsCode | app/api/auth/route.ts:14-17 | sending a code never forwards the code |

## Left out

- Network I/O: every `fetch` is a parameter giving the reply, or none when it throws. Headers such as `Api-Key`, `credentials` and `cache` are not modelled.
- Calendar conversion and date formatting:
  - Jalali⇄Gregorian conversion (`react-date-object`), `Intl.DateTimeFormat` and `new Date(string).toISOString()` are library code and enter as parameters.
  - The Jalali day-of-year helpers are not modelled.
- Time zones and the clock. `new Date()` and time zones are platform behaviour. Time of day is hours and minutes; `timeAgo` starts from the millisecond difference.
- UI: rendering, toasts, router history, the popup placement of the time picker, charts and layouts.
- Thin forwarding routes: the sign-in, sign-up, code and logout routes under `/api/auth` are not part of this model; `app/auth/verify/page.tsx` is not part of this model either.
- Fractional and non-finite numbers: slot capacities, page numbers and durations are integers. `NaN` is modelled by `None` where it arises: a page `parseInt` cannot read, a time piece `Number` cannot read, and the invalid `Date` that follows.
- String lengths: zod counts UTF-16 code units, the model counts characters. The two differ only for characters outside the Basic Multilingual Plane.
- Text.ParseInt: reads base 10 only. JavaScript's `parseInt` with no radix reads a `0x` or `0X` prefix as hexadecimal, so `parseInt("0x10")` is 16 where the model gives 0.
- Query.ReadPage: inherits the base-10 reading of `Text.ParseInt`, so a `page=0x10` parameter reads as page 0, not 16.
- Clock.NumberValue: accepts only (white-space-trimmed) decimal digit runs. `Number` also reads a sign, a fraction, an exponent and `0x`/`0b`/`0o` prefixes (`-1`, `+5`, `1.5`, `1e1`, `0x1A`), which the model reads as `NaN`.
- Clock.ParseTime: inherits this from `Clock.NumberValue`. A piece such as `-1` or `1.5`, which JavaScript would set on the `Date`, rolling or fractioning the time, gives no time here.
- Reservations.Summarize: a status naming a property every object inherits (`toString`, `constructor`, `__proto__`) reads that property from the badge table instead of `undefined`, so the page renders a badge without a colour rather than throwing; the model counts such a status as one that throws.
- Query.AdminQuery: percent-encoding by `URLSearchParams.toString()` is not modelled. The query is its list of name/value pairs.
- Json.Stringify: numbers are integers, the object's key order is the order written, and the output is the list of kept members rather than its text.
- Dates.FormatLocalDate: the split into year, month and day is stated for years from 0. A negative year prints with a leading `-`, which adds a part.
- Dates.SelectDate: the toasts that go with `all` are not modelled.
- Clock.SubmitSlot: the two `Date`s are compared as minutes of one day. Daylight-saving jumps, which could make a 30-minute wall-clock span differ in milliseconds, are not modelled.
- Proxy.SafeJsonFetch: the reply is reduced to its `ok` flag and the body text's three outcomes (empty, malformed, parsed).

## Findings

| source | as written | input that shows it | evidently intended | confidence | as-written member | corrected member |
|---|---|---|---|---|---|---|
| lib/auth-utils.ts:39-51 | the dormitory-admin cases test `admin-dorm1` and `admin-dorm2` | role `admin-dormitory-1` gets the title for an unknown role | the cases use the role names of `types/user.ts`, so every role has its own title | high, not executed | Access.DormitoryAdminsUntitledAsWritten | Access.RoleTitlesDistinct |
| app/admin/timeslots/page.tsx:205-217 | a deletion that empties the open tab's date removes that date but leaves the tab open | two dates with one slot each, the first date's tab open, its slot deleted | the page falls back to the `all` tab when the open date disappears | medium, not executed | Schedule.DeleteStrandsOpenTab | Schedule.DeleteResettingTab |

=== FILE: access.dfy ===
/** Who may see what: the route guard of `middleware.ts`, the role helpers
    of `lib/auth-utils.ts`, and the way the auth context of
    `lib/auth-provider.tsx` turns replies of the routes under `/api/auth` into
    a signed-in user, a result and a navigation. Network replies are
    parameters. */
module Access {
  import opened Wrappers
  import opened Text
  import opened Domain
  import opened Json

  /** `hasAccess`, with the user reduced to their role: no user has no
      access; otherwise the role must be listed. */
  function HasAccess(role: Option<string>, required: seq<string>): (ok: bool)
    ensures ok <==> role.Some? && role.value in required
  {
    match role
    case None => false
    case Some(r) => r in required
  }

  /** Listing more roles never takes access away. */
  lemma HasAccessMonotone(role: Option<string>, required: seq<string>, more: seq<string>)
    requires forall r :: r in required ==> r in more
    ensures HasAccess(role, required) ==> HasAccess(role, more)
  {
  }

  const UnknownRoleTitle: string := "نامشخص"

  /** `getRoleName` as written: it names the dormitory admins
      `admin-dorm1` and `admin-dorm2`, which are not the roles of
      `types/user.ts`. */
  function GetRoleNameAsWritten(role: string): (title: string)
    ensures role !in {"admin", "admin-dorm1", "admin-dorm2", "user"} ==> title == UnknownRoleTitle
    ensures forall r: UserRole :: role == AsWrittenKey(r) ==> title == RoleTitle(RoleName(r))
  {
    if role == "admin" then "مدیر کل"
    else if role == "admin-dorm1" then "مدیر خوابگاه ۱"
    else if role == "admin-dorm2" then "مدیر خوابگاه ۲"
    else if role == "user" then "کاربر"
    else UnknownRoleTitle
  }

  /** The `case` label `getRoleName` gives each role: the dormitory
      admins under the names `admin-dorm1` and `admin-dorm2`. */
  function AsWrittenKey(r: UserRole): string {
    match r
    case RegularUser => "user"
    case MainAdmin => "admin"
    case Dormitory1Admin => "admin-dorm1"
    case Dormitory2Admin => "admin-dorm2"
  }

  /** The four `case` labels each get a title, and no two the same one. */
  lemma AsWrittenTitlesDistinct(a: UserRole, b: UserRole)
    ensures GetRoleNameAsWritten(AsWrittenKey(a)) != UnknownRoleTitle
    ensures GetRoleNameAsWritten(AsWrittenKey(a)) == GetRoleNameAsWritten(AsWrittenKey(b)) <==> a == b
  {
    RoleTitlesDistinct(a, b);
  }

  /** Both dormitory admins, under their real role names, are shown as
      of unknown role. */
  lemma DormitoryAdminsUntitledAsWritten()
    ensures GetRoleNameAsWritten(RoleName(Dormitory1Admin)) == UnknownRoleTitle
    ensures GetRoleNameAsWritten(RoleName(Dormitory2Admin)) == UnknownRoleTitle
  {
  }

  /** The title of a role, keyed by the role names of `types/user.ts`. */
  function RoleTitle(role: string): (title: string)
    ensures ParseRole(role).None? <==> title == UnknownRoleTitle
  {
    if role == "admin" then "مدیر کل"
    else if role == "admin-dormitory-1" then "مدیر خوابگاه ۱"
    else if role == "admin-dormitory-2" then "مدیر خوابگاه ۲"
    else if role == "user" then "کاربر"
    else UnknownRoleTitle
  }

  /** Every role gets a title of its own. */
  lemma RoleTitlesDistinct(a: UserRole, b: UserRole)
    ensures RoleTitle(RoleName(a)) != UnknownRoleTitle
    ensures RoleTitle(RoleName(a)) == RoleTitle(RoleName(b)) <==> a == b
  {
    var ta, tb := RoleTitle(RoleName(a)), RoleTitle(RoleName(b));
    if a != b && |ta| == |tb| {
      assert ta[13] != tb[13];
    }
  }

  /** The paths the guard protects, and those among them for admins. */
  const ProtectedRoutes: seq<string> := ["/dashboard", "/profile", "/reservations", "/admin"]
  const AdminRoutes: seq<string> := ["/admin"]

  /** `routes.some(route => pathname.startsWith(route))`. */
  predicate UnderAny(path: string, routes: seq<string>) {
    exists i :: 0 <= i < |routes| && StartsWith(path, routes[i])
  }

  const LoginPath: string := "/auth/login"
  const DashboardPath: string := "/dashboard"

  /** The `Cookie` header the guard sends along when it asks
      `/api/auth/verify-token` about an admin path. */
  function GuardCookie(token: string): string {
    "auth_token=" + token
  }

  /** The reply to that request: none at all (`fetch` threw), or a status
      and a body that parses (`Some`) or makes `response.json()` throw. */
  datatype RoleCheck = Unreachable | Answered(ok: bool, body: Option<Json>)

  datatype Decision = Continue | Redirect(target: string)

  /** `v.key` for a value whose read does not throw: an object's member,
      and `undefined` for a missing one or a value that is no object. */
  function MemberOf(v: Value, key: string): Value {
    if v.Defined? && v.json.JObject? then
      match Field(v.json.fields, key)
      case Some(m) => Defined(m)
      case None => Undefined
    else Undefined
  }

  /** The admin part of the guard: any failure to get or parse an answer,
      and a role that is not a string, go to the sign-in page; a missing
      user or role, or one not starting with `admin`, goes to the
      dashboard. */
  function AdminVerdict(check: RoleCheck): (d: Decision)
    ensures d.Redirect? ==> d.target == LoginPath || d.target == DashboardPath
    ensures d.Redirect? && d.target == DashboardPath ==> check.Answered? && check.ok && check.body.Some?
    ensures check.Unreachable? || !check.ok || check.body.None? || check.body.value == JNull ==>
      d == Redirect(LoginPath)
    ensures check.Answered? && check.ok && check.body.Some? && check.body.value != JNull ==>
      var user := MemberOf(Defined(check.body.value), "user");
      var role := MemberOf(user, "role");
      && (!Truthy(user) || !Truthy(role) ==> d == Redirect(DashboardPath))
      && (Truthy(role) && !role.json.JStr? ==> d == Redirect(LoginPath))
      && (Truthy(role) && role.json.JStr? && StartsWith(role.json.s, "admin") ==> d == Continue)
      && (Truthy(role) && role.json.JStr? && !StartsWith(role.json.s, "admin") ==> d == Redirect(DashboardPath))
  {
    match check
    case Unreachable => Redirect(LoginPath)
    case Answered(ok, body) =>
      if !ok || body.None? then Redirect(LoginPath)
      else
        match Prop(Defined(body.value), "user")
        case None => Redirect(LoginPath)
        case Some(user) =>
          if !Truthy(user) then Redirect(DashboardPath)
          else
            match Prop(user, "role")
            case None => Redirect(LoginPath)
            case Some(role) =>
              if !Truthy(role) then Redirect(DashboardPath)
              else if !role.json.JStr? then Redirect(LoginPath)
              else if StartsWith(role.json.s, "admin") then Continue
              else Redirect(DashboardPath)
  }

  /** An answer naming a user whose role is a string starting with
      `admin`. */
  predicate ConfirmsAdmin(check: RoleCheck) {
    && check.Answered? && check.ok && check.body.Some? && check.body.value.JObject?
    && var user := Field(check.body.value.fields, "user");
       && user.Some? && user.value.JObject?
       && var role := Field(user.value.fields, "role");
          role.Some? && role.value.JStr? && StartsWith(role.value.s, "admin")
  }

  lemma AdminVerdictAdmitsOnlyAdmins(check: RoleCheck)
    ensures AdminVerdict(check) == Continue <==> ConfirmsAdmin(check)
  {
  }

  /** `middleware`: paths outside the protected ones pass; a protected
      path needs a non-empty `auth_token` cookie; an admin path also needs
      the verification to confirm an admin. */
  function Middleware(path: string, token: Option<string>, check: RoleCheck): (d: Decision)
    ensures !UnderAny(path, ProtectedRoutes) ==> d == Continue
    ensures UnderAny(path, ProtectedRoutes) && (token.None? || token.value == "") ==> d == Redirect(LoginPath)
    ensures UnderAny(path, ProtectedRoutes) && !UnderAny(path, AdminRoutes) && token.Some? && token.value != ""
            ==> d == Continue
    ensures UnderAny(path, AdminRoutes) ==> (d == Continue <==> token.Some? && token.value != "" && ConfirmsAdmin(check))
    ensures d.Redirect? ==> d.target == LoginPath || d.target == DashboardPath
    ensures UnderAny(path, AdminRoutes) && token.Some? && token.value != "" ==> d == AdminVerdict(check)
  {
    AdminVerdictAdmitsOnlyAdmins(check);
    assert UnderAny(path, AdminRoutes) ==> UnderAny(path, ProtectedRoutes) by {
      if UnderAny(path, AdminRoutes) { assert StartsWith(path, ProtectedRoutes[3]); }
    }
    if !UnderAny(path, ProtectedRoutes) then Continue
    else if token.None? || token.value == "" then Redirect(LoginPath)
    else if UnderAny(path, AdminRoutes) then AdminVerdict(check)
    else Continue
  }

  /** `config.matcher`: each protected root and everything below it. */
  predicate Matched(path: string) {
    exists i :: 0 <= i < |ProtectedRoutes| &&
      (path == ProtectedRoutes[i] || StartsWith(path, ProtectedRoutes[i] + "/"))
  }

  /** Every path the matcher sends to the guard is one the guard treats
      as protected, so the guard's own test never lets such a path pass. */
  lemma MatchedPathsAreProtected(path: string)
    requires Matched(path)
    ensures UnderAny(path, ProtectedRoutes)
  {
    var i :| 0 <= i < |ProtectedRoutes| &&
      (path == ProtectedRoutes[i] || StartsWith(path, ProtectedRoutes[i] + "/"));
    var r := ProtectedRoutes[i];
    if path != r {
      assert path[..|r|] == (r + "/")[..|r|] == r;
    }
  }

  /** A request as Next.js routes it: unmatched paths never reach the
      guard. */
  function Route(path: string, token: Option<string>, check: RoleCheck): (d: Decision)
    ensures Matched(path) && d == Continue ==> token.Some? && token.value != ""
    ensures Matched(path) && StartsWith(path, "/admin") && d == Continue ==> ConfirmsAdmin(check)
    ensures !Matched(path) ==> d == Continue
    ensures Matched(path) ==> d == Middleware(path, token, check)
    ensures Matched(path) && (token.None? || token.value == "") ==> d == Redirect(LoginPath)
    ensures Matched(path) && !StartsWith(path, "/admin") && token.Some? && token.value != "" ==> d == Continue
    ensures Matched(path) && StartsWith(path, "/admin") && token.Some? && token.value != "" ==> d == AdminVerdict(check)
  {
    if Matched(path) then
      MatchedPathsAreProtected(path);
      assert StartsWith(path, "/admin") <==> UnderAny(path, AdminRoutes) by {
        if StartsWith(path, "/admin") { assert StartsWith(path, AdminRoutes[0]); }
      }
      Middleware(path, token, check)
    else Continue
  }

  /** A reply to the browser's `fetch` of a route under `/api/auth`: none
      (`fetch` threw), or a status with a body that parses (`Some`) or
      makes `response.json()` throw. */
  datatype Reply = NetworkError | Reply(status: int, body: Option<Json>)

  /** `data.success` of a reply, `None` when reading it throws. */
  function SuccessFlag(reply: Reply): Option<bool> {
    if reply.NetworkError? || reply.body.None? then None
    else match Prop(Defined(reply.body.value), "success")
      case None => None
      case Some(v) => Some(Truthy(v))
  }

  /** A parsed body whose `success` member is truthy: an object carrying
      the member (the last one, for duplicates). Reading `success` of any
      other JSON value gives `undefined` or throws. */
  predicate SaysSuccess(body: Json) {
    && body.JObject?
    && Field(body.fields, "success").Some?
    && Truthy(Defined(Field(body.fields, "success").value))
  }

  /** `sendCode`: true exactly when the reply says `success`, whatever its
      status. */
  function SendCodeResult(reply: Reply): (sent: bool)
    ensures sent <==> reply.Reply? && reply.body.Some? && SaysSuccess(reply.body.value)
  {
    SuccessFlag(reply) == Some(true)
  }

  /** `checkCode`: also needs status 200. */
  function CheckCodeResult(reply: Reply): (ok: bool)
    ensures ok <==> reply.Reply? && reply.status == 200 && reply.body.Some? && SaysSuccess(reply.body.value)
  {
    reply.Reply? && reply.status == 200 && SuccessFlag(reply) == Some(true)
  }

  /** `sendCode` trusts the body alone; `checkCode` accepts a subset of
      those replies, the ones with status 200. */
  lemma CheckCodeStricterThanSendCode(reply: Reply, status: int)
    ensures CheckCodeResult(reply) <==> SendCodeResult(reply) && reply.status == 200
    ensures reply.Reply? ==> SendCodeResult(reply) == SendCodeResult(Reply(status, reply.body))
  {
  }

  /** The auth context's state after an action: its user (`null` is
      `Defined(JNull)`), what the action returned, and where the router was
      sent. */
  datatype AuthResult = AuthResult(ok: bool, user: Value, navigate: Option<string>)

  /** `isAuthenticated`. */
  predicate Authenticated(user: Value) {
    Truthy(user)
  }

  /** Where `login` sends a user whose role is the string `role`: the
      dashboard for `user`, the admin area for any role starting with
      `admin`, nowhere otherwise. */
  function RoleTarget(role: string): Option<string> {
    if role == "user" then Some(DashboardPath)
    else if StartsWith(role, "admin") then Some("/admin")
    else None
  }

  /** `user.role` when the user is an object whose role is a string;
      `None` when the role is missing or not a string, or the user is not an
      object. */
  function RoleText(user: Value): Option<string> {
    if user.Defined? && user.json.JObject? then
      match Field(user.json.fields, "role")
      case Some(JStr(role)) => Some(role)
      case _ => None
    else None
  }

  /** `login`: on status 200 with `success` the user is stored first; then
      a `user` role goes to the dashboard, a role starting with `admin` to
      the admin area, and any other string role stays put. Reading the role
      of a missing user, or calling `startsWith` on a role that is not a
      string, throws after the user was stored, and the result is false. */
  function Login(reply: Reply, user: Value): (r: AuthResult)
    ensures !CheckCodeResult(reply) ==> r == AuthResult(false, user, None)
    ensures CheckCodeResult(reply) ==> r.user == Prop(Defined(reply.body.value), "user").value
    ensures r.ok <==> CheckCodeResult(reply) && RoleText(r.user).Some?
    ensures r.ok ==> r.navigate == RoleTarget(RoleText(r.user).value)
    ensures !r.ok ==> r.navigate.None?
  {
    if !CheckCodeResult(reply) then AuthResult(false, user, None)
    else
      var stored := Prop(Defined(reply.body.value), "user").value;
      match Prop(stored, "role")
      case None => AuthResult(false, stored, None)
      case Some(role) =>
        if role == Defined(JStr("user")) then AuthResult(true, stored, Some(DashboardPath))
        else if !role.Defined? || !role.json.JStr? then AuthResult(false, stored, None)
        else if StartsWith(role.json.s, "admin") then AuthResult(true, stored, Some("/admin"))
        else AuthResult(true, stored, None)
  }

  /** A successful reply whose user carries no role still signs the user
      in, while `login` reports failure. */
  lemma LoginFailsAfterStoringUser()
    ensures var reply := Reply(200, Some(JObject([("success", JBool(true)), ("user", JObject([]))])));
      var r := Login(reply, Defined(JNull));
      !r.ok && Authenticated(r.user)
  {
  }

  /** Every signed-in role of `types/user.ts` is sent to its area. */
  lemma LoginRoutesEveryRole(role: UserRole)
    ensures var user := JObject([("role", JStr(RoleName(role)))]);
      var reply := Reply(200, Some(JObject([("success", JBool(true)), ("user", user)])));
      Login(reply, Defined(JNull)) ==
        AuthResult(true, Defined(user), Some(if role == RegularUser then DashboardPath else "/admin"))
  {
    var user := JObject([("role", JStr(RoleName(role)))]);
    var body := JObject([("success", JBool(true)), ("user", user)]);
    assert Field(body.fields, "user") == Some(user);
    assert Field(body.fields[..1], "success") == Some(JBool(true));
    assert Field(body.fields, "success") == Some(JBool(true));
    assert Field(user.fields, "role") == Some(JStr(RoleName(role)));
    if role != RegularUser {
      assert RoleName(role)[..5] == "admin";
    }
  }

  /** `register`: status 200 with `success` stores the user and goes to
      the dashboard. */
  function Register(reply: Reply, user: Value): (r: AuthResult)
    ensures r.ok <==> CheckCodeResult(reply)
    ensures r.ok ==> r.navigate == Some(DashboardPath) && r.user == Prop(Defined(reply.body.value), "user").value
    ensures !r.ok ==> r == AuthResult(false, user, None)
  {
    if !CheckCodeResult(reply) then AuthResult(false, user, None)
    else AuthResult(true, Prop(Defined(reply.body.value), "user").value, Some(DashboardPath))
  }

  /** `logout`: once the request gets any reply the user is cleared and
      the home page shown; a network failure changes nothing. */
  function Logout(reached: bool, user: Value): (r: AuthResult)
    ensures !Authenticated(r.user) <==> reached || !Authenticated(user)
    ensures r.navigate.Some? <==> reached
    ensures reached ==> r.user == Defined(JNull) && r.navigate == Some("/")
    ensures !reached ==> r.user == user && r.navigate.None?
  {
    if reached then AuthResult(true, Defined(JNull), Some("/")) else AuthResult(true, user, None)
  }

  /** `verifyToken` of `lib/auth-utils.ts`: the `user` of a status-200
      reply that says `success`, else `null`. */
  function VerifyTokenClient(reply: Reply): (user: Value)
    ensures Truthy(user) ==> CheckCodeResult(reply)
    ensures CheckCodeResult(reply) ==> user == Prop(Defined(reply.body.value), "user").value
  {
    if CheckCodeResult(reply) then Prop(Defined(reply.body.value), "user").value
    else Defined(JNull)
  }

  /** `checkAuth`, the effect run when the provider mounts. `onAuthPage`
      is `page == 'auth'`. A user found on the sign-in pages is sent to
      their area; no user anywhere else is sent to sign in. */
  function CheckAuth(onAuthPage: bool, found: Value, user: Value): (r: AuthResult)
    ensures Truthy(found) ==> r.user == found && Authenticated(r.user)
    ensures !Truthy(found) ==> r.user == user
    ensures r.navigate == Some(LoginPath) <==> !Truthy(found) && !onAuthPage
    ensures r.navigate.Some? && r.navigate.value != LoginPath ==> Truthy(found) && onAuthPage
    ensures Truthy(found) && onAuthPage ==>
      r.navigate == Some(if RoleText(found) == Some("user") then DashboardPath else "/admin")
    ensures Truthy(found) && !onAuthPage ==> r.navigate.None?
  {
    if Truthy(found) then
      var role := Prop(found, "role").value;
      AuthResult(true, found,
        if onAuthPage then Some(if role == Defined(JStr("user")) then DashboardPath else "/admin") else None)
    else AuthResult(true, user, if onAuthPage then None else Some(LoginPath))
  }

  /** A verified user on the sign-in pages is sent to the dashboard when
      their role is `user` and to the admin area for every admin role;
      elsewhere the provider stays where it is. */
  lemma CheckAuthRoutesEveryRole(role: UserRole)
    ensures var user := Defined(JObject([("role", JStr(RoleName(role)))]));
      && CheckAuth(true, user, Defined(JNull)).navigate == Some(if role == RegularUser then DashboardPath else "/admin")
      && CheckAuth(false, user, Defined(JNull)).navigate.None?
  {
    var user := JObject([("role", JStr(RoleName(role)))]);
    assert Field(user.fields, "role") == Some(JStr(RoleName(role)));
  }

  /** On mount the provider is signed in exactly when the verification
      reply carried a truthy user, and a signed-out visitor of a protected
      page is always sent to sign in. */
  lemma MountSignsInVerifiedUsers(onAuthPage: bool, reply: Reply)
    ensures var r := CheckAuth(onAuthPage, VerifyTokenClient(reply), Defined(JNull));
      && (Authenticated(r.user) <==> CheckCodeResult(reply) && Truthy(Prop(Defined(reply.body.value), "user").value))
      && (!Authenticated(r.user) && !onAuthPage ==> r.navigate == Some(LoginPath))
  {
  }
}

=== FILE: arith.dfy ===
/** Facts about multiplication and Euclidean division by a positive
    number that the solver does not find on its own. */
module Arith {

  lemma MulMono(i: int, j: int, n: nat)
    requires i <= j
    ensures i * n <= j * n
  {
    var d: nat := j - i;
    assert j * n == i * n + d * n;
  }

  /** Quotient and remainder are the only pair that rebuilds `x`. */
  lemma DivModUnique(x: int, q: int, r: int, n: nat)
    requires n > 0 && x == q * n + r && 0 <= r < n
    ensures x / n == q && x % n == r
  {
    var q', r' := x / n, x % n;
    assert x == q' * n + r';
    if q' < q {
      MulMono(q' + 1, q, n);
      assert false;
    } else if q' > q {
      MulMono(q + 1, q', n);
      assert false;
    }
  }
}

=== FILE: clock.dfy ===
/** Time-of-day arithmetic of the slot pages: `HH:MM` formatting and parsing
    (`app/admin/timeslots/page.tsx`), the time pattern of the new-slot form
    and its end-after-start and exactly-30-minutes checks
    (`app/admin/timeslots/new/page.tsx`). */
module Clock {
  import opened Wrappers
  import opened Text
  import opened Domain

  const MinutesPerDay: nat := 1440

  /** What `getHours()` and `getMinutes()` of a `Date` return. */
  datatype TimeOfDay = TimeOfDay(hours: nat, minutes: nat) {
    predicate Valid() {
      hours < 24 && minutes < 60
    }

    /** Minutes since midnight. */
    function Minutes(): nat {
      hours * 60 + minutes
    }
  }

  /** The time of day `setHours(h, m)` lands on when `h * 60 + m` minutes
      are added to midnight: whole days roll over. */
  function FromMinutes(total: nat): (t: TimeOfDay)
    ensures t.Valid()
    ensures t.Minutes() == total % MinutesPerDay
  {
    var d := total % MinutesPerDay;
    TimeOfDay(d / 60, d % 60)
  }

  /** A valid time is the time its own minute count lands on. */
  lemma FromMinutesOfValid(t: TimeOfDay)
    requires t.Valid()
    ensures FromMinutes(t.hours * 60 + t.minutes) == t
  {
    var n := t.Minutes();
    assert n % MinutesPerDay == n;
    assert n / 60 == t.hours && n % 60 == t.minutes;
  }

  /** `formatTimeToString`, and the picker's `formattedTime`: hours and
      minutes, each zero-padded to two digits, joined by a colon. */
  function FormatTime(t: TimeOfDay): (s: string)
    requires t.Valid()
    ensures |s| == 5 && s[2] == ':'
    ensures AllDigits(s[..2]) && AllDigits(s[3..])
    ensures DecimalValue(s[..2]) == t.hours && DecimalValue(s[3..]) == t.minutes
  {
    var s := TwoDigits(t.hours) + ":" + TwoDigits(t.minutes);
    assert s[..2] == TwoDigits(t.hours) && s[3..] == TwoDigits(t.minutes);
    s
  }

  /** `Number(piece)` for the pieces this model reads: surrounding white
      space is ignored, the empty string is 0, and anything that is not
      a run of decimal digits is `NaN` (`None`). */
  function NumberValue(s: string): (r: Option<nat>)
    ensures AllDigits(s) ==> r == Some(DecimalValue(s))
  {
    var t := Trim(s);
    TrimDigits(s);
    if AllDigits(t) then Some(DecimalValue(t)) else None
  }

  lemma TrimDigits(s: string)
    ensures AllDigits(s) ==> Trim(s) == s
  {
    if AllDigits(s) && |s| > 0 {
      assert !IsJsWhitespace(s[0]) && !IsJsWhitespace(s[|s| - 1]);
    }
  }

  /** `parseTimeString`: split at `:`, read the first two pieces as
      numbers and set them as hours and minutes of a `Date`; a missing or
      non-numeric piece gives an invalid date (`None`). */
  function ParseTime(s: string): (r: Option<TimeOfDay>)
    ensures r.Some? ==> r.value.Valid()
    ensures ':' !in s ==> r.None?
  {
    var parts := Split(s, ':');
    SplitLength(s, ':');
    NoColonCountsZero(s);
    if |parts| < 2 then None
    else Combine(NumberValue(parts[0]), NumberValue(parts[1]))
  }

  lemma {:induction false} NoColonCountsZero(s: string)
    ensures ':' !in s ==> Count(s, ':') == 0
    decreases |s|
  {
    if |s| > 0 && ':' !in s {
      assert ':' !in s[1..] by {
        forall i | 0 <= i < |s[1..]| ensures s[1..][i] != ':' {
          assert s[1..][i] == s[i + 1];
        }
      }
      NoColonCountsZero(s[1..]);
    }
  }

  /** Hours and minutes read from the two pieces, set on a `Date`. */
  function Combine(h: Option<nat>, m: Option<nat>): Option<TimeOfDay> {
    if h.Some? && m.Some? then Some(FromMinutes(h.value * 60 + m.value)) else None
  }

  lemma SplitTwo(a: string, b: string)
    requires ':' !in a && ':' !in b
    ensures Split(a + ":" + b, ':') == [a, b]
  {
    assert a + ":" + b == a + [':'] + b;
    SplitFirst(a, b, ':');
    SplitNoSeparator(b, ':');
  }

  /** What `formatTimeToString` prints for an invalid date: each
      `getHours()`/`getMinutes()` is `NaN`, which `padStart` leaves as is. */
  const InvalidTimeText: string := "NaN:NaN"

  /** The invalid date's text does not parse back into a time. */
  lemma InvalidTimeTextUnparsed()
    ensures ParseTime(InvalidTimeText) == None
  {
  }

  lemma DigitsHaveNoColon(s: string)
    requires AllDigits(s)
    ensures ':' !in s
  {
  }

  /** Two digit strings of length two with the same value are equal. */
  lemma TwoDigitStringsEqual(x: string, y: string)
    requires |x| == 2 && |y| == 2 && AllDigits(x) && AllDigits(y)
    requires DecimalValue(x) == DecimalValue(y)
    ensures x == y
  {
    TwoDigitValue(x);
    TwoDigitValue(y);
  }

  lemma TwoDigitValue(x: string)
    requires |x| == 2 && AllDigits(x)
    ensures DecimalValue(x) == DigitValue(x[0]) * 10 + DigitValue(x[1])
  {
    var p := x[..1];
    assert p[..0] == [] && p[0] == x[0];
    assert DecimalValue(p) == DigitValue(x[0]);
  }

  lemma OneDigitValue(x: string)
    requires |x| == 1 && AllDigits(x)
    ensures DecimalValue(x) == DigitValue(x[0])
  {
    assert x[..0] == [];
  }

  /** Parsing `a:b` reads `a` as the hour and `b` as the minute. */
  lemma ParsePieces(a: string, b: string)
    requires ':' !in a && ':' !in b
    ensures ParseTime(a + ":" + b) == Combine(NumberValue(a), NumberValue(b))
  {
    SplitTwo(a, b);
  }

  /** A zero-padded field reads back as its number and holds no colon. */
  lemma TwoDigitsNumber(n: nat)
    requires n < 100
    ensures ':' !in TwoDigits(n) && NumberValue(TwoDigits(n)) == Some(n)
  {
    DigitsHaveNoColon(TwoDigits(n));
  }

  /** Formatting then parsing gives back the time. */
  lemma ParseFormat(t: TimeOfDay)
    requires t.Valid()
    ensures ParseTime(FormatTime(t)) == Some(t)
  {
    TwoDigitsNumber(t.hours);
    TwoDigitsNumber(t.minutes);
    ParseFields(TwoDigits(t.hours), TwoDigits(t.minutes), t);
  }

  lemma ParseFields(h: string, m: string, t: TimeOfDay)
    requires t.Valid() && ':' !in h && ':' !in m
    requires NumberValue(h) == Some(t.hours) && NumberValue(m) == Some(t.minutes)
    ensures ParseTime(h + ":" + m) == Some(t)
  {
    ParsePieces(h, m);
    CombineValid(t);
  }

  lemma CombineValid(t: TimeOfDay)
    requires t.Valid()
    ensures Combine(Some(t.hours), Some(t.minutes)) == Some(t)
  {
    FromMinutesOfValid(t);
  }

  /** A well-formed `HH:MM` (two digits, an hour below 24, a colon, two
      digits, a minute below 60) survives parsing and re-formatting
      unchanged. */
  lemma FormatParse(s: string)
    requires |s| == 5 && s[2] == ':' && AllDigits(s[..2]) && AllDigits(s[3..])
    requires DecimalValue(s[..2]) < 24 && DecimalValue(s[3..]) < 60
    ensures ParseTime(s).Some?
    ensures FormatTime(ParseTime(s).value) == s
  {
    var h, m := s[..2], s[3..];
    var t := TimeOfDay(DecimalValue(h), DecimalValue(m));
    assert s == h + ":" + m;
    DigitsHaveNoColon(h);
    DigitsHaveNoColon(m);
    ParseFields(h, m, t);
    TwoDigitStringsEqual(TwoDigits(t.hours), h);
    TwoDigitStringsEqual(TwoDigits(t.minutes), m);
  }

  /** Only the first two colon-separated pieces are read. */
  lemma ParseIgnoresTail(a: string, b: string, rest: string)
    requires ':' !in a && ':' !in b
    ensures ParseTime(a + ":" + b + ":" + rest) == ParseTime(a + ":" + b)
  {
    var s := a + ":" + b + ":" + rest;
    assert s == a + [':'] + (b + [':'] + rest);
    SplitFirst(a, b + [':'] + rest, ':');
    SplitFirst(b, rest, ':');
    ParsePieces(a, b);
  }

  /** Unpadded fields parse: `9:5` reads as nine hours five minutes. */
  lemma ParseUnpadded()
    ensures ParseTime("9:5") == Some(TimeOfDay(9, 5))
  {
    assert "9:5" == "9" + ":" + "5";
    OneDigitValue("9");
    OneDigitValue("5");
    ParseFields("9", "5", TimeOfDay(9, 5));
  }

  /** Formatting pads each field: nine hours five minutes shows as `09:05`. */
  lemma FormatPads()
    ensures FormatTime(TimeOfDay(9, 5)) == "09:05"
  {
    TwoDigitValue("09");
    TwoDigitValue("05");
    TwoDigitStringsEqual(TwoDigits(9), "09");
    TwoDigitStringsEqual(TwoDigits(5), "05");
    assert "09:05" == "09" + ":" + "05";
  }

  /** The hour alternative `([01]?[0-9]|2[0-3])` of the form's pattern. */
  predicate HourPattern(h: string) {
    || (|h| == 1 && IsDigit(h[0]))
    || (|h| == 2 && '0' <= h[0] <= '1' && IsDigit(h[1]))
    || (|h| == 2 && h[0] == '2' && '0' <= h[1] <= '3')
  }

  /** `/^([01]?[0-9]|2[0-3]):[0-5][0-9]$/`. */
  predicate MatchesTimePattern(s: string) {
    && 4 <= |s| <= 5
    && s[|s| - 3] == ':'
    && '0' <= s[|s| - 2] <= '5' && IsDigit(s[|s| - 1])
    && HourPattern(s[..|s| - 3])
  }

  /** The two fields of a string the pattern accepts: digit runs around
      the colon, an hour below 24 and a minute below 60. */
  lemma PatternFields(s: string)
    requires MatchesTimePattern(s)
    ensures var h := s[..|s| - 3]; var m := s[|s| - 2..];
      && s == h + ":" + m
      && AllDigits(h) && AllDigits(m) && ':' !in h && ':' !in m
      && DecimalValue(h) < 24 && DecimalValue(m) < 60
  {
    var h, m := s[..|s| - 3], s[|s| - 2..];
    assert s == h + ":" + m;
    TwoDigitValue(m);
    if |h| == 2 {
      TwoDigitValue(h);
    } else {
      OneDigitValue(h);
    }
  }

  /** Every time the pattern accepts reads back as a valid time of day with
      no rollover: the hour is below 24 and the minute below 60. */
  lemma PatternTimesAreValid(s: string)
    requires MatchesTimePattern(s)
    ensures ParseTime(s).Some?
    ensures var h := s[..|s| - 3]; var m := s[|s| - 2..];
      AllDigits(h) && AllDigits(m) &&
      ParseTime(s).value == TimeOfDay(DecimalValue(h), DecimalValue(m)) &&
      ParseTime(s).value.Valid()
  {
    PatternFields(s);
    var h, m := s[..|s| - 3], s[|s| - 2..];
    ParseFields(h, m, TimeOfDay(DecimalValue(h), DecimalValue(m)));
  }

  /** The pattern accepts every valid time, both zero-padded and with a
      one-digit hour (`9:30`). */
  lemma PatternAcceptsValidTimes(t: TimeOfDay)
    requires t.Valid()
    ensures MatchesTimePattern(FormatTime(t))
    ensures t.hours < 10 ==> MatchesTimePattern(NatToString(t.hours) + ":" + TwoDigits(t.minutes))
  {
    var s := FormatTime(t);
    var m := TwoDigits(t.minutes);
    TwoDigitValue(m);
    var h := TwoDigits(t.hours);
    TwoDigitValue(h);
    assert s[..2] == h && s[3..] == m;
    if t.hours < 10 {
      var u := NatToString(t.hours) + ":" + m;
      assert u[..1] == NatToString(t.hours);
    }
  }

  /** Hour 24 and one-digit minutes are rejected. */
  lemma PatternRejects()
    ensures !MatchesTimePattern("24:00")
    ensures !MatchesTimePattern("9:5")
  {
    assert "24:00"[..2] == "24";
  }

  /** A new slot as `onSubmit` hands it to the backend. */
  datatype NewSlot = NewSlot(date: CalendarDate, start: TimeOfDay, end: TimeOfDay,
                             dormitory: Dormitory, isAvailable: bool)

  /** The values of the new-slot form. */
  datatype SlotForm = SlotForm(date: CalendarDate, startTime: string, endTime: string, dormitory: string)

  datatype SubmitOutcome =
    | FormRejected        // the schema refused a field; `onSubmit` is never called
    | EndNotAfterStart    // error attached to `endTime`
    | NotThirtyMinutes    // error toast
    | Submitted(slot: NewSlot)

  /** The time a form field holds once the schema's pattern accepted it. */
  function PatternTime(s: string): (r: Option<TimeOfDay>)
    ensures r.Some? <==> MatchesTimePattern(s)
    ensures r.Some? ==> r.value.Valid() && ParseTime(s) == r
  {
    if MatchesTimePattern(s) then
      PatternTimesAreValid(s);
      ParseTime(s)
    else None
  }

  /** The schema check followed by `onSubmit`: both times on the picked
      date, end strictly after start, exactly 30 minutes apart. */
  function SubmitSlot(form: SlotForm): (r: SubmitOutcome)
    ensures r.Submitted? <==>
      && PatternTime(form.startTime).Some? && PatternTime(form.endTime).Some?
      && ParseDormitory(form.dormitory).Some?
      && PatternTime(form.endTime).value.Minutes() == PatternTime(form.startTime).value.Minutes() + 30
    ensures r.Submitted? ==>
      && r.slot.date == form.date
      && r.slot.isAvailable
      && Some(r.slot.dormitory) == ParseDormitory(form.dormitory)
      && Some(r.slot.start) == ParseTime(form.startTime)
      && Some(r.slot.end) == ParseTime(form.endTime)
      && r.slot.end.Minutes() == r.slot.start.Minutes() + 30
    ensures r == EndNotAfterStart <==>
      && PatternTime(form.startTime).Some? && PatternTime(form.endTime).Some?
      && ParseDormitory(form.dormitory).Some?
      && PatternTime(form.endTime).value.Minutes() <= PatternTime(form.startTime).value.Minutes()
    ensures r == NotThirtyMinutes <==>
      && PatternTime(form.startTime).Some? && PatternTime(form.endTime).Some?
      && ParseDormitory(form.dormitory).Some?
      && PatternTime(form.endTime).value.Minutes() > PatternTime(form.startTime).value.Minutes()
      && PatternTime(form.endTime).value.Minutes() != PatternTime(form.startTime).value.Minutes() + 30
    ensures r == FormRejected <==>
      PatternTime(form.startTime).None? || PatternTime(form.endTime).None? || ParseDormitory(form.dormitory).None?
  {
    match (PatternTime(form.startTime), PatternTime(form.endTime), ParseDormitory(form.dormitory))
    case (Some(start), Some(end), Some(dormitory)) =>
      if end.Minutes() <= start.Minutes() then EndNotAfterStart
      else if end.Minutes() - start.Minutes() != 30 then NotThirtyMinutes
      else Submitted(NewSlot(form.date, start, end, dormitory, true))
    case _ => FormRejected
  }

  /** A formatted valid time passes the pattern and reads back as itself. */
  lemma PatternTimeOfFormatted(t: TimeOfDay)
    requires t.Valid()
    ensures PatternTime(FormatTime(t)) == Some(t)
  {
    PatternAcceptsValidTimes(t);
    ParseFormat(t);
  }

  lemma QuarterToMidnight()
    ensures PatternTime("23:45") == Some(TimeOfDay(23, 45))
  {
    TwoDigitValue("23");
    TwoDigitValue("45");
    TwoDigitStringsEqual(TwoDigits(23), "23");
    TwoDigitStringsEqual(TwoDigits(45), "45");
    assert "23:45" == "23" + ":" + "45";
    PatternTimeOfFormatted(TimeOfDay(23, 45));
  }

  lemma QuarterPastMidnight()
    ensures PatternTime("00:15") == Some(TimeOfDay(0, 15))
  {
    TwoDigitValue("00");
    TwoDigitValue("15");
    TwoDigitStringsEqual(TwoDigits(0), "00");
    TwoDigitStringsEqual(TwoDigits(15), "15");
    assert "00:15" == "00" + ":" + "15";
    PatternTimeOfFormatted(TimeOfDay(0, 15));
  }

  /** A slot that would cross midnight is never submitted: `23:45` to
      `00:15` reads as an end before the start. */
  lemma MidnightCrossingRejected(date: CalendarDate)
    ensures SubmitSlot(SlotForm(date, "23:45", "00:15", "dormitory-1")) == EndNotAfterStart
  {
    QuarterToMidnight();
    QuarterPastMidnight();
  }
}

=== FILE: dates.dfy ===
/** Picking a date on the booking page (`app/dashboard/reservations/new/
    page.tsx`): the Jalali date the picker hands over, the shape guard in
    front of the calendar conversion, the `YYYY-MM-DD` text of the
    converted date, the tab that text selects, and the guard in front of
    the booking request (also in `app/reservations/new/page.tsx`). The
    Jalali-to-Gregorian conversion and `new Date(key).toISOString()` are
    library code and enter as function parameters. */
module Dates {
  import opened Wrappers
  import opened Text
  import opened Domain
  import opened Persian
  import opened Schedule

  /** A string that holds a character only when it is a digit. */
  lemma DigitsHoldNo(s: string, c: char)
    requires AllDigits(s) && !IsDigit(c)
    ensures c !in s
  {
  }

  /** Three parts joined by a separator none of them holds split back
      into those three parts. */
  lemma SplitThree(a: string, b: string, c: string, sep: char)
    requires sep !in a && sep !in b && sep !in c
    ensures Split(a + [sep] + b + [sep] + c, sep) == [a, b, c]
  {
    var tail := b + [sep] + c;
    assert a + [sep] + b + [sep] + c == a + [sep] + tail;
    SplitNoSeparator(c, sep);
    SplitFirst(b, c, sep);
    assert Split(tail, sep) == [b, c];
    SplitFirst(a, tail, sep);
    assert Split(a + [sep] + tail, sep) == [a] + [b, c];
  }

  /** What the picker's `onChange` passes on: the picked date formatted
      `YYYY/MM/DD`, Persian digits turned into ASCII ones. */
  function PickedDate(formatted: string): (date: string)
    ensures |date| == |formatted|
    ensures |Split(date, '/')| == |Split(formatted, '/')|
  {
    ConvertKeepsSlashes(formatted);
    ConvertFAtoEN(formatted)
  }

  /** The shape `jalaliToGregorian` insists on: three `/`-separated parts. */
  predicate ThreeParts(s: string) {
    |Split(s, '/')| == 3
  }

  /** A `Date` as the library hands it back: either an invalid date or a
      real one, whose month and day are always in range. */
  type RealDate = d: CalendarDate | d.Valid() witness CalendarDate(0, 0, 1)

  datatype JsDate = InvalidDate | Date(date: RealDate)

  /** `jalaliToGregorian`: `null` for any other shape, without consulting
      the calendar library; otherwise whatever the library makes of it,
      `null` where it throws. */
  function JalaliToGregorian(s: string, convert: string -> Option<JsDate>): (r: Option<JsDate>)
    ensures !ThreeParts(s) ==> r.None?
    ensures ThreeParts(s) ==> r == convert(s)
  {
    if !ThreeParts(s) then None else convert(s)
  }

  /** Every date the picker produces from a `YYYY/MM/DD` text, whatever
      script its digits are in, reaches the conversion. */
  lemma PickedDatesPassTheGuard(year: string, month: string, day: string)
    requires '/' !in year && '/' !in month && '/' !in day
    ensures ThreeParts(PickedDate(year + "/" + month + "/" + day))
  {
    SplitThree(year, month, day, '/');
  }

  /** `formatDateToLocalDate` on a real date: the year, the 1-based month
      and the day, the last two padded to two digits, joined by `-`. */
  function FormatLocalDate(d: RealDate): (s: string)
    ensures d.year >= 0 ==> Split(s, '-') == [NatToString(d.year), TwoDigits(d.monthIndex + 1), TwoDigits(d.day)]
  {
    var y, m, dd := IntToString(d.year), TwoDigits(d.monthIndex + 1), TwoDigits(d.day);
    var s := y + "-" + m + "-" + dd;
    if d.year >= 0 then
      DigitsHoldNo(y, '-');
      DigitsHoldNo(m, '-');
      DigitsHoldNo(dd, '-');
      SplitThree(y, m, dd, '-');
      s
    else s
  }

  /** The same on any `Date`: an invalid one formats every field as `NaN`. */
  function LocalDateText(g: JsDate): (s: string)
    ensures g.InvalidDate? ==> s == "NaN-NaN-NaN"
    ensures g.Date? ==> s == FormatLocalDate(g.date)
  {
    match g
    case InvalidDate => "NaN-NaN-NaN"
    case Date(d) => FormatLocalDate(d)
  }

  /** Reads `YYYY-MM-DD` back: three runs of digits, a month of 1 to 12
      and a day of 1 to 31. */
  function ReadLocalDate(s: string): (d: Option<RealDate>)
    ensures d.Some? ==> d.value.year >= 0
    ensures d.Some? ==> |Split(s, '-')| == 3 && AllDigits(Split(s, '-')[0])
  {
    var parts := Split(s, '-');
    if |parts| != 3 || !AllDigits(parts[0]) || !AllDigits(parts[1]) || !AllDigits(parts[2]) then None
    else
      var month, day := DecimalValue(parts[1]), DecimalValue(parts[2]);
      if 1 <= month <= 12 && 1 <= day <= 31 then Some(CalendarDate(DecimalValue(parts[0]), month - 1, day))
      else None
  }

  /** The formatted date reads back as the date, for every year from 0. */
  lemma ReadFormatLocalDate(d: RealDate)
    requires d.year >= 0
    ensures ReadLocalDate(FormatLocalDate(d)) == Some(d)
  {
  }

  /** So distinct dates never share a text. */
  lemma FormatLocalDateInjective(a: RealDate, b: RealDate)
    requires a.year >= 0 && b.year >= 0
    ensures FormatLocalDate(a) == FormatLocalDate(b) <==> a == b
  {
    ReadFormatLocalDate(a);
    ReadFormatLocalDate(b);
  }

  /** No real date of a year from 0 is written like an invalid one. */
  lemma InvalidDateTextIsNoDate(d: RealDate)
    requires d.year >= 0
    ensures LocalDateText(Date(d)) != LocalDateText(InvalidDate)
  {
    ReadFormatLocalDate(d);
    SplitThree("NaN", "NaN", "NaN", '-');
    assert !IsDigit('N');
    assert !AllDigits("NaN");
  }

  /** `availableDates.find(d => formatDateToISO(d) === isoDate)`:
      `normalise` is `formatDateToISO`, `None` where `toISOString` throws
      on an invalid date, which aborts the search. */
  datatype Search = Aborted | NotFound | FoundKey(key: string)

  function FindDate(keys: seq<string>, iso: string, normalise: string -> Option<string>): (r: Search)
    ensures r.FoundKey? ==> r.key in keys && normalise(r.key) == Some(iso)
    decreases |keys|
  {
    if |keys| == 0 then NotFound
    else match normalise(keys[0])
      case None => Aborted
      case Some(n) => if n == iso then FoundKey(keys[0]) else FindDate(keys[1..], iso, normalise)
  }

  /** A key normalises without matching. */
  predicate Passed(key: string, iso: string, normalise: string -> Option<string>) {
    normalise(key).Some? && normalise(key) != Some(iso)
  }

  /** The search finds nothing exactly when every key normalises without
      matching, and what it finds is the first key that matches. */
  lemma {:induction false} FindDateFirst(keys: seq<string>, iso: string, normalise: string -> Option<string>)
    ensures FindDate(keys, iso, normalise).NotFound? <==>
      forall i :: 0 <= i < |keys| ==> Passed(keys[i], iso, normalise)
    ensures FindDate(keys, iso, normalise).FoundKey? ==>
      exists i :: 0 <= i < |keys| && keys[i] == FindDate(keys, iso, normalise).key
                  && forall j :: 0 <= j < i ==> Passed(keys[j], iso, normalise)
    decreases |keys|
  {
    if |keys| > 0 && Passed(keys[0], iso, normalise) {
      var rest := keys[1..];
      FindDateFirst(rest, iso, normalise);
      assert forall i :: 1 <= i < |keys| ==> keys[i] == rest[i - 1];
      if FindDate(rest, iso, normalise).FoundKey? {
        var i :| 0 <= i < |rest| && rest[i] == FindDate(rest, iso, normalise).key
          && forall j :: 0 <= j < i ==> Passed(rest[j], iso, normalise);
        assert keys[i + 1] == rest[i];
      }
    } else if |keys| > 0 && normalise(keys[0]).Some? {
      assert keys[0] == FindDate(keys, iso, normalise).key;
    }
  }

  /** The search stops at a key that matches when every key before it
      normalised without matching. */
  lemma {:induction false} FindDateReaches(keys: seq<string>, iso: string, normalise: string -> Option<string>, k: nat)
    requires k < |keys| && normalise(keys[k]) == Some(iso)
    requires forall j :: 0 <= j < k ==> Passed(keys[j], iso, normalise)
    ensures FindDate(keys, iso, normalise) == FoundKey(keys[k])
    decreases k
  {
    if k > 0 {
      assert Passed(keys[0], iso, normalise);
      assert forall j :: 0 <= j < k - 1 ==> keys[1..][j] == keys[j + 1];
      FindDateReaches(keys[1..], iso, normalise, k - 1);
    }
  }

  /** `handleDateSelect`: the tab after a date is picked. An empty date,
      schedules not yet loaded, a date the guard or the library refuses,
      and a date no key matches all show `all`; a (non-empty) match opens
      its key; a search that throws leaves the tab as it was. */
  function SelectDate(date: string, slots: Option<Schedule>, tab: string,
                      convert: string -> Option<JsDate>, normalise: string -> Option<string>): (r: string)
    ensures date == "" || slots.None? ==> r == "all"
    ensures !ThreeParts(date) ==> r == "all"
    ensures slots.Some? && r != "all" && r != tab ==> r in Keys(slots.value)
    ensures date != "" && slots.Some? && JalaliToGregorian(date, convert).None? ==> r == "all"
    ensures date != "" && slots.Some? && JalaliToGregorian(date, convert).Some? ==>
      var found := FindDate(Keys(slots.value), LocalDateText(JalaliToGregorian(date, convert).value), normalise);
      && (found.Aborted? ==> r == tab)
      && (found.NotFound? ==> r == "all")
      && (found.FoundKey? ==> r == if found.key == "" then "all" else found.key)
  {
    if date == "" || slots.None? then "all"
    else match JalaliToGregorian(date, convert)
      case None => "all"
      case Some(g) =>
        match FindDate(Keys(slots.value), LocalDateText(g), normalise)
        case Aborted => tab
        case NotFound => "all"
        case FoundKey(key) => if key != "" then key else "all"
  }

  /** The page never opens a tab that names no loaded date: a sound tab
      stays sound across every pick. */
  lemma SelectDateKeepsTabSound(date: string, s: Schedule, tab: string,
                                convert: string -> Option<JsDate>, normalise: string -> Option<string>)
    requires TabShowsKeys(s, tab)
    ensures TabShowsKeys(s, SelectDate(date, Some(s), tab, convert, normalise))
  {
  }

  /** A picked date opens the tab of the first loaded key that normalises
      to the date's `YYYY-MM-DD` text, when the keys before it all
      normalise to other dates. */
  lemma SelectDateOpensFirstMatch(date: string, s: Schedule, tab: string,
                                  convert: string -> Option<JsDate>, normalise: string -> Option<string>, k: nat)
    requires date != "" && ThreeParts(date) && convert(date).Some?
    requires k < |s| && s[k].0 != ""
    requires normalise(s[k].0) == Some(LocalDateText(convert(date).value))
    requires forall j :: 0 <= j < k ==> Passed(s[j].0, LocalDateText(convert(date).value), normalise)
    ensures SelectDate(date, Some(s), tab, convert, normalise) == s[k].0
  {
    FindDateReaches(Keys(s), LocalDateText(convert(date).value), normalise, k);
  }

  /** The slot the user picked on the booking page. */
  datatype Selection = Selection(date: string, slotId: string)

  /** `handleReservation`: with nothing selected no request is made;
      otherwise the request carries the selected slot's id and nothing
      else. */
  function ReserveRequest(selected: Option<Selection>): (slotId: Option<string>)
    ensures slotId.None? <==> selected.None?
    ensures slotId.Some? ==> slotId.value == selected.value.slotId
  {
    match selected
    case None => None
    case Some(sel) => Some(sel.slotId)
  }

  /** A slot the page lists, and so the one a request names, has capacity
      left in the schedule the server sent, under the same date. */
  lemma ReservedSlotsHaveCapacity(raw: Schedule, sel: Selection, k: nat)
    requires WellKeyed(raw)
    requires Lookup(AvailableOnly(raw), sel.date).Some?
    requires k < |Lookup(AvailableOnly(raw), sel.date).value.slots|
    requires Lookup(AvailableOnly(raw), sel.date).value.slots[k].id == sel.slotId
    ensures ReserveRequest(Some(sel)) == Some(sel.slotId)
    ensures Lookup(raw, sel.date).Some?
    ensures exists slot :: slot in Lookup(raw, sel.date).value.slots && slot.id == sel.slotId && slot.capacityLeft > 0
  {
    AvailableOnlyLookup(raw, sel.date);
    var slot := Lookup(AvailableOnly(raw), sel.date).value.slots[k];
    assert slot in Lookup(AvailableOnly(raw), sel.date).value.slots;
  }
}

=== FILE: domain.dfy ===
/** The closed enumerations of the application's type declarations
    (`types/user.ts`, `types/reservation.ts`) and the calendar fields a
    JavaScript `Date` exposes. Each enumeration carries its wire name and a
    parser that inverts it. */
module Domain {
  import opened Wrappers

  /** `UserRole` of `types/user.ts`. */
  datatype UserRole = RegularUser | MainAdmin | Dormitory1Admin | Dormitory2Admin

  function RoleName(r: UserRole): string {
    match r
    case RegularUser => "user"
    case MainAdmin => "admin"
    case Dormitory1Admin => "admin-dormitory-1"
    case Dormitory2Admin => "admin-dormitory-2"
  }

  /** Reads a role back from its wire name. */
  function ParseRole(s: string): (r: Option<UserRole>)
    ensures r.Some? ==> RoleName(r.value) == s
    ensures r.None? <==> forall role: UserRole :: RoleName(role) != s
  {
    if s == "user" then Some(RegularUser)
    else if s == "admin" then Some(MainAdmin)
    else if s == "admin-dormitory-1" then Some(Dormitory1Admin)
    else if s == "admin-dormitory-2" then Some(Dormitory2Admin)
    else None
  }

  /** `Dormitory` of `types/user.ts`, also the `z.enum(['dormitory-1',
      'dormitory-2'])` of every form. */
  datatype Dormitory = Dormitory1 | Dormitory2

  function DormitoryName(d: Dormitory): string {
    match d
    case Dormitory1 => "dormitory-1"
    case Dormitory2 => "dormitory-2"
  }

  /** The `z.enum` check: accepts exactly the two dormitory names. */
  function ParseDormitory(s: string): (r: Option<Dormitory>)
    ensures r.Some? ==> DormitoryName(r.value) == s
    ensures r.None? <==> forall d: Dormitory :: DormitoryName(d) != s
  {
    if s == "dormitory-1" then Some(Dormitory1)
    else if s == "dormitory-2" then Some(Dormitory2)
    else None
  }

  /** `ReservationStatus` as `types/reservation.ts` declares it. */
  datatype ReservationStatus = Waiting | Washing | Ready

  function StatusName(s: ReservationStatus): string {
    match s
    case Waiting => "waiting"
    case Washing => "washing"
    case Ready => "ready"
  }

  /** The local calendar fields of a `Date`: `getFullYear()`, `getMonth()`
      (0-based) and `getDate()`. */
  datatype CalendarDate = CalendarDate(year: int, monthIndex: int, day: int) {
    predicate Valid() {
      0 <= monthIndex < 12 && 1 <= day <= 31
    }
  }
}

=== FILE: forms.dfy ===
/** The zod schemas of the sign-in, sign-up and profile forms, and the
    two-step flows of `app/auth/login/page.tsx` and
    `app/auth/register/page.tsx`: a phone (or the full sign-up form) first,
    then a five-character code. Replies of the auth context's actions are
    parameters; the calls the pages make are outputs. String lengths count
    code points, which agree with JavaScript's UTF-16 lengths for the Basic
    Multilingual Plane text these forms take. */
module Forms {
  import opened Wrappers
  import opened Domain

  /** The three zod string checks the forms use. */
  datatype Rule = MinLength(n: nat) | ExactLength(n: nat) | OneOf(options: seq<string>)

  predicate Satisfies(s: string, r: Rule) {
    match r
    case MinLength(n) => |s| >= n
    case ExactLength(n) => |s| == n
    case OneOf(options) => s in options
  }

  datatype Field = Field(name: string, rule: Rule)

  /** A `z.object` of string fields. */
  type Schema = seq<Field>

  /** Form values, one per field of the schema and in its order: the
      form holds a value for every field (react-hook-form starts each from
      its default). */
  type Values = seq<string>

  predicate Covers(schema: Schema, v: Values) {
    |v| == |schema|
  }

  /** The fields whose check fails, in schema order: zod reports every
      failing field, not just the first. */
  function Failures(schema: Schema, v: Values): (failed: seq<string>)
    requires Covers(schema, v)
    ensures |failed| <= |schema|
    ensures forall n :: n in failed <==>
      exists i :: 0 <= i < |schema| && schema[i].name == n && !Satisfies(v[i], schema[i].rule)
    decreases |schema|
  {
    if |schema| == 0 then []
    else
      var rest := Failures(schema[1..], v[1..]);
      assert forall i :: 1 <= i < |schema| ==> schema[i] == schema[1..][i - 1] && v[i] == v[1..][i - 1];
      if Satisfies(v[0], schema[0].rule) then rest else [schema[0].name] + rest
  }

  /** `handleSubmit` runs the page's handler only for values the schema
      accepts. */
  predicate Accepts(schema: Schema, v: Values) {
    Covers(schema, v) && |Failures(schema, v)| == 0
  }

  lemma AcceptsEveryField(schema: Schema, v: Values)
    requires Covers(schema, v)
    ensures Accepts(schema, v) <==> forall i :: 0 <= i < |schema| ==> Satisfies(v[i], schema[i].rule)
  {
    if !Accepts(schema, v) {
      var n := Failures(schema, v)[0];
      assert n in Failures(schema, v);
    } else {
      forall i | 0 <= i < |schema| ensures Satisfies(v[i], schema[i].rule) {
        assert schema[i].name !in Failures(schema, v);
      }
    }
  }

  const DormitoryRule: Rule := OneOf(["dormitory-1", "dormitory-2"])

  /** `z.enum(['dormitory-1', 'dormitory-2'])` accepts exactly the names of
      the `Dormitory` type. */
  lemma DormitoryRuleIsEnum(s: string)
    ensures Satisfies(s, DormitoryRule) <==> ParseDormitory(s).Some?
  {
  }

  /** `registerSchema`. */
  const RegisterSchema: Schema := [
    Field("first_name", MinLength(2)), Field("last_name", MinLength(2)),
    Field("phone", MinLength(10)), Field("student_id", MinLength(5)),
    Field("dormitory", DormitoryRule)]

  /** `verifySchema`, the same on both pages. */
  const VerifySchema: Schema := [Field("code", ExactLength(5))]

  /** `loginSchema`. */
  const LoginSchema: Schema := [Field("phone", MinLength(10))]

  /** `profileSchema` of `app/dashboard/profile/page.tsx`. */
  const DashboardProfileSchema: Schema := [
    Field("first_name", MinLength(2)), Field("last_name", MinLength(2)),
    Field("student_id", MinLength(9)), Field("dormitory", DormitoryRule)]

  /** `profileSchema` of the older `app/profile/page.tsx`. */
  const LegacyProfileSchema: Schema := [
    Field("first_name", MinLength(2)), Field("last_name", MinLength(2)),
    Field("student_id", MinLength(5)), Field("dormitory", DormitoryRule)]

  /** `RegisterFormValues`. */
  datatype RegisterValues = RegisterValues(firstName: string, lastName: string, phone: string,
                                           studentId: string, dormitory: string)

  function RegisterFields(r: RegisterValues): Values {
    [r.firstName, r.lastName, r.phone, r.studentId, r.dormitory]
  }

  /** The sign-up form's check, field by field: names of two characters
      or more, a phone of ten or more characters of any kind, a student id
      of five or more, one of the two dormitories. */
  function RegisterValid(r: RegisterValues): (ok: bool)
    ensures ok <==> |r.firstName| >= 2 && |r.lastName| >= 2 && |r.phone| >= 10
                    && |r.studentId| >= 5 && ParseDormitory(r.dormitory).Some?
  {
    RegisterChecks(r);
    Accepts(RegisterSchema, RegisterFields(r))
  }

  lemma RegisterChecks(r: RegisterValues)
    ensures Accepts(RegisterSchema, RegisterFields(r)) <==>
      |r.firstName| >= 2 && |r.lastName| >= 2 && |r.phone| >= 10
      && |r.studentId| >= 5 && ParseDormitory(r.dormitory).Some?
  {
    var v := RegisterFields(r);
    AcceptsEveryField(RegisterSchema, v);
    var checks := [|r.firstName| >= 2, |r.lastName| >= 2, |r.phone| >= 10,
                   |r.studentId| >= 5, ParseDormitory(r.dormitory).Some?];
    forall i | 0 <= i < |RegisterSchema|
      ensures Satisfies(v[i], RegisterSchema[i].rule) == checks[i]
    {
      if i == 4 { DormitoryRuleIsEnum(r.dormitory); }
    }
    assert (forall i :: 0 <= i < 5 ==> checks[i]) ==> checks[0] && checks[1] && checks[2] && checks[3] && checks[4];
  }

  /** The code check: exactly five characters. */
  function CodeValid(code: string): (ok: bool)
    ensures ok <==> |code| == 5
  {
    var v := [code];
    AcceptsEveryField(VerifySchema, v);
    Accepts(VerifySchema, v)
  }

  /** The sign-in check: a phone of ten or more characters. */
  function PhoneValid(phone: string): (ok: bool)
    ensures ok <==> |phone| >= 10
  {
    var v := [phone];
    AcceptsEveryField(LoginSchema, v);
    Accepts(LoginSchema, v)
  }

  /** The phone is checked for length only: ten letters pass. */
  lemma PhoneNotCheckedForDigits()
    ensures PhoneValid("abcdefghij")
  {
  }

  /** `ProfileFormValues`. */
  datatype ProfileValues = ProfileValues(firstName: string, lastName: string, studentId: string, dormitory: string)

  function ProfileFields(p: ProfileValues): Values {
    [p.firstName, p.lastName, p.studentId, p.dormitory]
  }

  /** The two profile pages. */
  datatype ProfilePage = DashboardProfile | LegacyProfile

  function ProfileSchema(page: ProfilePage): Schema {
    match page
    case DashboardProfile => DashboardProfileSchema
    case LegacyProfile => LegacyProfileSchema
  }

  /** A profile is accepted with names of two or more characters, one of
      the dormitories, and a student id of nine characters or more on the
      dashboard page but five or more on the older page. */
  function ProfileValid(page: ProfilePage, p: ProfileValues): (ok: bool)
    ensures ok <==> |p.firstName| >= 2 && |p.lastName| >= 2 && ParseDormitory(p.dormitory).Some?
                    && |p.studentId| >= (if page == DashboardProfile then 9 else 5)
  {
    ProfileChecks(page, p);
    Accepts(ProfileSchema(page), ProfileFields(p))
  }

  lemma ProfileChecks(page: ProfilePage, p: ProfileValues)
    ensures Accepts(ProfileSchema(page), ProfileFields(p)) <==>
      |p.firstName| >= 2 && |p.lastName| >= 2 && ParseDormitory(p.dormitory).Some?
      && |p.studentId| >= (if page == DashboardProfile then 9 else 5)
  {
    var v := ProfileFields(p);
    var schema := ProfileSchema(page);
    AcceptsEveryField(schema, v);
    var checks := [|p.firstName| >= 2, |p.lastName| >= 2,
                   |p.studentId| >= (if page == DashboardProfile then 9 else 5),
                   ParseDormitory(p.dormitory).Some?];
    forall i | 0 <= i < |schema|
      ensures Satisfies(v[i], schema[i].rule) == checks[i]
    {
      if i == 3 { DormitoryRuleIsEnum(p.dormitory); }
    }
    assert (forall i :: 0 <= i < 4 ==> checks[i]) ==> checks[0] && checks[1] && checks[2] && checks[3];
  }

  /** The profile a signed-up user starts from. */
  function ProfileOf(r: RegisterValues): ProfileValues {
    ProfileValues(r.firstName, r.lastName, r.studentId, r.dormitory)
  }

  /** Every profile that could sign up can be saved on the older page, but
      the dashboard page refuses one whose student id is five to eight
      characters long. */
  lemma StudentIdRulesDisagree(r: RegisterValues)
    requires RegisterValid(r)
    ensures ProfileValid(LegacyProfile, ProfileOf(r))
    ensures ProfileValid(DashboardProfile, ProfileOf(r)) <==> |r.studentId| >= 9
  {
  }

  /** The profile form: what the user typed and the values it was filled
      from. */
  datatype ProfileForm = ProfileForm(current: ProfileValues, initial: ProfileValues)

  /** The values the form is filled from: the user's fields, `''` for a
      missing one, `dormitory-1` when the dormitory is missing. */
  function InitialProfile(user: Option<ProfileValues>): (p: ProfileValues)
    ensures user.None? ==> p == ProfileValues("", "", "", "dormitory-1")
    ensures user.Some? && user.value.firstName != "" ==> p.firstName == user.value.firstName
    ensures user.Some? && user.value.dormitory != "" ==> p.dormitory == user.value.dormitory
    ensures user.Some? ==> p.lastName == user.value.lastName && p.studentId == user.value.studentId
    ensures user.Some? && user.value.firstName == "" ==> p.firstName == ""
    ensures user.Some? && user.value.dormitory == "" ==> p.dormitory == "dormitory-1"
  {
    match user
    case None => ProfileValues("", "", "", "dormitory-1")
    case Some(u) => ProfileValues(u.firstName, u.lastName, u.studentId,
                                  if u.dormitory != "" then u.dormitory else "dormitory-1")
  }

  /** What a user can change: the names and the student id, and the
      dormitory only on the older page, whose select is not disabled. The
      phone is never a form field. */
  datatype ProfileEdit = EditFirstName(s: string) | EditLastName(s: string)
                       | EditStudentId(s: string) | EditDormitory(s: string)

  function ApplyEdit(page: ProfilePage, f: ProfileForm, e: ProfileEdit): (g: ProfileForm)
    ensures g.initial == f.initial
    ensures page == DashboardProfile ==> g.current.dormitory == f.current.dormitory
  {
    match e
    case EditFirstName(s) => f.(current := f.current.(firstName := s))
    case EditLastName(s) => f.(current := f.current.(lastName := s))
    case EditStudentId(s) => f.(current := f.current.(studentId := s))
    case EditDormitory(s) =>
      if page == LegacyProfile then f.(current := f.current.(dormitory := s)) else f
  }

  /** On the dashboard page no sequence of edits moves the dormitory. */
  lemma {:induction false} DashboardDormitoryFixed(f: ProfileForm, es: seq<ProfileEdit>)
    ensures ApplyEdits(DashboardProfile, f, es).current.dormitory == f.current.dormitory
    decreases |es|
  {
    if |es| > 0 {
      DashboardDormitoryFixed(ApplyEdit(DashboardProfile, f, es[0]), es[1..]);
    }
  }

  function ApplyEdits(page: ProfilePage, f: ProfileForm, es: seq<ProfileEdit>): ProfileForm
    decreases |es|
  {
    if |es| == 0 then f else ApplyEdits(page, ApplyEdit(page, f, es[0]), es[1..])
  }

  /** The save button: enabled only for a changed form while nothing is
      being sent. */
  predicate SaveEnabled(f: ProfileForm, submitting: bool) {
    !submitting && f.current != f.initial
  }

  /** What saving sends: the dashboard page posts the user's id with the
      values to `/api/profile/edit`; the older page puts the values alone to
      the backend's `/profile`. */
  datatype ProfileRequest = EditProfile(userId: Option<string>, values: ProfileValues)
                          | PutProfile(values: ProfileValues)

  function SaveProfile(page: ProfilePage, userId: Option<string>, f: ProfileForm, submitting: bool): (r: Option<ProfileRequest>)
    ensures r.Some? <==> SaveEnabled(f, submitting) && ProfileValid(page, f.current)
    ensures r.Some? ==> r.value.values == f.current
    ensures r.Some? && page == DashboardProfile ==> r.value == EditProfile(userId, f.current)
  {
    if !SaveEnabled(f, submitting) || !ProfileValid(page, f.current) then None
    else match page
      case DashboardProfile => Some(EditProfile(userId, f.current))
      case LegacyProfile => Some(PutProfile(f.current))
  }

  /** The calls the two flows make to the auth context. */
  datatype AuthCall = SendCode(phone: string, page: string) | CheckCode(phone: string, code: string)
                    | LogIn(phone: string, code: string) | Register(values: RegisterValues)

  datatype LoginStep = PhoneStep | CodeStep

  /** The sign-in page: its step, the phone the code was sent to, and the
      two form fields. */
  datatype LoginPage = LoginPage(step: LoginStep, phoneNumber: string, phoneField: string, codeField: string)

  const LoginStart: LoginPage := LoginPage(PhoneStep, "", "", "")

  datatype LoginEvent = TypePhone(s: string) | TypeCode(s: string) | SubmitPhone | SubmitCode | BackToPhone

  /** The verify button: a five-character code and nothing in flight. The
      code handlers below only call out for codes this button lets
      through. */
  predicate VerifyEnabled(code: string, submitting: bool) {
    !submitting && |code| == 5
  }

  /** One event on the sign-in page. `sent` is what `sendCode` returned
      when the phone is submitted. */
  function LoginNext(p: LoginPage, e: LoginEvent, sent: bool): (r: (LoginPage, Option<AuthCall>))
    ensures e.SubmitPhone? && p.step == PhoneStep && PhoneValid(p.phoneField) ==>
      r.1 == Some(SendCode(p.phoneField, "login"))
    ensures r.1.Some? && r.1.value.LogIn? ==>
      p.step == CodeStep && r.1.value == LogIn(p.phoneNumber, p.codeField) && |p.codeField| == 5
    ensures r.1.Some? && r.1.value.LogIn? ==> VerifyEnabled(p.codeField, false)
    ensures p.step == PhoneStep && r.0.step == CodeStep ==>
      e.SubmitPhone? && sent && PhoneValid(p.phoneField) && r.0.phoneNumber == p.phoneField && r.0.codeField == ""
    ensures e.BackToPhone? ==> r.0 == LoginPage(PhoneStep, p.phoneNumber, "", "") && r.1.None?
    ensures e.SubmitPhone? && p.step == PhoneStep && PhoneValid(p.phoneField) && sent ==>
      r.0 == LoginPage(CodeStep, p.phoneField, p.phoneField, "")
    ensures e.SubmitCode? && p.step == CodeStep && CodeValid(p.codeField) ==>
      r == (p, Some(LogIn(p.phoneNumber, p.codeField)))
    ensures e.SubmitCode? ==> r.0 == p
    ensures e.SubmitPhone? && !(p.step == PhoneStep && PhoneValid(p.phoneField) && sent) ==> r.0 == p
    ensures e.TypePhone? ==> r == (p.(phoneField := e.s), None)
    ensures e.TypeCode? ==> r == (p.(codeField := e.s), None)
  {
    match e
    case TypePhone(s) => (p.(phoneField := s), None)
    case TypeCode(s) => (p.(codeField := s), None)
    case SubmitPhone =>
      if p.step != PhoneStep || !PhoneValid(p.phoneField) then (p, None)
      else if sent then (p.(step := CodeStep, phoneNumber := p.phoneField, codeField := ""), Some(SendCode(p.phoneField, "login")))
      else (p, Some(SendCode(p.phoneField, "login")))
    case SubmitCode =>
      if p.step != CodeStep || !CodeValid(p.codeField) then (p, None)
      else (p, Some(LogIn(p.phoneNumber, p.codeField)))
    case BackToPhone => (LoginPage(PhoneStep, p.phoneNumber, "", ""), None)
  }

  /** Whenever the code step shows, the phone the code went to passed the
      phone check. */
  predicate LoginInvariant(p: LoginPage) {
    p.step == CodeStep ==> PhoneValid(p.phoneNumber)
  }

  lemma LoginNextKeepsInvariant(p: LoginPage, e: LoginEvent, sent: bool)
    requires LoginInvariant(p)
    ensures LoginInvariant(LoginNext(p, e, sent).0)
  {
  }

  /** A run of the sign-in page: every login it makes is for a phone that
      passed the check, whatever the user retypes in between. */
  lemma {:induction false} LoginRunLogsInCheckedPhones(p: LoginPage, es: seq<LoginEvent>, sent: seq<bool>)
    requires |sent| == |es| && LoginInvariant(p)
    ensures forall c :: c in LoginCalls(p, es, sent) && c.LogIn? ==> PhoneValid(c.phone) && |c.code| == 5
    decreases |es|
  {
    if |es| > 0 {
      var r := LoginNext(p, es[0], sent[0]);
      LoginNextKeepsInvariant(p, es[0], sent[0]);
      LoginRunLogsInCheckedPhones(r.0, es[1..], sent[1..]);
    }
  }

  function LoginCalls(p: LoginPage, es: seq<LoginEvent>, sent: seq<bool>): seq<AuthCall>
    requires |sent| == |es|
    decreases |es|
  {
    if |es| == 0 then []
    else
      var r := LoginNext(p, es[0], sent[0]);
      (if r.1.Some? then [r.1.value] else []) + LoginCalls(r.0, es[1..], sent[1..])
  }

  datatype RegisterStep = FormStep | VerifyStep

  /** The sign-up page: its step, the values stored once the code was
      sent, the form and the code field. */
  datatype RegisterPage = RegisterPage(step: RegisterStep, stored: Option<RegisterValues>,
                                       form: RegisterValues, codeField: string)

  const RegisterDefaults: RegisterValues := RegisterValues("", "", "", "", "dormitory-1")

  const RegisterStart: RegisterPage := RegisterPage(FormStep, None, RegisterDefaults, "")

  datatype RegisterEvent = TypeForm(values: RegisterValues) | TypeRegisterCode(s: string)
                         | SubmitForm | SubmitRegisterCode | BackToForm

  /** One event on the sign-up page. `ok` is what the awaited action
      returned: `sendCode` for the form, `checkCode` for the code. */
  function RegisterNext(p: RegisterPage, e: RegisterEvent, ok: bool): (r: (RegisterPage, seq<AuthCall>))
    ensures p.step == FormStep && r.0.step == VerifyStep ==>
      e.SubmitForm? && ok && RegisterValid(p.form) && r.0.stored == Some(p.form) && r.0.codeField == ""
    ensures (exists v :: Register(v) in r.1) ==>
      e.SubmitRegisterCode? && ok && p.step == VerifyStep && p.stored.Some? && CodeValid(p.codeField)
      && r.1 == [CheckCode(p.stored.value.phone, p.codeField), Register(p.stored.value)]
    ensures e.SubmitRegisterCode? && r.1 != [] ==> VerifyEnabled(p.codeField, false)
    ensures e.SubmitRegisterCode? && p.step == FormStep ==> r == (p, [])
    ensures e.SubmitRegisterCode? && p.stored.None? ==> r == (p, [])
    ensures e.BackToForm? ==> r.0 == RegisterPage(FormStep, p.stored, RegisterDefaults, "") && r.1 == []
    ensures e.SubmitForm? && p.step == FormStep && RegisterValid(p.form) ==>
      && r.1 == [SendCode(p.form.phone, "register")]
      && (ok ==> r.0 == RegisterPage(VerifyStep, Some(p.form), p.form, ""))
      && (!ok ==> r.0 == p)
    ensures e.SubmitRegisterCode? && p.step == VerifyStep && p.stored.Some? && CodeValid(p.codeField) ==>
      && r.0 == p
      && (ok ==> r.1 == [CheckCode(p.stored.value.phone, p.codeField), Register(p.stored.value)])
      && (!ok ==> r.1 == [CheckCode(p.stored.value.phone, p.codeField)])
    ensures (e.SubmitForm? || e.SubmitRegisterCode?) && r.1 == [] ==> r.0 == p
    ensures e.TypeForm? ==> r == (p.(form := e.values), [])
    ensures e.TypeRegisterCode? ==> r == (p.(codeField := e.s), [])
  {
    match e
    case TypeForm(v) => (p.(form := v), [])
    case TypeRegisterCode(s) => (p.(codeField := s), [])
    case SubmitForm =>
      if p.step != FormStep || !RegisterValid(p.form) then (p, [])
      else if ok then (p.(step := VerifyStep, stored := Some(p.form), codeField := ""), [SendCode(p.form.phone, "register")])
      else (p, [SendCode(p.form.phone, "register")])
    case SubmitRegisterCode =>
      if p.step != VerifyStep || p.stored.None? || !CodeValid(p.codeField) then (p, [])
      else
        var check := CheckCode(p.stored.value.phone, p.codeField);
        if ok then (p, [check, Register(p.stored.value)]) else (p, [check])
    case BackToForm => (RegisterPage(FormStep, p.stored, RegisterDefaults, ""), [])
  }

  /** What is stored always passed the sign-up check, and the code step
      only shows once something is stored. */
  predicate RegisterInvariant(p: RegisterPage) {
    && (p.stored.Some? ==> RegisterValid(p.stored.value))
    && (p.step == VerifyStep ==> p.stored.Some?)
  }

  /** The invariant holds from the start and survives every event, so
      `register` only ever receives values the sign-up schema accepted. */
  lemma RegisterNextKeepsInvariant(p: RegisterPage, e: RegisterEvent, ok: bool)
    requires RegisterInvariant(p)
    ensures RegisterInvariant(RegisterStart)
    ensures RegisterInvariant(RegisterNext(p, e, ok).0)
    ensures forall v :: Register(v) in RegisterNext(p, e, ok).1 ==> RegisterValid(v)
  {
  }
}

=== FILE: json.dfy ===
/** The JavaScript values the route handlers, the middleware and the auth
    context read out of parsed JSON: `JSON.parse` results, `undefined` for
    a missing member, member access that throws on `null`/`undefined`,
    truthiness, and the loose comparison `x == ""`. Numbers are integers;
    fractions and `NaN` are not modelled. */
module Json {
  import opened Wrappers

  datatype Json = JNull | JBool(b: bool) | JNum(n: int) | JStr(s: string)
                | JArray(items: seq<Json>) | JObject(fields: seq<(string, Json)>)

  /** A JavaScript value as a property read yields it. */
  datatype Value = Undefined | Defined(json: Json)

  /** The member `key` of a parsed object: `JSON.parse` keeps the last of
      duplicate keys. */
  function Field(fields: seq<(string, Json)>, key: string): Option<Json>
    decreases |fields|
  {
    if |fields| == 0 then None
    else if fields[|fields| - 1].0 == key then Some(fields[|fields| - 1].1)
    else Field(fields[..|fields| - 1], key)
  }

  /** A member is found exactly when some field carries the key. */
  lemma {:induction false} FieldFound(fields: seq<(string, Json)>, key: string)
    ensures Field(fields, key).None? <==> forall i :: 0 <= i < |fields| ==> fields[i].0 != key
    decreases |fields|
  {
    if |fields| > 0 && fields[|fields| - 1].0 != key {
      var init := fields[..|fields| - 1];
      FieldFound(init, key);
      assert forall i :: 0 <= i < |init| ==> fields[i] == init[i];
    }
  }

  /** The value found is that of the last field carrying the key. */
  lemma {:induction false} FieldFindsLast(fields: seq<(string, Json)>, key: string)
    requires Field(fields, key).Some?
    ensures exists i :: 0 <= i < |fields| && fields[i] == (key, Field(fields, key).value)
                        && (forall j :: i < j < |fields| ==> fields[j].0 != key)
    decreases |fields|
  {
    var n := |fields| - 1;
    if fields[n].0 != key {
      var init := fields[..n];
      FieldFindsLast(init, key);
      var i :| 0 <= i < |init| && init[i] == (key, Field(init, key).value)
        && forall j :: i < j < |init| ==> init[j].0 != key;
      assert fields[i] == init[i];
      assert forall j :: i < j < n ==> fields[j] == init[j];
    }
  }

  /** `v[key]`: `None` when the read throws a `TypeError` (`v` is `null`
      or `undefined`); `undefined` for a primitive or a missing member.
      None of the keys read here names a built-in property. */
  function Prop(v: Value, key: string): (r: Option<Value>)
    ensures r.None? <==> v == Undefined || v == Defined(JNull)
    ensures r.Some? && r.value.Defined? ==> v.json.JObject? && Field(v.json.fields, key) == Some(r.value.json)
  {
    match v
    case Undefined => None
    case Defined(j) =>
      match j
      case JNull => None
      case JObject(fields) =>
        Some(match Field(fields, key) case Some(m) => Defined(m) case None => Undefined)
      case _ => Some(Undefined)
  }

  /** `Boolean(v)`. */
  predicate Truthy(v: Value) {
    match v
    case Undefined => false
    case Defined(j) =>
      match j
      case JNull => false
      case JBool(b) => b
      case JNum(n) => n != 0
      case JStr(s) => s != ""
      case _ => true
  }

  /** `String(x) == ""` for an element of an array being joined: `null`
      and `undefined` elements print as nothing, an array prints its
      elements joined with commas. */
  predicate PrintsEmpty(j: Json)
    decreases j
  {
    match j
    case JNull => true
    case JStr(s) => s == ""
    case JArray(items) => |items| == 0 || (|items| == 1 && PrintsEmpty(items[0]))
    case _ => false
  }

  /** `v == ""` under the abstract equality comparison: a boolean or a
      number is compared as a number with 0, an array through its joined
      text; `null`, `undefined` and objects are never equal to `""`. */
  predicate LooselyEmpty(v: Value) {
    match v
    case Undefined => false
    case Defined(j) =>
      match j
      case JNull => false
      case JBool(b) => !b
      case JNum(n) => n == 0
      case JStr(s) => s == ""
      case JArray(_) => PrintsEmpty(j)
      case JObject(_) => false
  }

  /** Turning a parsed value into text, as `"" + v` and `v == ""` do,
      throws: members that `JSON.parse` creates are never functions, so an
      object carrying its own `toString` member has no usable conversion
      (its `valueOf` gives back the object itself), and an array converts
      its elements in turn. Other objects print `[object Object]`. */
  predicate ConversionThrows(j: Json)
    decreases j
  {
    match j
    case JObject(fields) => Field(fields, "toString").Some?
    case JArray(items) => exists i :: 0 <= i < |items| && ConversionThrows(items[i])
    case _ => false
  }

  /** `!v` and `v == ""` agree on strings, but a missing member is falsy
      without being loosely empty, and a non-empty array can be loosely
      empty while truthy. */
  lemma FalsyAndLooselyEmptyDiffer()
    ensures forall s: string :: !Truthy(Defined(JStr(s))) <==> LooselyEmpty(Defined(JStr(s)))
    ensures !Truthy(Undefined) && !LooselyEmpty(Undefined)
    ensures !Truthy(Defined(JNull)) && !LooselyEmpty(Defined(JNull))
    ensures Truthy(Defined(JArray([JNull]))) && LooselyEmpty(Defined(JArray([JNull])))
  {
  }

  /** Every loosely empty value but the empty array and its nestings is
      falsy. */
  lemma LooselyEmptyScalarsAreFalsy(v: Value)
    requires LooselyEmpty(v) && !(v.Defined? && v.json.JArray?)
    ensures !Truthy(v)
  {
  }

  /** How many of the members have a defined value. */
  function DefinedCount(members: seq<(string, Value)>): (n: nat)
    ensures n <= |members|
    decreases |members|
  {
    if |members| == 0 then 0
    else (if members[0].1.Defined? then 1 else 0) + DefinedCount(members[1..])
  }

  /** `JSON.stringify` of an object literal: members whose value is
      `undefined` are dropped, the others kept in order. */
  function Stringify(members: seq<(string, Value)>): (fields: seq<(string, Json)>)
    ensures |fields| == DefinedCount(members) <= |members|
    ensures forall i :: 0 <= i < |fields| ==>
      exists j :: 0 <= j < |members| && members[j] == (fields[i].0, Defined(fields[i].1))
    decreases |members|
  {
    if |members| == 0 then []
    else
      var rest := Stringify(members[1..]);
      assert forall i :: 1 <= i < |members| ==> members[i] == members[1..][i - 1];
      match members[0].1
      case Undefined => rest
      case Defined(j) => [(members[0].0, j)] + rest
  }

  /** The defined member at index `j` becomes the field whose index is
      the number of defined members before it. */
  lemma {:induction false} StringifyPlacesMember(members: seq<(string, Value)>, j: nat)
    requires j < |members| && members[j].1.Defined?
    ensures DefinedCount(members[..j]) < |Stringify(members)|
    ensures Stringify(members)[DefinedCount(members[..j])] == (members[j].0, members[j].1.json)
    decreases j
  {
    var rest := members[1..];
    var d0 := if members[0].1.Defined? then 1 else 0;
    assert Stringify(members) == (if d0 == 1 then [(members[0].0, members[0].1.json)] else []) + Stringify(rest);
    if j > 0 {
      assert members[j] == rest[j - 1];
      StringifyPlacesMember(rest, j - 1);
      assert members[..j][1..] == rest[..j - 1];
      assert DefinedCount(members[..j]) == d0 + DefinedCount(rest[..j - 1]);
    }
  }

  /** The stringified fields are exactly the defined members, in order:
      with the length, which is the number of defined members, placing
      each defined member fixes every field. */
  lemma StringifyKeepsDefinedInOrder(members: seq<(string, Value)>)
    ensures forall j :: 0 <= j < |members| && members[j].1.Defined? ==>
      DefinedCount(members[..j]) < |Stringify(members)| &&
      Stringify(members)[DefinedCount(members[..j])] == (members[j].0, members[j].1.json)
  {
    forall j | 0 <= j < |members| && members[j].1.Defined?
      ensures DefinedCount(members[..j]) < |Stringify(members)|
      ensures Stringify(members)[DefinedCount(members[..j])] == (members[j].0, members[j].1.json)
    {
      StringifyPlacesMember(members, j);
    }
  }

  /** Stringifying members that are all defined keeps every one. */
  lemma {:induction false} StringifyDefined(members: seq<(string, Value)>)
    requires forall i :: 0 <= i < |members| ==> members[i].1.Defined?
    ensures |Stringify(members)| == |members|
    ensures forall i :: 0 <= i < |members| ==> Stringify(members)[i] == (members[i].0, members[i].1.json)
    decreases |members|
  {
    if |members| > 0 {
      StringifyDefined(members[1..]);
      var r := Stringify(members);
      forall i | 0 <= i < |members| ensures r[i] == (members[i].0, members[i].1.json) {
        if i > 0 { assert members[i] == members[1..][i - 1]; }
      }
    }
  }

  /** A one-member object. */
  function Message(text: string): (j: Json)
    ensures Prop(Defined(j), "message") == Some(Defined(JStr(text)))
  {
    JObject([("message", JStr(text))])
  }
}

=== FILE: pagination.dfy ===
/** The page bar `renderPagination` draws under the reservation lists
    (`app/admin/reservations/page.tsx`, and the identical copy in
    `app/dashboard/reservations/page.tsx`): a window of at most five page
    links, a link to the first and to the last page outside the window,
    an ellipsis wherever pages are skipped, and previous/next buttons. */
module Pagination {
  import opened Wrappers

  const MaxVisiblePages: int := 5

  function Min(a: int, b: int): int {
    if a <= b then a else b
  }

  function Max(a: int, b: int): int {
    if a >= b then a else b
  }

  /** The pages `startPage..endPage` linked individually. */
  datatype Window = Window(start: int, end: int)

  /** `startPage` and `endPage`: centre the current page, then slide the
      window back when it runs past the last page. The current page comes
      from the URL and need not lie between 1 and `total`. */
  function PageWindow(current: int, total: int): (w: Window)
    requires total > 1
    ensures 1 <= w.start <= w.end <= total
    ensures w.end - w.start + 1 == Min(MaxVisiblePages, total)
    ensures 1 <= current <= total ==> w.start <= current <= w.end
    ensures 3 <= current <= total - 2 ==> w == Window(current - 2, current + 2)
    ensures current <= 3 ==> w.start == 1
    ensures current >= total - 2 ==> w.end == total
  {
    var start := Max(1, current - MaxVisiblePages / 2);
    var end := Min(total, start + MaxVisiblePages - 1);
    if end - start + 1 < MaxVisiblePages then Window(Max(1, end - MaxVisiblePages + 1), end)
    else Window(start, end)
  }

  datatype PageLink = PageLink(page: int, active: bool)

  /** What stands beside the window: a link to one page, or `...`. */
  datatype Item = Link(page: int) | Ellipsis

  /** The rendered bar, left to right. */
  datatype Bar = Bar(prevEnabled: bool, leading: seq<Item>, pages: seq<PageLink>,
                     trailing: seq<Item>, nextEnabled: bool)

  /** `renderPagination`: nothing for a single page; otherwise the
      previous button, page 1 and an ellipsis when the window starts later,
      the window with the current page marked, an ellipsis and the last
      page when the window ends earlier, and the next button. */
  function Render(current: int, total: int): (r: Option<Bar>)
    ensures r.None? <==> total <= 1
    ensures r.Some? ==>
      var w := PageWindow(current, total);
      && |r.value.pages| == w.end - w.start + 1
      && (forall i :: 0 <= i < |r.value.pages| ==>
            r.value.pages[i] == PageLink(w.start + i, w.start + i == current))
      && (r.value.prevEnabled <==> current > 1)
      && (r.value.nextEnabled <==> current < total)
  {
    if total <= 1 then None
    else
      var w := PageWindow(current, total);
      var leading := if w.start > 1 then [Link(1)] + (if w.start > 2 then [Ellipsis] else []) else [];
      var trailing := if w.end < total then (if w.end < total - 1 then [Ellipsis] else []) + [Link(total)] else [];
      var pages := seq(w.end - w.start + 1, i => PageLink(w.start + i, w.start + i == current));
      Some(Bar(current > 1, leading, pages, trailing, current < total))
  }

  /** The page numbers linked in the bar, in order. */
  function LinkedPages(b: Bar): seq<int> {
    ItemPages(b.leading) + WindowPages(b) + ItemPages(b.trailing)
  }

  function WindowPages(b: Bar): seq<int> {
    seq(|b.pages|, i requires 0 <= i < |b.pages| => b.pages[i].page)
  }

  function ItemPages(items: seq<Item>): seq<int>
    decreases |items|
  {
    if |items| == 0 then []
    else (if items[0].Link? then [items[0].page] else []) + ItemPages(items[1..])
  }

  predicate StrictlyAscending(s: seq<int>) {
    forall i, j :: 0 <= i < j < |s| ==> s[i] < s[j]
  }

  lemma AscendingConcat(a: seq<int>, b: seq<int>)
    requires StrictlyAscending(a) && StrictlyAscending(b)
    requires |a| > 0 && |b| > 0 ==> a[|a| - 1] < b[0]
    ensures StrictlyAscending(a + b)
  {
    var c := a + b;
    forall i, j | 0 <= i < j < |c| ensures c[i] < c[j] {
      if i < |a| && j >= |a| {
        assert c[i] <= a[|a| - 1] && b[0] <= c[j];
      }
    }
  }

  lemma LeadingPages(current: int, total: int)
    requires total > 1
    ensures ItemPages(Render(current, total).value.leading) ==
      if PageWindow(current, total).start > 1 then [1] else []
  {
    var w := PageWindow(current, total);
    if w.start > 2 {
      assert ItemPages([Ellipsis]) == [] + ItemPages([]);
      assert ItemPages([Link(1), Ellipsis]) == [1] + ItemPages([Ellipsis]);
    } else if w.start > 1 {
      assert ItemPages([Link(1)]) == [1] + ItemPages([]);
    }
  }

  lemma TrailingPages(current: int, total: int)
    requires total > 1
    ensures ItemPages(Render(current, total).value.trailing) ==
      if PageWindow(current, total).end < total then [total] else []
  {
    var w := PageWindow(current, total);
    assert ItemPages([Link(total)]) == [total] + ItemPages([]);
    if w.end < total - 1 {
      assert [Ellipsis, Link(total)][1..] == [Link(total)];
      assert ItemPages([Ellipsis, Link(total)]) == [] + ItemPages([Link(total)]);
    }
  }

  /** The bar links page 1 first and the last page last, each page at most
      once and in increasing order. */
  lemma LinksAscendFromFirstToLast(current: int, total: int)
    requires total > 1
    ensures var links := LinkedPages(Render(current, total).value);
      && StrictlyAscending(links)
      && |links| >= 2 && links[0] == 1 && links[|links| - 1] == total
  {
    var b := Render(current, total).value;
    var w := PageWindow(current, total);
    LeadingPages(current, total);
    TrailingPages(current, total);
    var lead, mid, trail := ItemPages(b.leading), WindowPages(b), ItemPages(b.trailing);
    assert forall i :: 0 <= i < |mid| ==> mid[i] == w.start + i;
    assert StrictlyAscending(mid);
    AscendingConcat(lead, mid);
    AscendingConcat(lead + mid, trail);
    var links := lead + mid + trail;
    assert links[0] == 1 by {
      if w.start == 1 { assert links[0] == mid[0]; }
    }
    assert links[|links| - 1] == total by {
      if w.end == total { assert links[|links| - 1] == mid[|mid| - 1]; }
    }
  }

  /** An ellipsis marks exactly the pages neither the window nor the
      first/last links show: one appears before the window when pages 2 and
      up are skipped, and one after it when pages below the last are
      skipped. */
  lemma EllipsesMarkSkippedPages(current: int, total: int)
    requires total > 1
    ensures var b := Render(current, total).value; var w := PageWindow(current, total);
      && (Ellipsis in b.leading <==> w.start > 2)
      && (Ellipsis in b.trailing <==> w.end < total - 1)
      && (Link(1) in b.leading <==> w.start > 1)
      && (Link(total) in b.trailing <==> w.end < total)
  {
    var b := Render(current, total).value;
    var w := PageWindow(current, total);
    if w.start > 1 && w.start <= 2 {
      assert b.leading == [Link(1)];
    }
    if w.end < total && w.end >= total - 1 {
      assert b.trailing == [Link(total)];
    }
  }

  /** Every page is either linked or hidden behind an ellipsis. */
  lemma EveryPageLinkedOrElided(current: int, total: int, p: int)
    requires total > 1 && 1 <= p <= total
    ensures var b := Render(current, total).value; var w := PageWindow(current, total);
      || p in LinkedPages(b)
      || (Ellipsis in b.leading && 1 < p < w.start)
      || (Ellipsis in b.trailing && w.end < p < total)
  {
    var b := Render(current, total).value;
    var w := PageWindow(current, total);
    LinksAscendFromFirstToLast(current, total);
    EllipsesMarkSkippedPages(current, total);
    var links := LinkedPages(b);
    if w.start <= p <= w.end {
      var lead, mid := ItemPages(b.leading), WindowPages(b);
      assert mid[p - w.start] == p;
      assert links[|lead| + (p - w.start)] == p;
    } else if p == total {
      assert links[|links| - 1] == p;
    } else if p == 1 {
      assert links[0] == p;
    }
  }

  /** A page in range is marked active exactly when it is the current
      one; a current page outside the range marks none. */
  lemma ActivePageIsCurrent(current: int, total: int)
    requires total > 1
    ensures var b := Render(current, total).value;
      && (1 <= current <= total ==> exists i :: 0 <= i < |b.pages| && b.pages[i] == PageLink(current, true))
      && (forall i :: 0 <= i < |b.pages| && b.pages[i].active ==> b.pages[i].page == current)
  {
    var b := Render(current, total).value;
    var w := PageWindow(current, total);
    if 1 <= current <= total {
      assert b.pages[current - w.start] == PageLink(current, true);
    }
  }

  /** The previous button: one page back, inert on the first page. */
  function PreviousTarget(current: int): (r: Option<int>)
    ensures r.Some? <==> current > 1
    ensures r.Some? ==> r.value == current - 1
  {
    if current > 1 then Some(current - 1) else None
  }

  /** The next button: one page on, inert on the last page. */
  function NextTarget(current: int, total: int): (r: Option<int>)
    ensures r.Some? <==> current < total
    ensures r.Some? ==> r.value == current + 1
  {
    if current < total then Some(current + 1) else None
  }

  /** From any page in range both buttons stay in range, and next then
      previous comes back. */
  lemma ButtonsStayInRange(current: int, total: int)
    requires 1 <= current <= total
    ensures PreviousTarget(current).Some? ==> 1 <= PreviousTarget(current).value <= total
    ensures NextTarget(current, total).Some? ==> 1 <= NextTarget(current, total).value <= total
    ensures NextTarget(current, total).Some? ==>
      PreviousTarget(NextTarget(current, total).value) == Some(current)
  {
  }
}

=== FILE: persian.dfy ===
/** Persian text helpers: the digit normalisation of the date picker
    (`convertFAtoEN` in `components/ui/date-picker.tsx`) and the two input
    validators of `lib/input-validate.ts`. */
module Persian {
  import opened Text

  /** Extended Arabic-Indic digits `۰`..`۹` (U+06F0..U+06F9), the digits
      the Persian calendar widget prints. */
  predicate IsPersianDigit(c: char) {
    '۰' <= c <= '۹'
  }

  function PersianDigitValue(c: char): nat
    requires IsPersianDigit(c)
  {
    (c as int) - ('۰' as int)
  }

  /** The Persian digit with a given value. */
  function PersianDigitChar(d: nat): (c: char)
    requires d < 10
    ensures IsPersianDigit(c) && PersianDigitValue(c) == d
  {
    (('۰' as int) + d) as char
  }

  /** One character through the `replace` callback: the ASCII digit at the
      same index of the digit table, or the character itself. */
  function ToAsciiDigit(c: char): char {
    if IsPersianDigit(c) then DigitChar(PersianDigitValue(c)) else c
  }

  /** `convertFAtoEN`. */
  function ConvertFAtoEN(s: string): (r: string)
    ensures |r| == |s|
    ensures forall i :: 0 <= i < |s| && IsPersianDigit(s[i]) ==>
      IsDigit(r[i]) && DigitValue(r[i]) == PersianDigitValue(s[i])
    ensures forall i :: 0 <= i < |s| && !IsPersianDigit(s[i]) ==> r[i] == s[i]
    ensures forall i :: 0 <= i < |r| ==> !IsPersianDigit(r[i])
  {
    seq(|s|, i requires 0 <= i < |s| => ToAsciiDigit(s[i]))
  }

  /** Converting twice is converting once. */
  lemma ConvertIdempotent(s: string)
    ensures ConvertFAtoEN(ConvertFAtoEN(s)) == ConvertFAtoEN(s)
  {
    var r := ConvertFAtoEN(s);
    assert forall i :: 0 <= i < |r| ==> ConvertFAtoEN(r)[i] == r[i];
  }

  /** The reverse mapping: ASCII digits written in Persian. */
  function ToPersianDigits(s: string): (r: string)
    ensures |r| == |s|
    ensures forall i :: 0 <= i < |s| ==> r[i] == if IsDigit(s[i]) then PersianDigitChar(DigitValue(s[i])) else s[i]
  {
    seq(|s|, i requires 0 <= i < |s| => if IsDigit(s[i]) then PersianDigitChar(DigitValue(s[i])) else s[i])
  }

  /** Text the widget prints in Persian digits converts back to the ASCII
      text it came from, and the other way round. */
  lemma ConvertInvertsPersianDigits(s: string)
    requires forall i :: 0 <= i < |s| ==> !IsPersianDigit(s[i])
    ensures ConvertFAtoEN(ToPersianDigits(s)) == s
  {
    var p := ToPersianDigits(s);
    forall i | 0 <= i < |s| ensures ConvertFAtoEN(p)[i] == s[i] {
      if IsDigit(s[i]) {
        assert DigitChar(DigitValue(s[i])) == s[i];
      }
    }
  }

  lemma PersianDigitsInvertConvert(s: string)
    requires forall i :: 0 <= i < |s| ==> !IsDigit(s[i])
    ensures ToPersianDigits(ConvertFAtoEN(s)) == s
  {
    var a := ConvertFAtoEN(s);
    forall i | 0 <= i < |s| ensures ToPersianDigits(a)[i] == s[i] {
      if IsPersianDigit(s[i]) {
        assert PersianDigitChar(PersianDigitValue(s[i])) == s[i];
      }
    }
  }

  /** The converted date keeps its `/` separators where they were, so a
      `YYYY/MM/DD` string still splits into three parts. */
  lemma ConvertKeepsSlashes(s: string)
    ensures Count(ConvertFAtoEN(s), '/') == Count(s, '/')
    ensures |Split(ConvertFAtoEN(s), '/')| == |Split(s, '/')|
  {
    CountMapped(s, ConvertFAtoEN(s));
    SplitLength(s, '/');
    SplitLength(ConvertFAtoEN(s), '/');
  }

  /** Two strings of the same length with `/` at the same places have as
      many `/`. */
  lemma {:induction false} CountMapped(s: string, r: string)
    requires |r| == |s|
    requires forall i :: 0 <= i < |s| ==> (s[i] == '/' <==> r[i] == '/')
    ensures Count(r, '/') == Count(s, '/')
    decreases |s|
  {
    if |s| > 0 {
      CountMapped(s[1..], r[1..]);
    }
  }

  /** The characters `[\u0600-\u06FF\s]` accepts: the Arabic block and
      JavaScript white space. */
  predicate PersianOrSpace(c: char) {
    ('\U{0600}' <= c <= '\U{06FF}') || IsJsWhitespace(c)
  }

  /** `validatePersian`: the anchored, starred class matches character
      by character. */
  function ValidatePersian(s: string): (ok: bool)
    ensures ok <==> forall i :: 0 <= i < |s| ==> PersianOrSpace(s[i])
    decreases |s|
  {
    if |s| == 0 then true
    else
      var rest := ValidatePersian(s[1..]);
      assert forall i :: 1 <= i < |s| ==> s[i] == s[1..][i - 1];
      PersianOrSpace(s[0]) && rest
  }

  /** `validateNumber`: `\d` is the ASCII digits only. */
  function ValidateNumber(s: string): (ok: bool)
    ensures ok <==> AllDigits(s)
    decreases |s|
  {
    if |s| == 0 then true
    else
      var rest := ValidateNumber(s[1..]);
      assert forall i :: 1 <= i < |s| ==> s[i] == s[1..][i - 1];
      IsDigit(s[0]) && rest
  }

  /** Both validators accept the empty input, and accept a concatenation
      exactly when they accept both parts. */
  lemma ValidatorsCompose(a: string, b: string)
    ensures ValidatePersian("") && ValidateNumber("")
    ensures ValidatePersian(a + b) <==> ValidatePersian(a) && ValidatePersian(b)
    ensures ValidateNumber(a + b) <==> ValidateNumber(a) && ValidateNumber(b)
  {
    var ab := a + b;
    assert forall i :: 0 <= i < |a| ==> ab[i] == a[i];
    assert forall i :: 0 <= i < |b| ==> ab[|a| + i] == b[i];
  }

  /** Whatever both validators accept, they accept every piece of. */
  lemma ValidatorsAcceptSubstrings(s: string, i: nat, j: nat)
    requires i <= j <= |s|
    ensures ValidatePersian(s) ==> ValidatePersian(s[i..j])
    ensures ValidateNumber(s) ==> ValidateNumber(s[i..j])
  {
    assert forall k :: 0 <= k < j - i ==> s[i..j][k] == s[i + k];
  }

  /** Persian digits are Persian text but not a number; ASCII digits are
      a number but not Persian text. */
  lemma DigitScriptsDisagree(d: nat)
    requires d < 10
    ensures ValidatePersian([PersianDigitChar(d)]) && !ValidateNumber([PersianDigitChar(d)])
    ensures ValidateNumber([DigitChar(d)]) && !ValidatePersian([DigitChar(d)])
  {
    assert [PersianDigitChar(d)][0] == PersianDigitChar(d);
    assert [DigitChar(d)][0] == DigitChar(d);
  }

  /** After normalisation a string is a number exactly when each of its
      characters was a digit of either script. */
  lemma ConvertThenValidateNumber(s: string)
    ensures ValidateNumber(ConvertFAtoEN(s)) <==> forall i :: 0 <= i < |s| ==> IsDigit(s[i]) || IsPersianDigit(s[i])
  {
    var r := ConvertFAtoEN(s);
    if !ValidateNumber(r) {
      var i :| 0 <= i < |r| && !IsDigit(r[i]);
      assert !IsDigit(s[i]) && !IsPersianDigit(s[i]);
    }
  }
}

=== FILE: proxy.dfy ===
/** The Next.js route handlers under `app/api` that stand between the
    browser and the backend: each reads its JSON body and the
    `auth_token` cookie, forwards one request through `safeJsonFetch`
    (`lib/config.ts`), and answers 200 with the backend's reply or 400,
    401 or 500 with a message of its own. The backend is a function
    parameter from the request sent to what came back. */
module Proxy {
  import opened Wrappers
  import opened Text
  import opened Json
  import Access

  const TokenPrefix: string := "auth_token="

  /** A segment of the header that, trimmed, starts with the prefix. */
  predicate CarriesToken(segment: string) {
    StartsWith(Trim(segment), TokenPrefix)
  }

  /** `.map(c => c.trim()).find(c => c.startsWith("auth_token="))`. */
  function FindTokenCookie(segments: seq<string>): (r: Option<string>)
    ensures r.Some? ==> StartsWith(r.value, TokenPrefix)
    decreases |segments|
  {
    if |segments| == 0 then None
    else if CarriesToken(segments[0]) then Some(Trim(segments[0]))
    else FindTokenCookie(segments[1..])
  }

  /** `find` finds nothing exactly when no trimmed segment carries the
      prefix. */
  lemma {:induction false} FindTokenCookieNone(segments: seq<string>)
    ensures FindTokenCookie(segments).None? <==>
      forall i :: 0 <= i < |segments| ==> !CarriesToken(segments[i])
    decreases |segments|
  {
    if |segments| > 0 && !CarriesToken(segments[0]) {
      FindTokenCookieNone(segments[1..]);
      assert forall i :: 1 <= i < |segments| ==> segments[i] == segments[1..][i - 1];
    }
  }

  /** The cookie `find` picks is the first trimmed segment carrying the
      prefix. */
  lemma {:induction false} FindTokenCookieFirst(segments: seq<string>, i: nat)
    requires i < |segments| && CarriesToken(segments[i])
    requires forall j :: 0 <= j < i ==> !CarriesToken(segments[j])
    ensures FindTokenCookie(segments) == Some(Trim(segments[i]))
    decreases i
  {
    if i > 0 {
      assert !CarriesToken(segments[0]);
      var rest := segments[1..];
      assert rest[i - 1] == segments[i];
      forall j | 0 <= j < i - 1 ensures !CarriesToken(rest[j]) {
        assert rest[j] == segments[j + 1];
      }
      FindTokenCookieFirst(rest, i - 1);
    }
  }

  /** `tokenCookie.split("=")[1]`: the text between the prefix's `=` and
      the next `=`, if any. */
  function CookieValue(cookie: string): (token: string)
    requires StartsWith(cookie, TokenPrefix)
    ensures '=' !in token
    ensures token == Split(cookie[|TokenPrefix|..], '=')[0]
  {
    assert cookie == "auth_token" + ['='] + cookie[|TokenPrefix|..] by {
      assert cookie[..|TokenPrefix|] == TokenPrefix;
    }
    SplitFirst("auth_token", cookie[|TokenPrefix|..], '=');
    Split(cookie, '=')[1]
  }

  /** Where the handlers' cookie lookup ends: no `cookie` header (or an
      empty one), no `auth_token` in it, or the token. */
  datatype TokenLookup = NoCookie | NoToken | Token(value: string)

  function CookieToken(header: Option<string>): (r: TokenLookup)
    ensures r == NoCookie <==> header.None? || header.value == ""
    ensures r == NoToken <==> header.Some? && header.value != "" && FindTokenCookie(Split(header.value, ';')).None?
  {
    if header.None? || header.value == "" then NoCookie
    else match FindTokenCookie(Split(header.value, ';'))
      case None => NoToken
      case Some(cookie) => Token(CookieValue(cookie))
  }

  /** A header holding one cookie, with no `;` and no white space,
      yields that cookie's value. */
  lemma SingleCookie(cookie: string)
    requires StartsWith(cookie, TokenPrefix)
    requires forall i :: 0 <= i < |cookie| ==> cookie[i] != ';' && !IsJsWhitespace(cookie[i])
    ensures CookieToken(Some(cookie)) == Token(CookieValue(cookie))
  {
    SplitNoSeparator(cookie, ';');
    TrimWithoutWhitespace(cookie);
  }

  /** A token with no `;`, `=` or white space, sent as the only cookie in
      the form the route guard uses, is read back whole. */
  lemma GuardCookieRoundTrip(token: string)
    requires forall i :: 0 <= i < |token| ==> token[i] != ';' && token[i] != '=' && !IsJsWhitespace(token[i])
    ensures CookieToken(Some(Access.GuardCookie(token))) == Token(token)
  {
    var cookie := Access.GuardCookie(token);
    assert cookie[..|TokenPrefix|] == TokenPrefix;
    forall i | 0 <= i < |cookie| ensures cookie[i] != ';' && !IsJsWhitespace(cookie[i]) {
      if i >= |TokenPrefix| { assert cookie[i] == token[i - |TokenPrefix|]; }
    }
    SingleCookie(cookie);
    assert cookie[|TokenPrefix|..] == token;
    SplitNoSeparator(token, '=');
  }

  /** The first `auth_token` cookie wins over a later one. */
  lemma FirstTokenCookieWins(first: string, later: string)
    requires ';' !in first && StartsWith(first, TokenPrefix)
    requires |first| > 0 && !IsJsWhitespace(first[0]) && !IsJsWhitespace(first[|first| - 1])
    ensures CookieToken(Some(first + ";" + later)) == Token(CookieValue(first))
  {
    SplitFirst(first, later, ';');
    assert first + ";" + later == first + [';'] + later;
    assert Trim(first) == first by {
      assert TrimStart(first) == first;
      assert TrimEnd(first) == first;
    }
  }

  /** A value holding `=` is cut at its first `=`: the guard's cookie for
      `a=b` carries the token `a`. */
  lemma TokenCutAtEquals(a: string, b: string)
    requires forall i :: 0 <= i < |a| ==> a[i] != ';' && a[i] != '=' && !IsJsWhitespace(a[i])
    requires forall i :: 0 <= i < |b| ==> b[i] != ';' && !IsJsWhitespace(b[i])
    ensures CookieToken(Some(Access.GuardCookie(a + "=" + b))) == Token(a)
  {
    var value := a + "=" + b;
    var cookie := Access.GuardCookie(value);
    assert cookie[..|TokenPrefix|] == TokenPrefix;
    forall i | 0 <= i < |cookie| ensures cookie[i] != ';' && !IsJsWhitespace(cookie[i]) {
      if i >= |TokenPrefix| + |a| + 1 { assert cookie[i] == b[i - |TokenPrefix| - |a| - 1]; }
      else if i >= |TokenPrefix| && i < |TokenPrefix| + |a| { assert cookie[i] == a[i - |TokenPrefix|]; }
    }
    SingleCookie(cookie);
    assert cookie[|TokenPrefix|..] == a + ['='] + b;
    SplitFirst(a, b, '=');
  }

  datatype Method = Get | Post

  /** The request `safeJsonFetch` sends: the body only when truthy, the
      `Authorization` header only for a non-empty token. */
  datatype BackendCall = BackendCall(endpoint: string, verb: Method, body: Option<Json>, authorization: Option<string>)

  function Outgoing(endpoint: string, verb: Method, body: Value, token: Option<string>): (c: BackendCall)
    ensures c.endpoint == endpoint && c.verb == verb
    ensures c.body.Some? <==> Truthy(body)
    ensures c.body.Some? ==> body == Defined(c.body.value)
    ensures c.authorization.Some? <==> token.Some? && token.value != ""
    ensures c.authorization.Some? ==> c.authorization == token
  {
    BackendCall(endpoint, verb,
      if Truthy(body) then Some(body.json) else None,
      if token.Some? && token.value != "" then token else None)
  }

  /** The text of the backend's reply. */
  datatype Body = NoText | Malformed | Parsed(json: Json)

  /** What came back: nothing (`fetch` threw), or the `ok` flag and the
      body. */
  datatype Reply = Unreachable | Replied(ok: bool, body: Body)

  /** `safeJsonFetch`'s result, `null` being `JNull`: any parsed body,
      from a success or an error status alike; `null` otherwise. */
  function SafeJsonFetch(reply: Reply): (r: Json)
    ensures reply.Replied? && reply.body.Parsed? ==> r == reply.body.json
    ensures !(reply.Replied? && reply.body.Parsed?) ==> r == JNull
  {
    if reply.Replied? && reply.body.Parsed? then reply.body.json else JNull
  }

  /** The status of the backend's reply never reaches the handler. */
  lemma SafeJsonFetchIgnoresStatus(body: Body)
    ensures SafeJsonFetch(Replied(true, body)) == SafeJsonFetch(Replied(false, body))
  {
  }

  datatype Response = Response(status: int, body: Json)

  /** A handler's answer and the backend request it made, if any. */
  datatype Handled = Handled(response: Response, call: Option<BackendCall>)

  /** The browser's request: its body (`None` when `request.json()`
      throws) and its `cookie` header. */
  datatype Request = Request(body: Option<Json>, cookie: Option<string>)

  const NoCookieMessage: string := "کوکی\U{200C}ای وجود ندارد"
  const NoTokenMessage: string := "توکن یافت نشد"
  const ServerErrorMessage: string := "خطای سرور"
  const TokenRejectedMessage: string := "خطا در تأیید توکن"

  function Fail(status: int, message: string): (h: Handled)
    ensures h.call.None? && h.response.status == status
  {
    Handled(Response(status, Message(message)), None)
  }

  /** The backend's reply is refused by the edit, create and list
      handlers when it is falsy or its `message` is loosely `""`. */
  predicate RefusedByLooseCheck(response: Json) {
    !Truthy(Defined(response)) || LooselyEmpty(Prop(Defined(response), "message").value)
  }

  /** The loose check itself throws, and the handler's `catch` answers
      500: the reply is truthy, so its `message` is read, and comparing
      that with `""` converts it to text, which throws. */
  predicate LooseCheckThrows(response: Json) {
    && Truthy(Defined(response))
    && var message := Prop(Defined(response), "message").value;
       message.Defined? && ConversionThrows(message.json)
  }

  /** A loose-check handler's answer to a reply once the backend was
      asked: 500 when the check throws, 401 with `failure` when it refuses
      the reply, else the reply itself with 200. */
  function LooseAnswer(reply: Json, failure: string): Response {
    if LooseCheckThrows(reply) then Response(500, Message(ServerErrorMessage))
    else if RefusedByLooseCheck(reply) then Response(401, Message(failure))
    else Response(200, reply)
  }

  /** The second half every cookie-reading handler shares: 400 without a
      cookie or without a token in it; otherwise the one backend request,
      then 500 when the loose check throws, 401 with `failure` for a
      refused reply and 200 with the reply itself for any other. */
  function Forward(cookie: Option<string>, endpoint: string, verb: Method, body: Value, failure: string,
                   backend: BackendCall -> Reply): (h: Handled)
    ensures h.call.Some? <==> CookieToken(cookie).Token?
    ensures h.call.Some? ==> h.call.value == Outgoing(endpoint, verb, body, Some(CookieToken(cookie).value))
    ensures CookieToken(cookie) == NoCookie ==> h == Fail(400, NoCookieMessage)
    ensures CookieToken(cookie) == NoToken ==> h == Fail(400, NoTokenMessage)
    ensures h.call.Some? ==>
      var reply := SafeJsonFetch(backend(h.call.value));
      && (LooseCheckThrows(reply) ==> h.response == Response(500, Message(ServerErrorMessage)))
      && (!LooseCheckThrows(reply) && RefusedByLooseCheck(reply) ==> h.response == Response(401, Message(failure)))
      && (!LooseCheckThrows(reply) && !RefusedByLooseCheck(reply) ==> h.response == Response(200, reply))
  {
    match CookieToken(cookie)
    case NoCookie => Fail(400, NoCookieMessage)
    case NoToken => Fail(400, NoTokenMessage)
    case Token(token) =>
      var call := Outgoing(endpoint, verb, body, Some(token));
      Handled(LooseAnswer(SafeJsonFetch(backend(call)), failure), Some(call))
  }

  /** Reads members of the request body as destructuring does: `None`
      when the body does not parse or is `null` (both throw, giving 500). */
  function Members(body: Option<Json>, keys: seq<string>): (r: Option<seq<Value>>)
    ensures r.Some? <==> body.Some? && body.value != JNull
    ensures r.Some? ==> |r.value| == |keys|
    ensures r.Some? ==> forall i :: 0 <= i < |keys| ==> Some(r.value[i]) == Prop(Defined(body.value), keys[i])
  {
    if body.None? || body.value == JNull then None
    else Some(seq(|keys|, i requires 0 <= i < |keys| => Prop(Defined(body.value), keys[i]).value))
  }

  /** A body that destructures without throwing: it parsed, and is not
      `null`. */
  predicate Present(body: Option<Json>) {
    body.Some? && body.value != JNull
  }

  /** A member of a present body; `undefined` when it is missing. */
  function BodyMember(body: Option<Json>, key: string): Value
    requires Present(body)
  {
    Prop(Defined(body.value), key).value
  }

  /** The 400 a handler answers when the cookie yields no token. */
  function TokenRefusal(lookup: TokenLookup): Handled
    requires !lookup.Token?
  {
    if lookup == NoCookie then Fail(400, NoCookieMessage) else Fail(400, NoTokenMessage)
  }

  /** How a cookie-reading handler answers once its backend call is made:
      500 when the loose check throws, 401 with `failure` when it refuses
      the reply, otherwise the reply itself with 200. */
  predicate AnswersReply(h: Handled, failure: string, backend: BackendCall -> Reply)
    requires h.call.Some?
  {
    var reply := SafeJsonFetch(backend(h.call.value));
    && (LooseCheckThrows(reply) ==> h.response == Response(500, Message(ServerErrorMessage)))
    && (!LooseCheckThrows(reply) && RefusedByLooseCheck(reply) ==> h.response == Response(401, Message(failure)))
    && (!LooseCheckThrows(reply) && !RefusedByLooseCheck(reply) ==> h.response == Response(200, reply))
  }

  const SlotFieldsMessage: string := "خطا در دریافت اطلاعات نوبت"
  const EditSlotFailure: string := "ویرایش نوبت با خطا مواجه شد"
  const ProfileFieldsMessage: string := "خطا در دریافت اطلاعات پروفایل"
  const EditProfileFailure: string := "ویرایش پروفایل با خطا مواجه شد"
  const SlotsFieldsMessage: string := "خطا در دریافت اطلاعات نوبت ها"
  const NewSlotsFailure: string := "ثبت نوبت ها با خطا مواجه شد"

  /** Both times of an edit request are truthy. */
  predicate SlotTimesGiven(body: Option<Json>)
    requires Present(body)
  {
    Truthy(BodyMember(body, "start_time")) && Truthy(BodyMember(body, "end_time"))
  }

  /** `POST /api/timeslots/edit`: both times must be truthy, before the
      cookie is even looked at; then `{slot_id, start_time, end_time}` goes
      to `/timeslots/edit`. */
  function EditSlotRoute(req: Request, backend: BackendCall -> Reply): (h: Handled)
    ensures h.response.status in {200, 400, 401, 500}
    ensures !Present(req.body) ==> h == Fail(500, ServerErrorMessage)
    ensures Present(req.body) && !SlotTimesGiven(req.body) ==> h == Fail(400, SlotFieldsMessage)
    ensures Present(req.body) && SlotTimesGiven(req.body) && !CookieToken(req.cookie).Token? ==>
      h == TokenRefusal(CookieToken(req.cookie))
    ensures h.call.Some? <==> Present(req.body) && SlotTimesGiven(req.body) && CookieToken(req.cookie).Token?
    ensures h.call.Some? ==> AnswersReply(h, EditSlotFailure, backend)
    ensures h.call.Some? ==>
      h.call.value == Outgoing("/timeslots/edit", Post,
        Defined(JObject(Stringify([("slot_id", BodyMember(req.body, "slot_id")),
          ("start_time", BodyMember(req.body, "start_time")), ("end_time", BodyMember(req.body, "end_time"))]))),
        Some(CookieToken(req.cookie).value))
  {
    match Members(req.body, ["slot_id", "start_time", "end_time"])
    case None => Fail(500, ServerErrorMessage)
    case Some(m) =>
      if !Truthy(m[1]) || !Truthy(m[2]) then Fail(400, SlotFieldsMessage)
      else
        var body := JObject(Stringify([("slot_id", m[0]), ("start_time", m[1]), ("end_time", m[2])]));
        Forward(req.cookie, "/timeslots/edit", Post, Defined(body), EditSlotFailure, backend)
  }

  /** `POST /api/profile/edit`: `values` must be truthy; then
      `{user_id, values}` goes to `/users/edit-profile`. */
  function EditProfileRoute(req: Request, backend: BackendCall -> Reply): (h: Handled)
    ensures h.response.status in {200, 400, 401, 500}
    ensures !Present(req.body) ==> h == Fail(500, ServerErrorMessage)
    ensures Present(req.body) && !Truthy(BodyMember(req.body, "values")) ==> h == Fail(400, ProfileFieldsMessage)
    ensures Present(req.body) && Truthy(BodyMember(req.body, "values")) && !CookieToken(req.cookie).Token? ==>
      h == TokenRefusal(CookieToken(req.cookie))
    ensures h.call.Some? <==>
      Present(req.body) && Truthy(BodyMember(req.body, "values")) && CookieToken(req.cookie).Token?
    ensures h.call.Some? ==> AnswersReply(h, EditProfileFailure, backend)
    ensures h.call.Some? ==>
      h.call.value == Outgoing("/users/edit-profile", Post,
        Defined(JObject(Stringify([("user_id", BodyMember(req.body, "user_id")),
          ("values", BodyMember(req.body, "values"))]))),
        Some(CookieToken(req.cookie).value))
  {
    match Members(req.body, ["user_id", "values"])
    case None => Fail(500, ServerErrorMessage)
    case Some(m) =>
      if !Truthy(m[1]) then Fail(400, ProfileFieldsMessage)
      else
        var body := JObject(Stringify([("user_id", m[0]), ("values", m[1])]));
        Forward(req.cookie, "/users/edit-profile", Post, Defined(body), EditProfileFailure, backend)
  }

  /** `POST /api/timeslots/new`: `slotsData` must be truthy and is sent to
      `/timeslots/new` unchanged, as the whole body. */
  function NewSlotsRoute(req: Request, backend: BackendCall -> Reply): (h: Handled)
    ensures h.response.status in {200, 400, 401, 500}
    ensures !Present(req.body) ==> h == Fail(500, ServerErrorMessage)
    ensures Present(req.body) && !Truthy(BodyMember(req.body, "slotsData")) ==> h == Fail(400, SlotsFieldsMessage)
    ensures Present(req.body) && Truthy(BodyMember(req.body, "slotsData")) && !CookieToken(req.cookie).Token? ==>
      h == TokenRefusal(CookieToken(req.cookie))
    ensures h.call.Some? <==>
      Present(req.body) && Truthy(BodyMember(req.body, "slotsData")) && CookieToken(req.cookie).Token?
    ensures h.call.Some? ==> AnswersReply(h, NewSlotsFailure, backend)
    ensures h.call.Some? ==>
      h.call.value == Outgoing("/timeslots/new", Post, BodyMember(req.body, "slotsData"),
                               Some(CookieToken(req.cookie).value))
  {
    match Members(req.body, ["slotsData"])
    case None => Fail(500, ServerErrorMessage)
    case Some(m) =>
      if !Truthy(m[0]) then Fail(400, SlotsFieldsMessage)
      else Forward(req.cookie, "/timeslots/new", Post, m[0], NewSlotsFailure, backend)
  }

  /** The two body-less `GET` handlers: `/api/reservations/recent` (the
      list filters the browser puts in the query string are not passed on)
      and `/api/timeslots/get`. They differ only in the backend endpoint
      and the failure message. */
  datatype GetHandler = RecentReservations | TimeSlots

  function GetEndpoint(g: GetHandler): string {
    match g
    case RecentReservations => "/reservations/recent"
    case TimeSlots => "/timeslots/get"
  }

  function GetFailure(g: GetHandler): string {
    match g
    case RecentReservations => "دریافت رزروهای اخیر با خطا مواجه شد"
    case TimeSlots => "دریافت نوبت ها با خطا مواجه شد"
  }

  /** A `GET` handler: 400 without a token, otherwise the backend's reply
      under the loose message check. */
  function GetRoute(g: GetHandler, req: Request, backend: BackendCall -> Reply): (h: Handled)
    ensures h.response.status in {200, 400, 401, 500}
    ensures h.call.Some? <==> CookieToken(req.cookie).Token?
    ensures h.call.Some? ==> h.call.value == Outgoing(GetEndpoint(g), Get, Undefined, Some(CookieToken(req.cookie).value))
    ensures h.response.status == 400 <==> h.call.None?
    ensures !CookieToken(req.cookie).Token? ==> h == TokenRefusal(CookieToken(req.cookie))
    ensures h.call.Some? ==> AnswersReply(h, GetFailure(g), backend)
  {
    Forward(req.cookie, GetEndpoint(g), Get, Undefined, GetFailure(g), backend)
  }

  /** Without a token no handler reaches the backend, and the token it
      sends is the one in the cookie. */
  lemma NoBackendCallWithoutToken(req: Request, backend: BackendCall -> Reply)
    requires !CookieToken(req.cookie).Token?
    ensures EditSlotRoute(req, backend).call.None?
    ensures EditProfileRoute(req, backend).call.None?
    ensures NewSlotsRoute(req, backend).call.None?
    ensures GetRoute(RecentReservations, req, backend).call.None?
    ensures GetRoute(TimeSlots, req, backend).call.None?
  {
  }

  /** A reply the backend sent with an error status is still answered
      with 200 when it carries a message. */
  lemma BackendErrorRelayedAsSuccess(req: Request, message: string, backend: BackendCall -> Reply)
    requires CookieToken(req.cookie).Token? && message != ""
    requires forall c :: backend(c) == Replied(false, Parsed(Message(message)))
    ensures GetRoute(TimeSlots, req, backend).response == Response(200, Message(message))
  {
    var call := Outgoing(GetEndpoint(TimeSlots), Get, Undefined, Some(CookieToken(req.cookie).value));
    assert SafeJsonFetch(backend(call)) == Message(message);
    assert !RefusedByLooseCheck(Message(message));
  }

  /** How `/api/auth/verify-token` was called. */
  datatype VerifyMethod = VerifyByBody | VerifyByCookie

  /** The first stage of `handleVerifyToken`: the read threw, was refused
      with a message, or found a token. */
  datatype TokenSource = Thrown | Refused(message: string) | Found(token: Value)

  /** A POST takes `body.token.value || null`; reading it from a body
      that is `null` or lacks `token` throws. A GET reads the cookie. */
  function ReadVerifyToken(via: VerifyMethod, req: Request): (r: TokenSource)
    ensures via == VerifyByCookie ==> !r.Thrown?
    ensures via == VerifyByCookie && CookieToken(req.cookie).Token? ==>
      r == Found(Defined(JStr(CookieToken(req.cookie).value)))
    ensures via == VerifyByCookie && CookieToken(req.cookie) == NoCookie ==> r == Refused(NoCookieMessage)
    ensures via == VerifyByCookie && CookieToken(req.cookie) == NoToken ==> r == Refused(NoTokenMessage)
    ensures via == VerifyByBody ==> !r.Refused?
    ensures via == VerifyByBody ==>
      (r.Thrown? <==> Members(req.body, ["token"]).None? || Prop(Members(req.body, ["token"]).value[0], "value").None?)
    ensures via == VerifyByBody && r.Found? ==>
      var v := Prop(Members(req.body, ["token"]).value[0], "value").value;
      && (Truthy(v) ==> r.token == v)
      && (!Truthy(v) ==> r.token == Defined(JNull))
    ensures r.Found? ==> r.token.Defined?
  {
    match via
    case VerifyByBody =>
      (match Members(req.body, ["token"])
       case None => Thrown
       case Some(m) =>
         match Prop(m[0], "value")
         case None => Thrown
         case Some(v) => Found(if Truthy(v) then v else Defined(JNull)))
    case VerifyByCookie =>
      (match CookieToken(req.cookie)
       case NoCookie => Refused(NoCookieMessage)
       case NoToken => Refused(NoTokenMessage)
       case Token(t) => Found(Defined(JStr(t))))
  }

  /** `handleVerifyToken`. A falsy token is 400. The backend's
      `/auth/verify-token` gets `{token}` without an `Authorization`
      header; a falsy reply or one with a falsy `message` is 401, any other
      is relayed with 200. */
  function VerifyTokenRoute(via: VerifyMethod, req: Request, backend: BackendCall -> Reply): (h: Handled)
    ensures h.response.status in {200, 400, 401, 500}
    ensures h.response.status == 500 <==> ReadVerifyToken(via, req).Thrown?
    ensures h.call.Some? <==> ReadVerifyToken(via, req).Found? && Truthy(ReadVerifyToken(via, req).token)
    ensures h.call.Some? ==>
      h.call.value == BackendCall("/auth/verify-token", Post,
                                  Some(JObject([("token", ReadVerifyToken(via, req).token.json)])), None)
    ensures h.response.status == 200 ==>
      && h.call.Some? && h.response.body == SafeJsonFetch(backend(h.call.value))
      && Truthy(Defined(h.response.body)) && Truthy(Prop(Defined(h.response.body), "message").value)
    ensures ReadVerifyToken(via, req).Thrown? ==> h == Fail(500, ServerErrorMessage)
    ensures ReadVerifyToken(via, req).Refused? ==> h == Fail(400, ReadVerifyToken(via, req).message)
    ensures ReadVerifyToken(via, req).Found? && !Truthy(ReadVerifyToken(via, req).token) ==> h == Fail(400, NoTokenMessage)
    ensures h.call.Some? ==>
      var reply := SafeJsonFetch(backend(h.call.value));
      && (!Truthy(Defined(reply)) || !Truthy(Prop(Defined(reply), "message").value) ==>
            h.response == Response(401, Message(TokenRejectedMessage)))
      && (Truthy(Defined(reply)) && Truthy(Prop(Defined(reply), "message").value) ==>
            h.response == Response(200, reply))
  {
    match ReadVerifyToken(via, req)
    case Thrown => Fail(500, ServerErrorMessage)
    case Refused(message) => Fail(400, message)
    case Found(token) =>
      if !Truthy(token) then Fail(400, NoTokenMessage)
      else
        var call := Outgoing("/auth/verify-token", Post, Defined(JObject([("token", token.json)])), None);
        var reply := SafeJsonFetch(backend(call));
        if !Truthy(Defined(reply)) || !Truthy(Prop(Defined(reply), "message").value)
        then Handled(Response(401, Message(TokenRejectedMessage)), Some(call))
        else Handled(Response(200, reply), Some(call))
  }

  /** The cookie the route guard sends gets its token verified by the
      backend. */
  lemma GuardTokenReachesBackend(token: string, backend: BackendCall -> Reply)
    requires token != ""
    requires forall i :: 0 <= i < |token| ==> token[i] != ';' && token[i] != '=' && !IsJsWhitespace(token[i])
    ensures VerifyTokenRoute(VerifyByCookie, Request(None, Some(Access.GuardCookie(token))), backend).call ==
      Some(BackendCall("/auth/verify-token", Post, Some(JObject([("token", JStr(token))])), None))
  {
    GuardCookieRoundTrip(token);
  }

  /** A POST body `{token: {value: t}}` sends `t` on. */
  lemma BodyTokenRead(t: string, backend: BackendCall -> Reply)
    requires t != ""
    ensures VerifyTokenRoute(VerifyByBody, Request(Some(JObject([("token", JObject([("value", JStr(t))]))])), None), backend).call ==
      Some(BackendCall("/auth/verify-token", Post, Some(JObject([("token", JStr(t))])), None))
  {
  }

  /** A POST body without a `token` member throws into the 500 catch. */
  lemma BodyWithoutTokenThrows(backend: BackendCall -> Reply)
    ensures VerifyTokenRoute(VerifyByBody, Request(Some(JObject([])), None), backend) == Fail(500, ServerErrorMessage)
  {
  }

  /** A POST body whose token's `value` is empty is refused with 400
      before any backend request. */
  lemma BodyEmptyTokenRefused(backend: BackendCall -> Reply)
    ensures VerifyTokenRoute(VerifyByBody, Request(Some(JObject([("token", JObject([("value", JStr(""))]))])), None), backend) ==
      Fail(400, NoTokenMessage)
  {
  }

  /** A backend that answers every request with `{}`. */
  function EmptyReply(c: BackendCall): Reply {
    Replied(true, Parsed(JObject([])))
  }

  /** Once a truthy token is found, the route answers 401 exactly when
      the backend's reply, or its `message`, is falsy. */
  lemma VerifyFoundToken(via: VerifyMethod, req: Request, backend: BackendCall -> Reply, token: Value)
    requires ReadVerifyToken(via, req) == Found(token) && Truthy(token)
    ensures var reply := SafeJsonFetch(backend(BackendCall("/auth/verify-token", Post,
                                                           Some(JObject([("token", token.json)])), None)));
      VerifyTokenRoute(via, req, backend).response.status == 401 <==>
        !Truthy(Defined(reply)) || !Truthy(Prop(Defined(reply), "message").value)
  {
  }

  /** A reply with no `message` at all is 401 from the token check... */
  lemma VerifyTokenRefusesMissingMessage(req: Request)
    requires CookieToken(req.cookie).Token? && CookieToken(req.cookie).value != ""
    ensures VerifyTokenRoute(VerifyByCookie, req, EmptyReply).response.status == 401
  {
    var t := Defined(JStr(CookieToken(req.cookie).value));
    VerifyFoundToken(VerifyByCookie, req, EmptyReply, t);
    assert Prop(Defined(JObject([])), "message") == Some(Undefined);
  }

  /** ...but 200 from the loose `== ""` check of the other handlers. */
  lemma LooseCheckAcceptsMissingMessage(req: Request)
    requires CookieToken(req.cookie).Token?
    ensures GetRoute(TimeSlots, req, EmptyReply).response == Response(200, JObject([]))
  {
    assert Prop(Defined(JObject([])), "message") == Some(Undefined);
    assert !RefusedByLooseCheck(JObject([]));
  }

  /** A backend whose reply's `message` is an object carrying its own
      `toString` member. */
  function ToStringMessageReply(c: BackendCall): Reply {
    Replied(true, Parsed(JObject([("message", JObject([("toString", JNum(1))]))])))
  }

  /** Comparing such a `message` with `""` throws, so the handler answers
      500, although the reply came with a success status. */
  lemma LooseCheckThrowsOnToStringMessage(req: Request)
    requires CookieToken(req.cookie).Token?
    ensures GetRoute(TimeSlots, req, ToStringMessageReply).response == Response(500, Message(ServerErrorMessage))
  {
    var reply := JObject([("message", JObject([("toString", JNum(1))]))]);
    assert Prop(Defined(reply), "message") == Some(Defined(JObject([("toString", JNum(1))])));
    assert LooseCheckThrows(reply);
  }

  /** The `{error}` body `/api/auth` answers with. */
  function ErrorBody(message: string): Json {
    JObject([("error", JStr(message))])
  }

  const InvalidActionMessage: string := "عملیات نامعتبر"
  const OperationFailedMessage: string := "خطا در عملیات"

  /** The two cases of the action `switch`; it compares with `===`, so only
      these two strings match. */
  predicate KnownAction(action: Value) {
    action == Defined(JStr("sendCode")) || action == Defined(JStr("login"))
  }

  /** `POST /api/auth`: `sendCode` and `login` are forwarded without a
      token; any other action is 400 with no backend request. The reply is
      first logged as `'route:' + response`, which throws, giving 500, for
      a reply that cannot be turned into text. A falsy reply is answered
      `{error}` with the default status 200. */
  function AuthRoute(req: Request, backend: BackendCall -> Reply): (h: Handled)
    ensures h.response.status in {200, 400, 500}
    ensures h.response.status == 500 <==>
      !Present(req.body) || (h.call.Some? && ConversionThrows(SafeJsonFetch(backend(h.call.value))))
    ensures h.call.Some? <==> Present(req.body) && KnownAction(BodyMember(req.body, "action"))
    ensures h.response.status == 200 ==> h.call.Some?
    ensures !Present(req.body) ==> h == Handled(Response(500, ErrorBody(ServerErrorMessage)), None)
    ensures Present(req.body) && !KnownAction(BodyMember(req.body, "action")) ==>
      h == Handled(Response(400, ErrorBody(InvalidActionMessage)), None)
    ensures h.call.Some? && ConversionThrows(SafeJsonFetch(backend(h.call.value))) ==>
      h.response == Response(500, ErrorBody(ServerErrorMessage))
    ensures h.call.Some? && !ConversionThrows(SafeJsonFetch(backend(h.call.value))) ==>
      var reply := SafeJsonFetch(backend(h.call.value));
      h.response == Response(200, if Truthy(Defined(reply)) then reply else ErrorBody(OperationFailedMessage))
    ensures h.call.Some? ==>
      var body := Defined(req.body.value);
      var action := Prop(body, "action").value;
      && h.call.value.authorization.None?
      && (action == Defined(JStr("sendCode")) ==>
            h.call.value == Outgoing("/auth/send-code", Post,
              Defined(JObject(Stringify([("phone", Prop(body, "phone").value), ("send", Defined(JBool(false)))]))), None))
      && (action == Defined(JStr("login")) ==>
            h.call.value == Outgoing("/auth/login", Post,
              Defined(JObject(Stringify([("phone", Prop(body, "phone").value), ("code", Prop(body, "code").value),
                                         ("user", Defined(JBool(true)))]))), None))
      && (action == Defined(JStr("sendCode")) || action == Defined(JStr("login")))
  {
    match Members(req.body, ["action", "phone", "code"])
    case None => Handled(Response(500, ErrorBody(ServerErrorMessage)), None)
    case Some(m) =>
      if !KnownAction(m[0]) then
        Handled(Response(400, ErrorBody(InvalidActionMessage)), None)
      else
        var call := if m[0] == Defined(JStr("sendCode"))
          then Outgoing("/auth/send-code", Post, Defined(JObject(Stringify([("phone", m[1]), ("send", Defined(JBool(false)))]))), None)
          else Outgoing("/auth/login", Post, Defined(JObject(Stringify([("phone", m[1]), ("code", m[2]),
                                                                    ("user", Defined(JBool(true)))]))), None);
        var reply := SafeJsonFetch(backend(call));
        if ConversionThrows(reply) then Handled(Response(500, ErrorBody(ServerErrorMessage)), Some(call))
        else if !Truthy(Defined(reply)) then Handled(Response(200, ErrorBody(OperationFailedMessage)), Some(call))
        else Handled(Response(200, reply), Some(call))
  }

  /** A backend that never answers. */
  function NoReply(c: BackendCall): Reply {
    Unreachable
  }

  /** An unreachable backend is answered with an `error` body, yet with
      status 200, for either action. */
  lemma UnreachableBackendAnsweredOk(req: Request)
    requires req.body.Some? && req.body.value.JObject?
    requires Prop(Defined(req.body.value), "action") in {Some(Defined(JStr("sendCode"))), Some(Defined(JStr("login")))}
    ensures AuthRoute(req, NoReply).response == Response(200, ErrorBody(OperationFailedMessage))
    ensures AuthRoute(req, NoReply).call.Some?
  {
  }

  /** A backend whose parsed reply carries its own `toString` member. */
  function ToStringReply(c: BackendCall): Reply {
    Replied(true, Parsed(JObject([("toString", JNum(1))])))
  }

  /** Such a reply, success status and all, is answered 500 once the call
      was made: the log line throws before the reply is looked at. Inside
      an array it does the same. */
  lemma ToStringReplyAnswered500(req: Request)
    requires req.body.Some? && req.body.value.JObject?
    requires Prop(Defined(req.body.value), "action") in {Some(Defined(JStr("sendCode"))), Some(Defined(JStr("login")))}
    ensures AuthRoute(req, ToStringReply).call.Some?
    ensures AuthRoute(req, ToStringReply).response == Response(500, ErrorBody(ServerErrorMessage))
    ensures ConversionThrows(JArray([JNull, JObject([("toString", JNum(1))])]))
    ensures !ConversionThrows(JObject([("message", JStr("ok"))]))
  {
    var items := [JNull, JObject([("toString", JNum(1))])];
    assert ConversionThrows(items[1]);
  }

  /** Sending a code never forwards the code field. */
  lemma SendCodeOmitsCode(req: Request, backend: BackendCall -> Reply)
    requires req.body.Some? && req.body.value.JObject?
    requires Prop(Defined(req.body.value), "action") == Some(Defined(JStr("sendCode")))
    ensures var c := AuthRoute(req, backend).call;
      c.Some? && c.value.body.Some? && c.value.body.value.JObject?
      && forall i :: 0 <= i < |c.value.body.value.fields| ==> c.value.body.value.fields[i].0 != "code"
  {
    var m := Members(req.body, ["action", "phone", "code"]).value;
    var members := [("phone", m[1]), ("send", Defined(JBool(false)))];
    var fields := Stringify(members);
    forall i | 0 <= i < |fields| ensures fields[i].0 != "code" {
      var j :| 0 <= j < |members| && members[j] == (fields[i].0, Defined(fields[i].1));
    }
  }
}

=== FILE: query.dfy ===
/** The list filters the reservation pages keep in the URL: the query
    `updateUrlParams` writes (and `loadReservations` sends to
    `/api/reservations/recent`), and the effect that reads the URL back
    into the filters. The admin list (`app/admin/reservations/page.tsx`)
    filters by status, dormitory and a search text; the user's list
    (`app/dashboard/reservations/page.tsx`) by status and a reservation id. */
module Query {
  import opened Wrappers
  import opened Text

  /** `URLSearchParams` as the list of name/value pairs appended to it.
      Percent-encoding in `toString()` is not modelled. */
  type Query = seq<(string, string)>

  /** `params.get(name)`: the first value stored under `name`. */
  function Get(q: Query, name: string): Option<string>
    decreases |q|
  {
    if |q| == 0 then None
    else if q[0].0 == name then Some(q[0].1)
    else Get(q[1..], name)
  }

  /** `get` finds a value exactly when some pair carries the name, and the
      value it finds is that of the first such pair. */
  lemma {:induction false} GetFindsFirst(q: Query, name: string)
    ensures Get(q, name).None? <==> forall i :: 0 <= i < |q| ==> q[i].0 != name
    ensures Get(q, name).Some? ==>
      (exists i :: 0 <= i < |q| && q[i] == (name, Get(q, name).value) && (forall j :: 0 <= j < i ==> q[j].0 != name))
    decreases |q|
  {
    if |q| > 0 && q[0].0 != name {
      GetFindsFirst(q[1..], name);
      if Get(q, name).Some? {
        var i :| 0 <= i < |q[1..]| && q[1..][i] == (name, Get(q, name).value)
          && forall j :: 0 <= j < i ==> q[1..][j].0 != name;
        assert q[i + 1] == (name, Get(q, name).value);
        forall j | 0 <= j < i + 1 ensures q[j].0 != name {
          if j > 0 { assert q[j] == q[1..][j - 1]; }
        }
      } else {
        forall i | 0 <= i < |q| ensures q[i].0 != name {
          if i > 0 { assert q[i] == q[1..][i - 1]; }
        }
      }
    } else if |q| > 0 {
      assert q[0] == (name, Get(q, name).value);
    }
  }

  /** Looking a name up in two lists joined: the first list wins. */
  lemma {:induction false} GetAppend(a: Query, b: Query, name: string)
    ensures Get(a + b, name) == if Get(a, name).Some? then Get(a, name) else Get(b, name)
    decreases |a|
  {
    if |a| > 0 {
      assert (a + b)[1..] == a[1..] + b;
      GetAppend(a[1..], b, name);
    } else {
      assert a + b == b;
    }
  }

  /** A parameter appended only when `present` holds. */
  function Param(present: bool, name: string, value: string): (q: Query)
    ensures Get(q, name) == if present then Some(value) else None
  {
    if present then [(name, value)] else []
  }

  /** A page number as React state holds it: `parseInt` of a URL value
      that holds no digits is `NaN`. */
  datatype PageValue = PageNumber(n: int) | NotANumber

  /** `page.toString()`. */
  function PageString(p: PageValue): string {
    match p
    case PageNumber(n) => IntToString(n)
    case NotANumber => "NaN"
  }

  /** `parseInt(page)` stored as the current page. */
  function ReadPage(s: string): (p: PageValue)
    ensures p.PageNumber? <==> ParseInt(s).Some?
  {
    match ParseInt(s)
    case Some(n) => PageNumber(n)
    case None => NotANumber
  }

  lemma ReadPageString(p: PageValue)
    ensures ReadPage(PageString(p)) == p
  {
    match p
    case PageNumber(n) => ParseIntToString(n);
    case NotANumber =>
      assert !IsJsWhitespace('N');
      assert TrimStart("NaN") == "NaN";
  }

  /** JavaScript truthiness of a string: only `""` is falsy. */
  predicate Truthy(s: string) {
    s != ""
  }

  /** The filters of the admin list. */
  datatype AdminFilters = AdminFilters(page: PageValue, status: string, dormitory: string, search: string)

  /** The admin list's query: the page always; the status and the
      dormitory unless they are `all`; the search text, untrimmed, unless
      it is blank. */
  function AdminQuery(f: AdminFilters): (q: Query)
    ensures |q| >= 1 && q[0] == ("page", PageString(f.page))
  {
    Param(true, "page", PageString(f.page))
    + Param(f.status != "all", "status", f.status)
    + Param(f.dormitory != "all", "dormitory", f.dormitory)
    + Param(Trim(f.search) != "", "search", f.search)
  }

  /** Each filter can be read back from the admin query under its own
      name, and is missing exactly when it is `all` or, for the search
      text, blank. */
  lemma AdminQueryReads(f: AdminFilters)
    ensures var q := AdminQuery(f);
      && Get(q, "page") == Some(PageString(f.page))
      && Get(q, "status") == (if f.status != "all" then Some(f.status) else None)
      && Get(q, "dormitory") == (if f.dormitory != "all" then Some(f.dormitory) else None)
      && Get(q, "search") == (if !Blank(f.search) then Some(f.search) else None)
  {
    TrimEmptyIffBlank(f.search);
    var a := Param(true, "page", PageString(f.page));
    var b := Param(f.status != "all", "status", f.status);
    var c := Param(f.dormitory != "all", "dormitory", f.dormitory);
    var d := Param(Trim(f.search) != "", "search", f.search);
    GetAppend(a + b + c, d, "page");
    GetAppend(a + b, c, "page");
    GetAppend(a, b, "page");
    GetAppend(a + b + c, d, "status");
    GetAppend(a + b, c, "status");
    GetAppend(a, b, "status");
    GetAppend(a + b + c, d, "dormitory");
    GetAppend(a + b, c, "dormitory");
    GetAppend(a, b, "dormitory");
    GetAppend(a + b + c, d, "search");
    GetAppend(a + b, c, "search");
    GetAppend(a, b, "search");
  }

  /** `isDormitoryAdmin`: the role starts with `admin-dormitory`. */
  predicate IsDormitoryAdmin(role: Option<string>) {
    role.Some? && StartsWith(role.value, "admin-dormitory")
  }

  /** `adminDormitory`: a dormitory admin's role without its `admin-`
      prefix (`admin-dormitory-1` gives `dormitory-1`). */
  function AdminDormitory(role: Option<string>): (d: Option<string>)
    ensures d.Some? <==> IsDormitoryAdmin(role)
    ensures d.Some? ==> role.value == "admin-" + d.value
  {
    if IsDormitoryAdmin(role) then
      assert role.value[..6] == "admin-";
      Some(role.value[6..])
    else None
  }

  /** The effect that runs when the URL changes: a dormitory admin's
      filter is first pinned to their own dormitory; then every parameter
      present and non-empty replaces its filter, except that a dormitory
      is accepted only from the main admin or when it is the admin's own. */
  function ReadAdminUrl(f: AdminFilters, q: Query, role: Option<string>): (g: AdminFilters)
    ensures AdminDormitory(role).Some? ==> g.dormitory == AdminDormitory(role).value
    ensures role != Some("admin") && !IsDormitoryAdmin(role) ==> g.dormitory == f.dormitory
    ensures Get(q, "status").Some? && Truthy(Get(q, "status").value) ==> g.status == Get(q, "status").value
    ensures Get(q, "status").None? ==> g.status == f.status
    ensures Get(q, "search").None? ==> g.search == f.search
    ensures Get(q, "page").None? ==> g.page == f.page
  {
    var own := AdminDormitory(role);
    var pinned := if own.Some? && Truthy(own.value) then own.value else f.dormitory;
    var page := Get(q, "page");
    var status := Get(q, "status");
    var dormitory := Get(q, "dormitory");
    var search := Get(q, "search");
    AdminFilters(
      if page.Some? && Truthy(page.value) then ReadPage(page.value) else f.page,
      if status.Some? && Truthy(status.value) then status.value else f.status,
      if dormitory.Some? && Truthy(dormitory.value) && (role == Some("admin") || own == Some(dormitory.value))
      then dormitory.value else pinned,
      if search.Some? && Truthy(search.value) then search.value else f.search)
  }

  /** Writing the filters into the URL and reading them back restores
      them, provided a dormitory admin was looking at their own dormitory
      (the only one the page lets them see). */
  lemma AdminUrlRoundTrip(f: AdminFilters, role: Option<string>)
    requires IsDormitoryAdmin(role) ==> f.dormitory == AdminDormitory(role).value
    ensures ReadAdminUrl(f, AdminQuery(f), role) == f
  {
    var q := AdminQuery(f);
    AdminQueryReads(f);
    ReadPageString(f.page);
    assert Truthy(PageString(f.page));
    if !Blank(f.search) {
      assert f.search != "";
    }
    var g := ReadAdminUrl(f, q, role);
    assert g.page == f.page;
    assert g.status == f.status;
    assert g.dormitory == f.dormitory by {
      if IsDormitoryAdmin(role) {
        assert AdminDormitory(role).value == f.dormitory;
      }
    }
    assert g.search == f.search;
  }

  /** Whatever the URL says, a dormitory admin only ever lists their own
      dormitory, and the main admin can pick any. */
  lemma DormitoryAdminIsPinned(f: AdminFilters, q: Query, d: string)
    requires d != "" && d != "all"
    ensures ReadAdminUrl(f, q, Some("admin-" + d)).dormitory ==
      (if StartsWith("admin-" + d, "admin-dormitory") then d else f.dormitory)
    ensures ReadAdminUrl(f, AdminQuery(f.(dormitory := d)), Some("admin")).dormitory == d
  {
    var role := Some("admin-" + d);
    if IsDormitoryAdmin(role) {
      assert AdminDormitory(role).value == d;
    }
    AdminQueryReads(f.(dormitory := d));
    assert !IsDormitoryAdmin(Some("admin"));
  }

  /** The filters of the user's own list. */
  datatype UserFilters = UserFilters(page: PageValue, status: string, id: string)

  /** The user's list query: the page, the status unless `all`, and the
      searched reservation id unless blank. */
  function UserQuery(f: UserFilters): (q: Query)
    ensures |q| >= 1 && q[0] == ("page", PageString(f.page))
  {
    Param(true, "page", PageString(f.page))
    + Param(f.status != "all", "status", f.status)
    + Param(Trim(f.id) != "", "id", f.id)
  }

  /** Each filter of the user's list reads back under its own name; the
      query never names a dormitory or a free-text search. */
  lemma UserQueryReads(f: UserFilters)
    ensures var q := UserQuery(f);
      && Get(q, "page") == Some(PageString(f.page))
      && Get(q, "status") == (if f.status != "all" then Some(f.status) else None)
      && Get(q, "id") == (if !Blank(f.id) then Some(f.id) else None)
      && Get(q, "dormitory").None? && Get(q, "search").None?
  {
    TrimEmptyIffBlank(f.id);
    var a := Param(true, "page", PageString(f.page));
    var b := Param(f.status != "all", "status", f.status);
    var c := Param(Trim(f.id) != "", "id", f.id);
    GetAppend(a + b, c, "page");
    GetAppend(a, b, "page");
    GetAppend(a + b, c, "status");
    GetAppend(a, b, "status");
    GetAppend(a + b, c, "id");
    GetAppend(a, b, "id");
    GetAppend(a + b, c, "dormitory");
    GetAppend(a, b, "dormitory");
    GetAppend(a + b, c, "search");
    GetAppend(a, b, "search");
  }

  /** The user's list reads `page`, `status` and `id` back. */
  function ReadUserUrl(f: UserFilters, q: Query): (g: UserFilters)
    ensures Get(q, "status").None? ==> g.status == f.status
    ensures Get(q, "id").None? ==> g.id == f.id
    ensures Get(q, "page").None? ==> g.page == f.page
  {
    var page := Get(q, "page");
    var status := Get(q, "status");
    var id := Get(q, "id");
    UserFilters(
      if page.Some? && Truthy(page.value) then ReadPage(page.value) else f.page,
      if status.Some? && Truthy(status.value) then status.value else f.status,
      if id.Some? && Truthy(id.value) then id.value else f.id)
  }

  lemma UserUrlRoundTrip(f: UserFilters)
    ensures ReadUserUrl(f, UserQuery(f)) == f
  {
    UserQueryReads(f);
    ReadPageString(f.page);
    if !Blank(f.id) {
      assert f.id != "";
    }
  }
}

=== FILE: reservations.dfy ===
/** Reservation lists as the pages hold them: the admin's status change
    (`app/admin/reservations/page.tsx`), the dashboard's counters and
    recent list (`app/dashboard/page.tsx`), the cancel button of the
    user's list (`app/dashboard/reservations/page.tsx`) and the status
    badge table (`components/status-style.tsx`). Statuses are kept as the
    strings the server sends, because the pages use more of them than the
    declared `ReservationStatus` type names. */
module Reservations {
  import opened Wrappers
  import opened Domain

  /** `Reservation`, with its slot list reduced to its length (the only
      thing the lists show of it). */
  datatype Reservation = Reservation(id: string, userId: string, slotCount: nat, status: string, createdAt: string)

  /** The list after a status change the server accepted: every
      reservation with the id takes the new status. */
  function UpdateStatus(rs: seq<Reservation>, id: string, status: string): (r: seq<Reservation>)
    ensures |r| == |rs|
    ensures forall i :: 0 <= i < |rs| ==> r[i].id == rs[i].id
  {
    seq(|rs|, i requires 0 <= i < |rs| => if rs[i].id == id then rs[i].(status := status) else rs[i])
  }

  /** Only the reservation with the id changes, and only in its status;
      the list keeps its length and order. */
  lemma UpdateStatusChangesOnlyTarget(rs: seq<Reservation>, id: string, status: string)
    ensures var r := UpdateStatus(rs, id, status);
      forall i :: 0 <= i < |rs| ==>
        && r[i].(status := rs[i].status) == rs[i]
        && (rs[i].id == id ==> r[i].status == status)
        && (rs[i].id != id ==> r[i] == rs[i])
  {
  }

  /** Changing a status twice to the same value is changing it once, and
      an id nobody has leaves the list as it was. */
  lemma UpdateStatusIdempotent(rs: seq<Reservation>, id: string, status: string)
    ensures UpdateStatus(UpdateStatus(rs, id, status), id, status) == UpdateStatus(rs, id, status)
    ensures (forall i :: 0 <= i < |rs| ==> rs[i].id != id) ==> UpdateStatus(rs, id, status) == rs
  {
  }

  /** Setting a status and then putting back the old one restores the
      list, when the id names one reservation. */
  lemma UpdateStatusUndo(rs: seq<Reservation>, k: nat, status: string)
    requires k < |rs| && forall i :: 0 <= i < |rs| && i != k ==> rs[i].id != rs[k].id
    ensures UpdateStatus(UpdateStatus(rs, rs[k].id, status), rs[k].id, rs[k].status) == rs
  {
  }

  /** `handleStatusChange`: the list changes only when the server
      answered 200 with `success`. */
  function ChangeStatus(rs: seq<Reservation>, id: string, status: string, accepted: bool): (r: seq<Reservation>)
    ensures |r| == |rs|
    ensures !accepted ==> r == rs
    ensures accepted ==> forall i :: 0 <= i < |rs| && rs[i].id == id ==> r[i].status == status
  {
    if accepted then UpdateStatus(rs, id, status) else rs
  }

  /** How many reservations have a status in `statuses`: the length of the
      dashboard's `filter`. */
  function Count(rs: seq<Reservation>, statuses: set<string>): (n: nat)
    ensures n <= |rs|
    decreases |rs|
  {
    if |rs| == 0 then 0
    else (if rs[0].status in statuses then 1 else 0) + Count(rs[1..], statuses)
  }

  /** Counting two disjoint groups of statuses together is adding their
      counts. */
  lemma {:induction false} CountUnion(rs: seq<Reservation>, a: set<string>, b: set<string>)
    requires a !! b
    ensures Count(rs, a + b) == Count(rs, a) + Count(rs, b)
    decreases |rs|
  {
    if |rs| > 0 {
      CountUnion(rs[1..], a, b);
    }
  }

  /** Counting a subset of statuses counts no more. */
  lemma {:induction false} CountMonotone(rs: seq<Reservation>, a: set<string>, b: set<string>)
    requires a <= b
    ensures Count(rs, a) <= Count(rs, b)
    decreases |rs|
  {
    if |rs| > 0 {
      CountMonotone(rs[1..], a, b);
    }
  }

  /** Counting a list built from two parts. */
  lemma {:induction false} CountAppend(xs: seq<Reservation>, ys: seq<Reservation>, a: set<string>)
    ensures Count(xs + ys, a) == Count(xs, a) + Count(ys, a)
    decreases |xs|
  {
    if |xs| == 0 {
      assert xs + ys == ys;
    } else {
      assert (xs + ys)[1..] == xs[1..] + ys;
      CountAppend(xs[1..], ys, a);
    }
  }

  /** The dashboard: the three counters, the first reservations listed,
      whether a "view all" link is needed, and whether the list renders at
      all: a listed reservation whose status has no entry in the page's
      badge table makes `status.color` read a member of `undefined`, which
      throws. */
  datatype Summary = Summary(total: nat, pending: nat, ready: nat, recent: seq<Reservation>, viewAll: bool,
                             renders: bool)

  /** The keys of the dashboard's own badge table. */
  const BadgeStatuses: set<string> := {"waiting", "washing", "ready"}

  /** Every reservation is counted exactly when every status is in the
      group. */
  lemma {:induction false} CountAll(rs: seq<Reservation>, a: set<string>)
    ensures Count(rs, a) == |rs| <==> forall i :: 0 <= i < |rs| ==> rs[i].status in a
    decreases |rs|
  {
    if |rs| > 0 {
      CountAll(rs[1..], a);
      if rs[0].status in a && Count(rs[1..], a) == |rs| - 1 {
        forall i | 0 <= i < |rs| ensures rs[i].status in a {
          if i > 0 { assert rs[i] == rs[1..][i - 1]; }
        }
      }
      if forall i :: 0 <= i < |rs| ==> rs[i].status in a {
        assert rs[0].status in a;
        forall i | 0 <= i < |rs[1..]| ensures rs[1..][i].status in a {
          assert rs[1..][i] == rs[i + 1];
        }
      }
    }
  }

  const RecentShown: nat := 5

  /** `app/dashboard/page.tsx`: the total, the reservations waiting or
      washing, the ready ones, the first five, and "view all" when more
      exist. */
  function Summarize(rs: seq<Reservation>): (s: Summary)
    ensures s.total == |rs|
    ensures s.pending == Count(rs, {"waiting"}) + Count(rs, {"washing"})
    ensures s.ready == Count(rs, {"ready"})
    ensures s.pending + s.ready <= s.total
    ensures |s.recent| <= RecentShown && |s.recent| <= |rs| && s.recent == rs[..|s.recent|]
    ensures |s.recent| == |rs| || |s.recent| == RecentShown
    ensures s.viewAll <==> |s.recent| < |rs|
    ensures s.renders <==> forall i :: 0 <= i < |rs| && i < RecentShown ==> rs[i].status in BadgeStatuses
  {
    CountUnion(rs, {"waiting"}, {"washing"});
    assert {"waiting"} + {"washing"} == {"waiting", "washing"};
    CountUnion(rs, {"waiting", "washing"}, {"ready"});
    var pending := Count(rs, {"waiting", "washing"});
    var ready := Count(rs, {"ready"});
    assert {"waiting", "washing"} + {"ready"} == {"waiting", "washing", "ready"};
    var recent := if |rs| <= RecentShown then rs else rs[..RecentShown];
    CountAll(recent, BadgeStatuses);
    Summary(|rs|, pending, ready, recent, |rs| > RecentShown, Count(recent, BadgeStatuses) == |recent|)
  }

  /** A `pending` reservation among the first five, a status the admin's
      selector sets, stops the dashboard from rendering, while the same
      reservation beyond the first five does not. */
  lemma PendingBreaksDashboard(rs: seq<Reservation>, k: nat)
    requires k < |rs| && rs[k].status == "pending"
    ensures k < RecentShown ==> !Summarize(rs).renders
    ensures (forall i :: 0 <= i < |rs| && i != k ==> rs[i].status == "ready") ==>
      (Summarize(rs).renders <==> k >= RecentShown)
  {
  }

  /** A status change moves a reservation between the counters and leaves
      the total alone: one fewer where it was, one more where it goes. */
  lemma StatusChangeMovesOneCount(rs: seq<Reservation>, k: nat, status: string, a: set<string>)
    requires k < |rs| && forall i :: 0 <= i < |rs| && i != k ==> rs[i].id != rs[k].id
    ensures var r := UpdateStatus(rs, rs[k].id, status);
      Count(r, a) == Count(rs, a) - (if rs[k].status in a then 1 else 0) + (if status in a then 1 else 0)
  {
    var r := UpdateStatus(rs, rs[k].id, status);
    assert rs == rs[..k] + [rs[k]] + rs[k + 1..];
    assert r == rs[..k] + [r[k]] + rs[k + 1..];
    CountAppend(rs[..k] + [rs[k]], rs[k + 1..], a);
    CountAppend(rs[..k], [rs[k]], a);
    CountAppend(rs[..k] + [r[k]], rs[k + 1..], a);
    CountAppend(rs[..k], [r[k]], a);
  }

  /** The user's list offers a cancel button, in the desktop table and in
      the mobile cards alike, exactly for a `pending` reservation. */
  datatype View = Desktop | Mobile

  function CancelOffered(r: Reservation, v: View): (offered: bool)
    ensures offered <==> r.status == "pending"
  {
    match v
    case Desktop => r.status == "pending"
    case Mobile => r.status == "pending"
  }

  /** A status the admin's selector offers a badge style for, in
      `components/status-style.tsx`. */
  datatype StyledStatus = Pending | WashingNow | ReadyForPickup | Finished | Cancelled

  datatype Icon = ClockIcon | WashingMachineIcon | AlarmClockCheckIcon | BookmarkCheckIcon | BookmarkXIcon

  /** The Tailwind colour family of a badge. */
  datatype Hue = Orange | Yellow | Green | Blue | Gray

  datatype Style = Style(hue: Hue, icon: Icon, title: string)

  function StyledName(s: StyledStatus): string {
    match s
    case Pending => "pending"
    case WashingNow => "washing"
    case ReadyForPickup => "ready"
    case Finished => "finished"
    case Cancelled => "cancelled"
  }

  /** The `color` classes of a hue: light and dark background and text. */
  function ColorClasses(h: Hue): string {
    match h
    case Orange => "bg-orange-100 text-orange-800 dark:bg-orange-800 dark:text-orange-100"
    case Yellow => "bg-yellow-100 text-yellow-800 dark:bg-yellow-800 dark:text-yellow-100"
    case Green => "bg-green-100 text-green-800 dark:bg-green-800 dark:text-green-100"
    case Blue => "bg-blue-100 text-blue-800 dark:bg-blue-800 dark:text-blue-100"
    case Gray => "bg-gray-100 text-gray-800 dark:bg-gray-800 dark:text-gray-200"
  }

  /** `statusStyles[status]`. */
  function StyleOf(s: StyledStatus): (st: Style)
    ensures |st.title| >= 7
  {
    match s
    case Pending => Style(Orange, ClockIcon, "در انتظار")
    case WashingNow => Style(Yellow, WashingMachineIcon, "در حال شستشو")
    case ReadyForPickup => Style(Green, AlarmClockCheckIcon, "آماده تحویل")
    case Finished => Style(Blue, BookmarkCheckIcon, "تحویل داده شده")
    case Cancelled => Style(Gray, BookmarkXIcon, "لغو شده")
  }

  /** Looking a server status up in the table: found exactly for the five
      keys. */
  function StyleFor(status: string): (st: Option<Style>)
    ensures st.Some? <==> status in {"pending", "washing", "ready", "finished", "cancelled"}
    ensures st.Some? ==> exists s :: StyledName(s) == status && st.value == StyleOf(s)
  {
    if status == "pending" then Some(StyleOf(Pending))
    else if status == "washing" then Some(StyleOf(WashingNow))
    else if status == "ready" then Some(StyleOf(ReadyForPickup))
    else if status == "finished" then Some(StyleOf(Finished))
    else if status == "cancelled" then Some(StyleOf(Cancelled))
    else None
  }

  /** The labels have five different lengths. */
  function TitleLength(s: StyledStatus): nat {
    match s
    case Pending => 9
    case WashingNow => 12
    case ReadyForPickup => 11
    case Finished => 14
    case Cancelled => 7
  }

  /** Different statuses get different labels, colours and icons. */
  lemma StylesDistinct(a: StyledStatus, b: StyledStatus)
    requires a != b
    ensures StyleOf(a).title != StyleOf(b).title
    ensures StyleOf(a).hue != StyleOf(b).hue
    ensures StyleOf(a).icon != StyleOf(b).icon
  {
    assert |StyleOf(a).title| == TitleLength(a);
    assert |StyleOf(b).title| == TitleLength(b);
  }

  /** Each of the five values of the admin's status selector has a style,
      while the `waiting` of the declared type has none. */
  lemma SelectorStatusesStyled()
    ensures forall v :: v in ["pending", "washing", "ready", "finished", "cancelled"] ==> StyleFor(v).Some?
    ensures StyleFor(StatusName(Waiting)).None?
    ensures StyleFor(StatusName(Washing)).Some? && StyleFor(StatusName(Ready)).Some?
  {
  }

  /** The dashboard's own badge table covers the declared statuses. */
  function DashboardLabel(s: ReservationStatus): (caption: string)
    ensures caption != ""
  {
    match s
    case Waiting => "Waiting"
    case Washing => "Washing"
    case Ready => "Ready for pickup"
  }

  lemma DashboardLabelsDistinct(a: ReservationStatus, b: ReservationStatus)
    ensures DashboardLabel(a) == DashboardLabel(b) <==> a == b
  {
  }
}

=== FILE: schedule.dfy ===
/** The `TimeSlotsData` object the slot pages hold: a map from a date key to
    the day's name and its slots. The admin page
    (`app/admin/timeslots/page.tsx`) edits and deletes slots in it; the two
    booking pages (`app/dashboard/reservations/new/page.tsx`,
    `app/reservations/new/page.tsx`) keep only the slots with capacity left.
    All three show either every date or the one date of the active tab. */
module Schedule {
  import opened Wrappers
  import opened Text
  import opened Clock

  /** `TimeSlot`. */
  datatype Slot = Slot(id: string, startTime: string, endTime: string, capacityLeft: int)

  /** `DayData`. */
  datatype Day = Day(day: string, slots: seq<Slot>)

  /** `TimeSlotsData` as the sequence `Object.keys` walks: date keys are not
      array indices, so they come in insertion order. */
  type Schedule = seq<(string, Day)>

  function Keys(s: Schedule): seq<string> {
    seq(|s|, i requires 0 <= i < |s| => s[i].0)
  }

  /** An object never holds a key twice. */
  predicate WellKeyed(s: Schedule) {
    forall i, j :: 0 <= i < j < |s| ==> s[i].0 != s[j].0
  }

  /** `timeSlots[date]`. */
  function Lookup(s: Schedule, date: string): Option<Day>
    decreases |s|
  {
    if |s| == 0 then None
    else if s[0].0 == date then Some(s[0].1)
    else Lookup(s[1..], date)
  }

  lemma {:induction false} LookupFindsKey(s: Schedule, date: string)
    ensures Lookup(s, date).Some? <==> date in Keys(s)
    decreases |s|
  {
    if |s| > 0 {
      LookupFindsKey(s[1..], date);
      assert Keys(s) == [s[0].0] + Keys(s[1..]);
    }
  }

  /** `a` is `b` with some elements left out. */
  predicate SubsequenceOf<T(==)>(a: seq<T>, b: seq<T>)
    decreases |b|
  {
    if |a| == 0 then true
    else if |b| == 0 then false
    else (a[0] == b[0] && SubsequenceOf(a[1..], b[1..])) || SubsequenceOf(a, b[1..])
  }

  /** `Array.prototype.filter`: exactly the elements `keep` accepts, in
      their original order. */
  function Filter(xs: seq<Slot>, keep: Slot -> bool): (r: seq<Slot>)
    ensures |r| <= |xs|
    ensures forall x :: x in r <==> x in xs && keep(x)
    ensures SubsequenceOf(r, xs)
    decreases |xs|
  {
    if |xs| == 0 then []
    else
      var rest := Filter(xs[1..], keep);
      assert forall x :: x in xs <==> x == xs[0] || x in xs[1..];
      if keep(xs[0]) then
        assert ([xs[0]] + rest)[1..] == rest;
        [xs[0]] + rest
      else rest
  }

  /** Filters every day's slots with `keep` and drops the days left
      without slots: the shape of both the availability filter and the
      deletion. */
  function Prune(s: Schedule, keep: Slot -> bool): (r: Schedule)
    ensures forall i :: 0 <= i < |r| ==> |r[i].1.slots| > 0
    ensures forall i, k :: 0 <= i < |r| && 0 <= k < |r[i].1.slots| ==> keep(r[i].1.slots[k])
    decreases |s|
  {
    if |s| == 0 then []
    else
      var kept := Filter(s[0].1.slots, keep);
      var rest := Prune(s[1..], keep);
      if |kept| > 0 then [(s[0].0, s[0].1.(slots := kept))] + rest else rest
  }

  /** What a pruned day looks like: its slots filtered, and nothing when
      none survive. */
  function PrunedDay(d: Option<Day>, keep: Slot -> bool): Option<Day> {
    match d
    case None => None
    case Some(day) =>
      var kept := Filter(day.slots, keep);
      if |kept| > 0 then Some(day.(slots := kept)) else None
  }

  /** A day survives pruning exactly when one of its slots is kept. */
  lemma PrunedDayKeeps(d: Option<Day>, keep: Slot -> bool)
    ensures PrunedDay(d, keep).Some? <==> d.Some? && exists k :: 0 <= k < |d.value.slots| && keep(d.value.slots[k])
  {
    if d.Some? {
      var kept := Filter(d.value.slots, keep);
      if exists k :: 0 <= k < |d.value.slots| && keep(d.value.slots[k]) {
        var k :| 0 <= k < |d.value.slots| && keep(d.value.slots[k]);
        assert d.value.slots[k] in kept;
      }
      if |kept| > 0 {
        assert kept[0] in kept;
        var k :| 0 <= k < |d.value.slots| && d.value.slots[k] == kept[0];
        assert keep(d.value.slots[k]);
      }
    }
  }

  /** Date by date, pruning keeps exactly the days with a surviving slot,
      each with its other fields and its surviving slots unchanged. */
  lemma {:induction false} PruneLookup(s: Schedule, keep: Slot -> bool, date: string)
    requires WellKeyed(s)
    ensures Lookup(Prune(s, keep), date) == PrunedDay(Lookup(s, date), keep)
    decreases |s|
  {
    if |s| > 0 {
      TailWellKeyed(s);
      PruneLookup(s[1..], keep, date);
      if s[0].0 == date {
        LookupFindsKey(s[1..], date);
      }
    }
  }

  lemma TailWellKeyed(s: Schedule)
    requires WellKeyed(s) && |s| > 0
    ensures WellKeyed(s[1..])
    ensures s[0].0 !in Keys(s[1..])
  {
    forall i, j | 0 <= i < j < |s[1..]| ensures s[1..][i].0 != s[1..][j].0 {
      assert s[1..][i] == s[i + 1] && s[1..][j] == s[j + 1];
    }
    forall i | 0 <= i < |s[1..]| ensures Keys(s[1..])[i] != s[0].0 {
      assert s[1..][i] == s[i + 1];
    }
  }

  /** Pruning never duplicates a date. */
  lemma {:induction false} PruneWellKeyed(s: Schedule, keep: Slot -> bool)
    ensures WellKeyed(s) ==> WellKeyed(Prune(s, keep))
    decreases |s|
  {
    if |s| > 0 && WellKeyed(s) {
      TailWellKeyed(s);
      PruneWellKeyed(s[1..], keep);
      var rest := Prune(s[1..], keep);
      forall j | 0 <= j < |rest| ensures rest[j].0 != s[0].0 {
        var k := rest[j].0;
        assert Keys(rest)[j] == k;
        LookupFindsKey(rest, k);
        PruneLookup(s[1..], keep, k);
        LookupFindsKey(s[1..], k);
      }
      if |Filter(s[0].1.slots, keep)| > 0 {
        var r := [(s[0].0, s[0].1.(slots := Filter(s[0].1.slots, keep)))] + rest;
        assert forall i :: 1 <= i < |r| ==> r[i] == rest[i - 1];
      }
    }
  }

  /** Pruning keeps the dates in their original order. */
  lemma {:induction false} PruneKeepsOrder(s: Schedule, keep: Slot -> bool)
    ensures SubsequenceOf(Keys(Prune(s, keep)), Keys(s))
    decreases |s|
  {
    if |s| > 0 {
      PruneKeepsOrder(s[1..], keep);
      var rest := Prune(s[1..], keep);
      assert Keys(s)[1..] == Keys(s[1..]);
      if |Filter(s[0].1.slots, keep)| > 0 {
        var r := [(s[0].0, s[0].1.(slots := Filter(s[0].1.slots, keep)))] + rest;
        assert Keys(r)[1..] == Keys(rest);
        assert Keys(r)[0] == Keys(s)[0];
      } else {
        SubsequenceOfTail(Keys(rest), Keys(s));
      }
    }
  }

  lemma SubsequenceOfTail<T>(a: seq<T>, b: seq<T>)
    requires |b| > 0 && SubsequenceOf(a, b[1..])
    ensures SubsequenceOf(a, b)
  {
  }

  predicate Available(slot: Slot) {
    slot.capacityLeft > 0
  }

  /** The booking pages' filter: only slots with capacity left, and only
      dates that still have one. */
  function AvailableOnly(s: Schedule): (r: Schedule)
    ensures forall i, k :: 0 <= i < |r| && 0 <= k < |r[i].1.slots| ==> r[i].1.slots[k].capacityLeft > 0
    ensures forall i :: 0 <= i < |r| ==> |r[i].1.slots| > 0
    ensures WellKeyed(s) ==> WellKeyed(r)
  {
    PruneWellKeyed(s, Available);
    Prune(s, Available)
  }

  /** A date stays bookable exactly when one of its slots has capacity
      left, and then it lists exactly those slots in their original order,
      under the same day name. */
  lemma AvailableOnlyLookup(s: Schedule, date: string)
    requires WellKeyed(s)
    ensures var d := Lookup(s, date); var r := Lookup(AvailableOnly(s), date);
      && (r.Some? <==> d.Some? && exists k :: 0 <= k < |d.value.slots| && d.value.slots[k].capacityLeft > 0)
      && (r.Some? ==> r.value.day == d.value.day && SubsequenceOf(r.value.slots, d.value.slots))
      && (r.Some? ==> forall x :: x in r.value.slots <==> x in d.value.slots && x.capacityLeft > 0)
  {
    PruneLookup(s, Available, date);
    PrunedDayKeeps(Lookup(s, date), Available);
  }

  /** `handleDelete` after the server agreed: the slot goes from every
      date, and a date left without slots goes too. */
  function DeleteSlot(s: Schedule, id: string): (r: Schedule)
    ensures forall i, k :: 0 <= i < |r| && 0 <= k < |r[i].1.slots| ==> r[i].1.slots[k].id != id
    ensures forall i :: 0 <= i < |r| ==> |r[i].1.slots| > 0
    ensures WellKeyed(s) ==> WellKeyed(r)
  {
    PruneWellKeyed(s, (slot: Slot) => slot.id != id);
    Prune(s, (slot: Slot) => slot.id != id)
  }

  /** Every other slot stays, under its own date and in its original
      order; a date disappears exactly when the deleted slot was its only
      one. */
  lemma DeleteSlotLookup(s: Schedule, id: string, date: string)
    requires WellKeyed(s)
    ensures var d := Lookup(s, date); var r := Lookup(DeleteSlot(s, id), date);
      && (r.Some? <==> d.Some? && exists k :: 0 <= k < |d.value.slots| && d.value.slots[k].id != id)
      && (r.Some? ==> r.value.day == d.value.day && SubsequenceOf(r.value.slots, d.value.slots))
      && (r.Some? ==> forall x :: x in r.value.slots <==> x in d.value.slots && x.id != id)
  {
    var keep := (slot: Slot) => slot.id != id;
    PruneLookup(s, keep, date);
    PrunedDayKeeps(Lookup(s, date), keep);
  }

  /** The position of a date among the keys. */
  function KeyIndex(s: Schedule, date: string): (r: Option<nat>)
    ensures r.Some? ==> r.value < |s| && s[r.value].0 == date && Lookup(s, date) == Some(s[r.value].1)
    ensures r.None? ==> Lookup(s, date).None?
    decreases |s|
  {
    if |s| == 0 then None
    else if s[0].0 == date then Some(0)
    else
      var r := KeyIndex(s[1..], date);
      if r.Some? then Some(r.value + 1) else None
  }

  /** The saved slot with its new times. */
  function Retimed(slot: Slot, start: string, end: string): Slot {
    slot.(startTime := start, endTime := end)
  }

  /** `handleSave` after the server agreed: the slot at `index` of `date`
      gets the new times. Writing through a missing date or index throws. */
  function EditSlot(s: Schedule, date: string, index: int, start: string, end: string): (r: Option<Schedule>)
    requires WellKeyed(s)
    ensures r.Some? <==> Lookup(s, date).Some? && 0 <= index < |Lookup(s, date).value.slots|
    ensures r.Some? ==> Keys(r.value) == Keys(s) && WellKeyed(r.value)
    ensures r.Some? ==> forall d :: d != date ==> Lookup(r.value, d) == Lookup(s, d)
    ensures r.Some? ==>
      var day := Lookup(s, date).value;
      Lookup(r.value, date) == Some(day.(slots := day.slots[index := Retimed(day.slots[index], start, end)]))
  {
    match KeyIndex(s, date)
    case None => None
    case Some(p) =>
      var day := s[p].1;
      if 0 <= index < |day.slots| then
        var r := s[p := (date, day.(slots := day.slots[index := Retimed(day.slots[index], start, end)]))];
        assert Keys(r) == Keys(s);
        LookupUpdate(s, p, r[p].1);
        Some(r)
      else None
  }

  /** Replacing the day stored at a key changes the lookup of that key
      alone. */
  lemma {:induction false} LookupUpdate(s: Schedule, p: nat, day: Day)
    requires WellKeyed(s) && p < |s|
    ensures Lookup(s[p := (s[p].0, day)], s[p].0) == Some(day)
    ensures forall d :: d != s[p].0 ==> Lookup(s[p := (s[p].0, day)], d) == Lookup(s, d)
    decreases p
  {
    var u := s[p := (s[p].0, day)];
    if p > 0 {
      assert u[1..] == s[1..][p - 1 := (s[p].0, day)];
      assert WellKeyed(s[1..]) by {
        forall i, j | 0 <= i < j < |s[1..]| ensures s[1..][i].0 != s[1..][j].0 {
          assert s[1..][i] == s[i + 1] && s[1..][j] == s[j + 1];
        }
      }
      LookupUpdate(s[1..], p - 1, day);
      assert s[0].0 != s[p].0;
    } else {
      assert u[1..] == s[1..];
    }
  }

  /** The state `handleEdit` opens: the slot's id and its two times as
      picker values; `None` is the invalid date `parseTimeString` makes of
      a time it cannot read. */
  datatype Editing = Editing(id: string, date: string, index: int, start: Option<TimeOfDay>, end: Option<TimeOfDay>)

  /** `handleEdit`: the slot at `(date, index)` opens the editor whatever
      its times hold; a missing date or index throws, and the editor stays
      closed. */
  function BeginEdit(s: Schedule, date: string, index: int): (e: Option<Editing>)
    ensures e.Some? <==> Lookup(s, date).Some? && 0 <= index < |Lookup(s, date).value.slots|
    ensures e.Some? ==>
      var slot := Lookup(s, date).value.slots[index];
      && e.value.id == slot.id && e.value.date == date && e.value.index == index
      && e.value.start == ParseTime(slot.startTime) && e.value.end == ParseTime(slot.endTime)
  {
    match Lookup(s, date)
    case None => None
    case Some(day) =>
      if 0 <= index < |day.slots| then
        var slot := day.slots[index];
        Some(Editing(slot.id, date, index, ParseTime(slot.startTime), ParseTime(slot.endTime)))
      else None
  }

  /** The body `handleSave` posts to `/api/timeslots/edit`. */
  datatype SaveBody = SaveBody(slotId: string, startTime: string, endTime: string)

  /** `formatTimeToString` of a picker value. */
  function PickerText(t: Option<TimeOfDay>): (text: string)
    requires t.Some? ==> t.value.Valid()
    ensures ParseTime(text) == t
    ensures t.Some? ==> |text| == 5
    ensures t.None? ==> text == InvalidTimeText
  {
    match t
    case Some(v) => ParseFormat(v); FormatTime(v)
    case None => InvalidTimeTextUnparsed(); InvalidTimeText
  }

  /** `handleSave` sends whatever the pickers hold, with no check that the
      end comes after the start and none that the times are valid dates;
      both times read back as the picker values. */
  function SaveRequest(e: Editing): (b: SaveBody)
    requires e.start.Some? ==> e.start.value.Valid()
    requires e.end.Some? ==> e.end.value.Valid()
    ensures b.slotId == e.id
    ensures ParseTime(b.startTime) == e.start && ParseTime(b.endTime) == e.end
    ensures e.start.Some? ==> |b.startTime| == 5
    ensures e.end.Some? ==> |b.endTime| == 5
    ensures e.start.None? ==> b.startTime == InvalidTimeText
    ensures e.end.None? ==> b.endTime == InvalidTimeText
  {
    SaveBody(e.id, PickerText(e.start), PickerText(e.end))
  }

  /** A slot whose start time has no colon still opens the editor, and
      saving it untouched sends `NaN:NaN` as its start. */
  lemma UnreadableTimeSavedAsNaN(s: Schedule, date: string, index: int)
    requires Lookup(s, date).Some? && 0 <= index < |Lookup(s, date).value.slots|
    requires ':' !in Lookup(s, date).value.slots[index].startTime
    ensures BeginEdit(s, date, index).Some?
    ensures BeginEdit(s, date, index).value.start.None?
    ensures SaveRequest(BeginEdit(s, date, index).value).startTime == InvalidTimeText
  {
  }

  /** A time as the server stores it: two digits, a colon, two digits. */
  predicate CanonicalTime(s: string) {
    |s| == 5 && s[2] == ':' && AllDigits(s[..2]) && AllDigits(s[3..])
    && DecimalValue(s[..2]) < 24 && DecimalValue(s[3..]) < 60
  }

  /** Opening the editor and saving without touching the pickers writes
      the slot back unchanged. */
  lemma EditUntouchedRoundTrip(s: Schedule, date: string, index: int)
    requires WellKeyed(s)
    requires Lookup(s, date).Some? && 0 <= index < |Lookup(s, date).value.slots|
    requires CanonicalTime(Lookup(s, date).value.slots[index].startTime)
    requires CanonicalTime(Lookup(s, date).value.slots[index].endTime)
    ensures BeginEdit(s, date, index).Some?
    ensures var e := BeginEdit(s, date, index).value; var b := SaveRequest(e);
      EditSlot(s, date, index, b.startTime, b.endTime) == Some(s)
  {
    var slot := Lookup(s, date).value.slots[index];
    FormatParse(slot.startTime);
    FormatParse(slot.endTime);
    var e := BeginEdit(s, date, index).value;
    var b := SaveRequest(e);
    assert Retimed(slot, b.startTime, b.endTime) == slot;
    EditSameTimes(s, date, index);
  }

  lemma EditSameTimes(s: Schedule, date: string, index: int)
    requires WellKeyed(s)
    requires Lookup(s, date).Some? && 0 <= index < |Lookup(s, date).value.slots|
    ensures var slot := Lookup(s, date).value.slots[index];
      EditSlot(s, date, index, slot.startTime, slot.endTime) == Some(s)
  {
    var day := Lookup(s, date).value;
    var slot := day.slots[index];
    assert Retimed(slot, slot.startTime, slot.endTime) == slot;
    assert day.slots[index := slot] == day.slots;
    var p := KeyIndex(s, date).value;
    assert s[p := (date, day)] == s;
  }

  /** The dates a page shows: all of them on the `all` tab, otherwise the
      active tab's date alone. */
  function VisibleDates(s: Schedule, tab: string): (ds: seq<string>)
    ensures tab == "all" ==> ds == Keys(s)
    ensures tab != "all" ==> ds == [tab]
  {
    if tab == "all" then Keys(s) else [tab]
  }

  /** The page can draw a tab when each date it shows is in the map; the
      render reads `timeSlots[date].day` for each. */
  predicate TabShowsKeys(s: Schedule, tab: string) {
    tab == "all" || tab in Keys(s)
  }

  lemma VisibleDatesAreKeys(s: Schedule, tab: string)
    requires TabShowsKeys(s, tab)
    ensures forall d :: d in VisibleDates(s, tab) ==> Lookup(s, d).Some?
  {
    forall d | d in VisibleDates(s, tab) ensures Lookup(s, d).Some? {
      LookupFindsKey(s, d);
    }
  }

  /** `handleDelete` as written: the map is pruned but the active tab is
      left as it was. */
  function DeleteKeepingTab(s: Schedule, tab: string, id: string): (r: (Schedule, string))
    ensures r.1 == tab
    ensures forall i, k :: 0 <= i < |r.0| && 0 <= k < |r.0[i].1.slots| ==> r.0[i].1.slots[k].id != id
  {
    (DeleteSlot(s, id), tab)
  }

  /** Deleting the last slot of the date whose tab is open, while another
      date remains (so the page does not fall back to its empty message),
      leaves a tab that names no date: the render then reads `.day` of
      `undefined`. */
  lemma DeleteStrandsOpenTab()
    ensures var s := [("2025-01-01", Day("Wed", [Slot("a", "08:00", "08:30", 3)])),
                      ("2025-01-02", Day("Thu", [Slot("b", "09:00", "09:30", 3)]))];
      var r := DeleteKeepingTab(s, "2025-01-01", "a");
      && TabShowsKeys(s, "2025-01-01")
      && |r.0| > 0
      && !TabShowsKeys(r.0, r.1)
  {
    var s := [("2025-01-01", Day("Wed", [Slot("a", "08:00", "08:30", 3)])),
              ("2025-01-02", Day("Thu", [Slot("b", "09:00", "09:30", 3)]))];
    var keep := (slot: Slot) => slot.id != "a";
    assert Keys(s)[0] == "2025-01-01";
    assert Filter(s[0].1.slots, keep) == [];
    assert Filter(s[1].1.slots, keep) == s[1].1.slots;
    var r := DeleteSlot(s, "a");
    assert r == [s[1]];
    assert Keys(r) == ["2025-01-02"];
  }

  /** The deletion with the tab kept meaningful: a tab whose date was
      pruned falls back to `all`. */
  function DeleteResettingTab(s: Schedule, tab: string, id: string): (r: (Schedule, string))
    ensures r.0 == DeleteSlot(s, id)
    ensures TabShowsKeys(r.0, r.1)
    ensures TabShowsKeys(r.0, tab) ==> r.1 == tab
  {
    var pruned := DeleteSlot(s, id);
    (pruned, if TabShowsKeys(pruned, tab) then tab else "all")
  }
}

=== FILE: text.dfy ===
/** String primitives of the JavaScript runtime the application relies on:
    decimal digits, `Number.prototype.toString`, `padStart(2, '0')`,
    `split` on a one-character separator, `trim` and `startsWith`.
    Strings are sequences of Unicode scalar values. */
module Text {
  import opened Wrappers

  predicate IsDigit(c: char) {
    '0' <= c <= '9'
  }

  predicate AllDigits(s: string) {
    forall i :: 0 <= i < |s| ==> IsDigit(s[i])
  }

  function DigitValue(c: char): nat
    requires IsDigit(c)
  {
    (c as int) - ('0' as int)
  }

  function DigitChar(d: nat): (c: char)
    requires d < 10
    ensures IsDigit(c) && DigitValue(c) == d
  {
    (('0' as int) + d) as char
  }

  /** The number a string of decimal digits denotes; the empty string reads
      as 0, as JavaScript's `Number("")` does. */
  function DecimalValue(s: string): nat
    requires AllDigits(s)
  {
    if |s| == 0 then 0 else DecimalValue(s[..|s| - 1]) * 10 + DigitValue(s[|s| - 1])
  }

  lemma DecimalValueAppend(s: string, c: char)
    requires AllDigits(s) && IsDigit(c)
    ensures AllDigits(s + [c])
    ensures DecimalValue(s + [c]) == DecimalValue(s) * 10 + DigitValue(c)
  {
    assert (s + [c])[..|s|] == s;
  }

  /** `n.toString()` for a non-negative integer. */
  function NatToString(n: nat): (s: string)
    ensures 1 <= |s| && AllDigits(s)
    ensures DecimalValue(s) == n
    ensures |s| == 1 <==> n < 10
    ensures n > 0 ==> s[0] != '0'
    decreases n
  {
    if n < 10 then
      [DigitChar(n)]
    else
      var prefix := NatToString(n / 10);
      DecimalValueAppend(prefix, DigitChar(n % 10));
      prefix + [DigitChar(n % 10)]
  }

  /** `i.toString()` for any integer. */
  function IntToString(i: int): (s: string)
    ensures 1 <= |s|
    ensures i >= 0 ==> s == NatToString(i)
    ensures i < 0 ==> s[0] == '-' && s[1..] == NatToString(-i)
  {
    if i < 0 then "-" + NatToString(-i) else NatToString(i)
  }

  /** `s.padStart(2, '0')`. */
  function PadStart2(s: string): (r: string)
    ensures |s| >= 2 ==> r == s
    ensures |s| < 2 ==> |r| == 2 && r[2 - |s|..] == s
    ensures forall i :: 0 <= i < 2 - |s| ==> r[i] == '0'
  {
    if |s| >= 2 then s else if |s| == 1 then ['0'] + s else "00"
  }

  /** `n.toString().padStart(2, '0')` for a number below 100: two digits that
      read back as `n`. */
  function TwoDigits(n: nat): (s: string)
    requires n < 100
    ensures |s| == 2 && AllDigits(s)
    ensures DecimalValue(s) == n
  {
    var t := NatToString(n);
    if |t| == 1 then
      assert DecimalValue(['0']) == 0;
      DecimalValueAppend(['0'], t[0]);
      assert ['0'] + t == ['0'] + [t[0]];
      PadStart2(t)
    else
      PadStart2(t)
  }

  lemma TwoDigitsInjective(m: nat, n: nat)
    requires m < 100 && n < 100
    ensures TwoDigits(m) == TwoDigits(n) <==> m == n
  {
  }

  predicate StartsWith(s: string, prefix: string) {
    |prefix| <= |s| && s[..|prefix|] == prefix
  }

  /** Number of occurrences of `c` in `s`. */
  function Count(s: string, c: char): nat
    decreases |s|
  {
    if |s| == 0 then 0 else (if s[0] == c then 1 else 0) + Count(s[1..], c)
  }

  /** `s.split(sep)` for a one-character separator: the pieces between
      separators, never an empty list (`"".split(sep)` is `[""]`). */
  function Split(s: string, sep: char): (parts: seq<string>)
    ensures |parts| >= 1
    ensures forall i :: 0 <= i < |parts| ==> sep !in parts[i]
    decreases |s|
  {
    if |s| == 0 then
      [""]
    else
      var rest := Split(s[1..], sep);
      if s[0] == sep then [""] + rest
      else [[s[0]] + rest[0]] + rest[1..]
  }

  /** `parts.join(sep)`. */
  function Join(parts: seq<string>, sep: char): string
    decreases |parts|
  {
    if |parts| == 0 then ""
    else if |parts| == 1 then parts[0]
    else parts[0] + [sep] + Join(parts[1..], sep)
  }

  /** Splitting loses nothing: joining the pieces back gives the input. */
  lemma {:induction false} JoinSplit(s: string, sep: char)
    ensures Join(Split(s, sep), sep) == s
    decreases |s|
  {
    if |s| > 0 {
      var rest := Split(s[1..], sep);
      JoinSplit(s[1..], sep);
      if s[0] == sep {
        assert ([""] + rest)[1..] == rest;
      } else {
        var parts := [[s[0]] + rest[0]] + rest[1..];
        if |rest| == 1 {
          assert Join(rest, sep) == rest[0];
        } else {
          assert Join(rest, sep) == rest[0] + [sep] + Join(rest[1..], sep);
          assert parts[1..] == rest[1..];
        }
      }
    }
  }

  /** A string splits into one more piece than it has separators. */
  lemma {:induction false} SplitLength(s: string, sep: char)
    ensures |Split(s, sep)| == Count(s, sep) + 1
    decreases |s|
  {
    if |s| > 0 {
      SplitLength(s[1..], sep);
    }
  }

  /** Splitting at a first separator: the text before it is the first
      piece, the pieces of the text after it follow. */
  lemma {:induction false} SplitFirst(a: string, b: string, sep: char)
    requires sep !in a
    ensures Split(a + [sep] + b, sep) == [a] + Split(b, sep)
    decreases |a|
  {
    var s := a + [sep] + b;
    if |a| == 0 {
      assert s[1..] == b;
    } else {
      assert s[1..] == a[1..] + [sep] + b;
      assert sep !in a[1..] by {
        forall i | 0 <= i < |a[1..]| ensures a[1..][i] != sep {
          assert a[1..][i] == a[i + 1];
        }
      }
      SplitFirst(a[1..], b, sep);
      var rest := Split(s[1..], sep);
      assert rest == [a[1..]] + Split(b, sep);
      assert Split(s, sep) == [[a[0]] + rest[0]] + rest[1..];
      assert [a[0]] + a[1..] == a;
    }
  }

  /** A string with no separator is a single piece. */
  lemma {:induction false} SplitNoSeparator(s: string, sep: char)
    requires sep !in s
    ensures Split(s, sep) == [s]
    decreases |s|
  {
    if |s| > 0 {
      assert sep !in s[1..] by {
        forall i | 0 <= i < |s[1..]| ensures s[1..][i] != sep {
          assert s[1..][i] == s[i + 1];
        }
      }
      SplitNoSeparator(s[1..], sep);
      assert [s[0]] + s[1..] == s;
    }
  }

  /** White space as JavaScript's `\s` and `String.prototype.trim` see it:
      the WhiteSpace and LineTerminator code points of ECMA-262. */
  predicate IsJsWhitespace(c: char) {
    || c == '\t' || c == '\n' || c == '\U{000B}' || c == '\U{000C}' || c == '\r'
    || c == ' ' || c == '\U{00A0}' || c == '\U{1680}'
    || ('\U{2000}' <= c <= '\U{200A}')
    || c == '\U{2028}' || c == '\U{2029}' || c == '\U{202F}' || c == '\U{205F}'
    || c == '\U{3000}' || c == '\U{FEFF}'
  }

  predicate Blank(s: string) {
    forall i :: 0 <= i < |s| ==> IsJsWhitespace(s[i])
  }

  /** `s.trimStart()`: drops leading white space only. */
  function TrimStart(s: string): (r: string)
    ensures |r| <= |s| && r == s[|s| - |r|..]
    ensures Blank(s[..|s| - |r|])
    ensures |r| > 0 ==> !IsJsWhitespace(r[0])
    decreases |s|
  {
    if |s| > 0 && IsJsWhitespace(s[0]) then
      var r := TrimStart(s[1..]);
      assert s[1..][..|s| - 1 - |r|] == s[1..|s| - |r|];
      r
    else s
  }

  /** `s.trimEnd()`: drops trailing white space only. */
  function TrimEnd(s: string): (r: string)
    ensures |r| <= |s| && r == s[..|r|]
    ensures Blank(s[|r|..])
    ensures |r| > 0 ==> !IsJsWhitespace(r[|r| - 1])
    decreases |s|
  {
    if |s| > 0 && IsJsWhitespace(s[|s| - 1]) then
      var r := TrimEnd(s[..|s| - 1]);
      assert s[..|s| - 1][|r|..] == s[|r|..|s| - 1];
      r
    else s
  }

  /** `s.trim()`. */
  function Trim(s: string): (r: string)
  {
    TrimEnd(TrimStart(s))
  }

  /** `s.trim()` is falsy exactly when `s` is all white space. */
  lemma TrimEmptyIffBlank(s: string)
    ensures Trim(s) == "" <==> Blank(s)
  {
    var t := TrimStart(s);
    if Trim(s) == "" {
      assert t[0..] == t;
      assert |t| == 0;
      assert s[..|s|] == s;
    }
    if |t| > 0 {
      assert t[0] == s[|s| - |t|];
      assert !Blank(s);
    }
  }

  /** A string without white space is its own trim. */
  lemma TrimWithoutWhitespace(s: string)
    requires forall i :: 0 <= i < |s| ==> !IsJsWhitespace(s[i])
    ensures Trim(s) == s
  {
    var t := TrimStart(s);
    assert |s| > 0 ==> t == s;
  }

  /** The longest run of decimal digits at the start of `s`. */
  function DigitPrefix(s: string): (p: string)
    ensures |p| <= |s| && p == s[..|p|] && AllDigits(p)
    ensures |p| < |s| ==> !IsDigit(s[|p|])
    decreases |s|
  {
    if |s| == 0 || !IsDigit(s[0]) then ""
    else
      var rest := DigitPrefix(s[1..]);
      assert [s[0]] + rest == s[..|rest| + 1];
      [s[0]] + rest
  }

  /** `parseInt(s)` in base 10: leading white space is skipped, an optional
      sign is read, then as many digits as follow; no digit at all gives
      `NaN` (`None`). */
  function ParseInt(s: string): (r: Option<int>)
  {
    var t := TrimStart(s);
    var negative := |t| > 0 && t[0] == '-';
    var body := if |t| > 0 && (t[0] == '-' || t[0] == '+') then t[1..] else t;
    var digits := DigitPrefix(body);
    var magnitude: int := DecimalValue(digits);
    if |digits| == 0 then None
    else if negative then Some(-magnitude)
    else Some(magnitude)
  }

  lemma DigitPrefixOfDigits(s: string)
    requires AllDigits(s)
    ensures DigitPrefix(s) == s
  {
  }

  /** `parseInt` reads back what `toString` wrote. */
  lemma ParseIntToString(i: int)
    ensures ParseInt(IntToString(i)) == Some(i)
  {
    var s := IntToString(i);
    assert !IsJsWhitespace(s[0]);
    assert TrimStart(s) == s;
    if i < 0 {
      DigitPrefixOfDigits(s[1..]);
    } else {
      DigitPrefixOfDigits(s);
    }
  }

  /** `parseInt` stops at the first character that is not a digit. */
  lemma ParseIntStopsAtNonDigit()
    ensures ParseInt("12abc") == Some(12)
  {
    var s := "12abc";
    assert !IsJsWhitespace(s[0]);
    assert TrimStart(s) == s;
    assert DigitPrefix(s[2..]) == "" by {
      assert s[2..] == "abc";
    }
    assert DigitPrefix(s[1..]) == "2" by {
      assert s[1..][1..] == s[2..];
    }
    assert DigitPrefix(s) == "12";
    assert "12"[..1] == "1" && "1"[..0] == "";
    assert DecimalValue("12") == 12;
  }

  /** Without a leading digit `parseInt` gives `NaN`. */
  lemma ParseIntNeedsADigit()
    ensures ParseInt("abc") == None
    ensures ParseInt("") == None
    ensures ParseInt("-") == None
  {
    assert !IsJsWhitespace('a') && !IsJsWhitespace('-');
    assert TrimStart("abc") == "abc";
    assert TrimStart("-") == "-";
    assert "-"[1..] == "";
  }
}

=== FILE: timeago.dfy ===
/** `timeAgo` of `lib/format-data.ts`: how long ago something happened,
    in the largest whole unit that is not zero. The clock reading is a
    parameter: the model starts from the difference in milliseconds
    between now and the moment. */
module TimeAgo {
  import opened Wrappers
  import opened Text
  import opened Arith

  const MsPerSecond: nat := 1000
  const MsPerMinute: nat := 60000
  const MsPerHour: nat := 3600000
  const MsPerDay: nat := 86400000

  /** The four `Math.floor` divisions of the source and the branch taken. */
  datatype Ago = InFuture | DaysAgo(days: nat) | HoursAgo(hours: nat)
               | MinutesAgo(minutes: nat) | SecondsAgo(seconds: nat)

  /** Flooring twice is flooring once by the product. */
  lemma FloorTwice(x: nat, a: nat, b: nat)
    requires a > 0 && b > 0
    ensures x / a / b == x / (a * b)
  {
    var q, r := x / a, x % a;
    var q2, r2 := q / b, q % b;
    assert x == q2 * (a * b) + (r2 * a + r) by {
      assert q == q2 * b + r2;
      assert x == q * a + r;
      assert q * a == q2 * b * a + r2 * a;
    }
    assert r2 * a + r < a * b by {
      MulMono(r2 + 1, b, a);
    }
    DivModUnique(x, q2, r2 * a + r, a * b);
  }

  /** `timeAgo`: in the future for a negative difference; otherwise whole
      days, else whole hours, else whole minutes, else seconds. The
      `% 24`, `% 60` and `% 60` of the source never change the number they
      are applied to. */
  function TimeAgo(diffMs: int): (a: Ago)
    ensures a.InFuture? <==> diffMs < 0
    ensures a.DaysAgo? <==> diffMs >= MsPerDay
    ensures a.HoursAgo? <==> MsPerHour <= diffMs < MsPerDay
    ensures a.MinutesAgo? <==> MsPerMinute <= diffMs < MsPerHour
    ensures a.SecondsAgo? <==> 0 <= diffMs < MsPerMinute
    ensures a.DaysAgo? ==> a.days >= 1 && a.days == diffMs / MsPerDay
    ensures a.HoursAgo? ==> 1 <= a.hours <= 23 && a.hours == diffMs / MsPerHour
    ensures a.MinutesAgo? ==> 1 <= a.minutes <= 59 && a.minutes == diffMs / MsPerMinute
    ensures a.SecondsAgo? ==> a.seconds <= 59 && a.seconds == diffMs / MsPerSecond
  {
    if diffMs < 0 then InFuture
    else
      var seconds := diffMs / 1000;
      var minutes := seconds / 60;
      var hours := minutes / 60;
      var days := hours / 24;
      FloorTwice(diffMs, 1000, 60);
      FloorTwice(diffMs, 60000, 60);
      FloorTwice(diffMs, 3600000, 24);
      if days > 0 then DaysAgo(days)
      else if hours > 0 then HoursAgo(hours % 24)
      else if minutes > 0 then MinutesAgo(minutes % 60)
      else SecondsAgo(seconds % 60)
  }

  /** The number printed by each branch. */
  function Amount(a: Ago): nat {
    match a
    case InFuture => 0
    case DaysAgo(n) => n
    case HoursAgo(n) => n
    case MinutesAgo(n) => n
    case SecondsAgo(n) => n
  }

  /** The text `timeAgo` returns. */
  function AgoText(a: Ago): string {
    match a
    case InFuture => "در آینده"
    case DaysAgo(n) => NatToString(n) + " روز پیش"
    case HoursAgo(n) => NatToString(n) + " ساعت پیش"
    case MinutesAgo(n) => NatToString(n) + " دقیقه پیش"
    case SecondsAgo(n) => NatToString(n) + " ثانیه پیش"
  }

  /** The digits before a non-digit are read back whole. */
  lemma {:induction false} DigitPrefixStops(d: string, t: string)
    requires AllDigits(d) && |t| > 0 && !IsDigit(t[0])
    ensures DigitPrefix(d + t) == d
    decreases |d|
  {
    if |d| == 0 {
      assert d + t == t;
    } else {
      assert (d + t)[1..] == d[1..] + t;
      DigitPrefixStops(d[1..], t);
      assert [d[0]] + d[1..] == d;
    }
  }

  /** Every text but the future one starts with the count, which
      `parseInt` reads back. */
  lemma AgoTextStartsWithAmount(diffMs: nat)
    ensures ParseInt(AgoText(TimeAgo(diffMs))) == Some(Amount(TimeAgo(diffMs)))
  {
    var a := TimeAgo(diffMs);
    var digits := NatToString(Amount(a));
    var text := AgoText(a);
    var tail := text[|digits|..];
    assert text == digits + tail;
    assert tail[0] == ' ';
    assert !IsJsWhitespace(text[0]);
    DigitPrefixStops(digits, tail);
  }
}

=== FILE: timepicker.dfy ===
/** The clock picker of `components/ui/time-picker.tsx`: each column cycles
    through a list of allowed values with an up and a down button, and the
    apply button writes the chosen hour and minute into the bound `Date`. */
module TimePicker {
  import opened Wrappers
  import opened Clock
  import opened Arith

  /** `validValues` of a picker column: `min`, `min + step`, ... up to
      `max`. `Array.from` turns a negative count into an empty list. */
  function ValidValues(min: int, max: int, step: nat): (vs: seq<int>)
    requires step > 0
    ensures |vs| == if max < min then 0 else (max - min) / step + 1
  {
    var count := (max - min) / step + 1;
    if count <= 0 then [] else seq(count, i => min + i * step)
  }

  /** The column lists exactly the values between `min` and `max` that
      are a whole number of steps above `min`. */
  lemma ValidValuesMembers(min: int, max: int, step: nat, x: int)
    requires step > 0
    ensures x in ValidValues(min, max, step) <==> min <= x <= max && (x - min) % step == 0
  {
    if x in ValidValues(min, max, step) {
      ValidValuesSound(min, max, step, x);
    }
    if min <= x <= max && (x - min) % step == 0 {
      ValidValuesComplete(min, max, step, x);
    }
  }

  lemma ValidValuesSound(min: int, max: int, step: nat, x: int)
    requires step > 0 && x in ValidValues(min, max, step)
    ensures min <= x <= max && (x - min) % step == 0
  {
    var vs := ValidValues(min, max, step);
    var c := (max - min) / step;
    assert max - min == c * step + (max - min) % step;
    var i :| 0 <= i < |vs| && vs[i] == x;
    DivModUnique(x - min, i, 0, step);
    MulMono(i, c, step);
  }

  lemma ValidValuesComplete(min: int, max: int, step: nat, x: int)
    requires step > 0 && min <= x <= max && (x - min) % step == 0
    ensures x in ValidValues(min, max, step)
  {
    var vs := ValidValues(min, max, step);
    var c := (max - min) / step;
    assert max - min == c * step + (max - min) % step;
    var i := (x - min) / step;
    assert x - min == i * step;
    if i > c {
      MulMono(c + 1, i, step);
      assert false;
    }
    if i < 0 {
      MulMono(i, -1, step);
      assert false;
    }
    assert vs[i] == x;
  }

  /** The column's values ascend strictly, so none repeats. */
  lemma ValidValuesAscend(min: int, max: int, step: nat)
    requires step > 0
    ensures var vs := ValidValues(min, max, step);
      forall i, j :: 0 <= i < j < |vs| ==> vs[i] < vs[j]
  {
    var vs := ValidValues(min, max, step);
    forall i, j | 0 <= i < j < |vs| ensures vs[i] < vs[j] {
      MulMono(i + 1, j, step);
    }
  }

  /** `Array.prototype.indexOf`: the first position holding `v`, or -1. */
  function IndexOf(vs: seq<int>, v: int): (r: int)
    ensures r == -1 <==> v !in vs
    ensures r != -1 ==> 0 <= r < |vs| && vs[r] == v && v !in vs[..r]
  {
    if |vs| == 0 then -1
    else if vs[0] == v then 0
    else
      var k := IndexOf(vs[1..], v);
      if k == -1 then -1
      else
        assert vs[1..][..k] == vs[1..k + 1];
        assert vs[..k + 1] == [vs[0]] + vs[1..k + 1];
        k + 1
  }

  /** The up button: the value after `v`, back to the first after the last;
      a value not in the list also moves to the first. An empty list has no
      value to move to (`undefined`). */
  function Increment(vs: seq<int>, v: int): (r: Option<int>)
    ensures r.Some? <==> |vs| > 0
    ensures r.Some? ==> r.value in vs
  {
    var next := IndexOf(vs, v) + 1;
    if next >= |vs| then (if |vs| == 0 then None else Some(vs[0]))
    else Some(vs[next])
  }

  /** The down button: the value before `v`, round to the last before the
      first; a value not in the list also moves to the last. */
  function Decrement(vs: seq<int>, v: int): (r: Option<int>)
    ensures r.Some? <==> |vs| > 0
    ensures r.Some? ==> r.value in vs
  {
    var prev := IndexOf(vs, v) - 1;
    if prev < 0 then (if |vs| == 0 then None else Some(vs[|vs| - 1]))
    else Some(vs[prev])
  }

  predicate Distinct(vs: seq<int>) {
    forall i, j :: 0 <= i < j < |vs| ==> vs[i] != vs[j]
  }

  lemma DistinctIndexOf(vs: seq<int>, i: int)
    requires Distinct(vs) && 0 <= i < |vs|
    ensures IndexOf(vs, vs[i]) == i
  {
  }

  /** On a list without repeats the buttons move by one place, up from
      the last back to the first and down from the first round to the
      last. */
  lemma StepsAreCyclic(vs: seq<int>, i: int)
    requires Distinct(vs) && 0 <= i < |vs|
    ensures Increment(vs, vs[i]) == Some(if i + 1 < |vs| then vs[i + 1] else vs[0])
    ensures Decrement(vs, vs[i]) == Some(if i > 0 then vs[i - 1] else vs[|vs| - 1])
  {
    DistinctIndexOf(vs, i);
  }

  /** A value the list does not hold moves to the ends: up to the first,
      down to the last. */
  lemma StepsFromOutside(vs: seq<int>, v: int)
    requires |vs| > 0 && v !in vs
    ensures Increment(vs, v) == Some(vs[0])
    ensures Decrement(vs, v) == Some(vs[|vs| - 1])
  {
  }

  /** Down undoes up and up undoes down on a list without repeats. */
  lemma DecrementUndoesIncrement(vs: seq<int>, v: int)
    requires Distinct(vs) && v in vs
    ensures Decrement(vs, Increment(vs, v).value) == Some(v)
    ensures Increment(vs, Decrement(vs, v).value) == Some(v)
  {
    var n := |vs|;
    var i :| 0 <= i < n && vs[i] == v;
    StepsAreCyclic(vs, i);
    StepsAreCyclic(vs, if i + 1 < n then i + 1 else 0);
    StepsAreCyclic(vs, if i > 0 then i - 1 else n - 1);
  }

  /** Pressing up `k` times. */
  function PressUp(vs: seq<int>, v: int, k: nat): (r: int)
    requires |vs| > 0
    decreases k
  {
    if k == 0 then v else PressUp(vs, Increment(vs, v).value, k - 1)
  }

  /** From a listed value, `k` presses of up advance `k` places round the
      list. */
  lemma {:induction false} PressUpAdvances(vs: seq<int>, i: nat, k: nat)
    requires Distinct(vs) && i < |vs|
    ensures PressUp(vs, vs[i], k) == vs[(i + k) % |vs|]
    decreases k
  {
    var n := |vs|;
    if k == 0 {
      DivModUnique(i, 0, i, n);
    } else {
      StepsAreCyclic(vs, i);
      var j := if i + 1 < n then i + 1 else 0;
      PressUpAdvances(vs, j, k - 1);
      ModAdvance(i, k, n);
    }
  }

  lemma ModAdvance(i: nat, k: nat, n: nat)
    requires i < n && k > 0
    ensures ((if i + 1 < n then i + 1 else 0) + k - 1) % n == (i + k) % n
  {
    var j := if i + 1 < n then i + 1 else 0;
    var q, r := (j + k - 1) / n, (j + k - 1) % n;
    assert j + k - 1 == q * n + r;
    if i + 1 < n {
      DivModUnique(i + k, q, r, n);
    } else {
      DivModUnique(i + k, q + 1, r, n);
    }
  }

  /** After as many presses as the list is long the column is back where
      it started. */
  lemma PressUpFullCycle(vs: seq<int>, i: nat)
    requires Distinct(vs) && i < |vs|
    ensures PressUp(vs, vs[i], |vs|) == vs[i]
  {
    PressUpAdvances(vs, i, |vs|);
    ModFullTurn(i, |vs|);
  }

  lemma ModFullTurn(i: nat, n: nat)
    requires i < n
    ensures (i + n) % n == i
  {
    DivModUnique(i + n, 1, i, n);
  }

  /** The hour column: 0 to 23 in steps of one. */
  function HourValues(): seq<int> {
    ValidValues(0, 23, 1)
  }

  /** The minute column: 0 to 45 in steps of 15. */
  function MinuteValues(): seq<int> {
    ValidValues(0, 45, 15)
  }

  /** The hour column lists every hour of the day once; the minute column
      offers the quarter hours. */
  lemma ColumnsContents()
    ensures HourValues() == seq(24, i => i)
    ensures MinuteValues() == [0, 15, 30, 45]
    ensures Distinct(HourValues()) && Distinct(MinuteValues())
  {
    ValidValuesAscend(0, 23, 1);
    ValidValuesAscend(0, 45, 15);
  }

  /** Up from 23 wraps to 0 and down from 0 wraps to 23. */
  lemma HourColumnWraps()
    ensures Increment(HourValues(), 23) == Some(0)
    ensures Decrement(HourValues(), 0) == Some(23)
  {
    var vs := HourValues();
    ValidValuesAscend(0, 23, 1);
    assert vs[23] == 23 && vs[0] == 0;
    StepsAreCyclic(vs, 23);
    StepsAreCyclic(vs, 0);
  }

  /** Down from 0 wraps to 45; a minute of 10, which the column does not
      offer, moves to 0 on up and to 45 on down. */
  lemma MinuteColumnWraps()
    ensures Decrement(MinuteValues(), 0) == Some(45)
    ensures Increment(MinuteValues(), 10) == Some(0)
    ensures Decrement(MinuteValues(), 10) == Some(45)
  {
    var vs := MinuteValues();
    ValidValuesAscend(0, 45, 15);
    assert vs == [0, 15, 30, 45];
    StepsAreCyclic(vs, 0);
    StepsFromOutside(vs, 10);
  }

  /** The fields of a `Date` the picker touches, with `day` counting days
      from an arbitrary epoch. */
  datatype DateTime = DateTime(day: int, time: TimeOfDay, seconds: nat, millis: nat)

  /** `date.setHours(h, m)`: the hour and minute are set, seconds and
      milliseconds are kept, and any overflow carries into the day. */
  function SetHours(d: DateTime, h: nat, m: nat): (r: DateTime)
    requires d.time.Valid()
    ensures r.time.Valid()
    ensures r.day * MinutesPerDay + r.time.Minutes() == d.day * MinutesPerDay + h * 60 + m
    ensures r.seconds == d.seconds && r.millis == d.millis
  {
    var total := h * 60 + m;
    DateTime(d.day + total / MinutesPerDay, FromMinutes(total), d.seconds, d.millis)
  }

  /** Within one day `setHours` only replaces the clock reading. */
  lemma SetHoursInDay(d: DateTime, t: TimeOfDay)
    requires d.time.Valid() && t.Valid()
    ensures SetHours(d, t.hours, t.minutes) == d.(time := t)
  {
    var r := SetHours(d, t.hours, t.minutes);
    assert t.Minutes() < MinutesPerDay;
    FromMinutesOfValid(t);
    assert (t.hours * 60 + t.minutes) / MinutesPerDay == 0;
  }

  /** The picker: the bound value, whether the popup is open, and the hour
      and minute being edited. */
  datatype Picker = Picker(value: DateTime, isOpen: bool, temp: TimeOfDay) {
    predicate Valid() {
      value.time.Valid() && temp.Valid()
    }
  }

  datatype PickerEvent = Toggle | HourUp | HourDown | MinuteUp | MinuteDown | Apply | ClickOutside

  function HourStep(p: Picker, up: bool): (t: TimeOfDay)
    requires p.Valid()
    ensures t.Valid() && t.minutes == p.temp.minutes
    ensures (t.hours as int) in HourValues()
  {
    ValidValuesMembers(0, 23, 1, 0);
    var r := if up then Increment(HourValues(), p.temp.hours) else Decrement(HourValues(), p.temp.hours);
    ValidValuesMembers(0, 23, 1, r.value);
    p.temp.(hours := r.value)
  }

  function MinuteStep(p: Picker, up: bool): (t: TimeOfDay)
    requires p.Valid()
    ensures t.Valid() && t.hours == p.temp.hours
    ensures (t.minutes as int) in MinuteValues()
  {
    ValidValuesMembers(0, 45, 15, 0);
    var r := if up then Increment(MinuteValues(), p.temp.minutes) else Decrement(MinuteValues(), p.temp.minutes);
    ValidValuesMembers(0, 45, 15, r.value);
    p.temp.(minutes := r.value)
  }

  /** One user action. Opening copies the bound value into the columns;
      the column and apply buttons exist only while the popup is open;
      apply writes the columns into the value and closes; a click outside
      closes without writing. */
  function Step(p: Picker, e: PickerEvent): (q: Picker)
    requires p.Valid()
    ensures q.Valid()
    ensures !p.isOpen && e != Toggle ==> q == p
    ensures q.value != p.value ==> e == Apply && p.isOpen
    ensures q.isOpen ==> q.value == p.value
    ensures e == Apply && p.isOpen ==> !q.isOpen && q.value == p.value.(time := p.temp)
  {
    match e
    case Toggle =>
      if p.isOpen then p.(isOpen := false) else p.(isOpen := true, temp := p.value.time)
    case ClickOutside => p.(isOpen := false)
    case HourUp => if p.isOpen then p.(temp := HourStep(p, true)) else p
    case HourDown => if p.isOpen then p.(temp := HourStep(p, false)) else p
    case MinuteUp => if p.isOpen then p.(temp := MinuteStep(p, true)) else p
    case MinuteDown => if p.isOpen then p.(temp := MinuteStep(p, false)) else p
    case Apply =>
      if p.isOpen then
        SetHoursInDay(p.value, p.temp);
        p.(value := SetHours(p.value, p.temp.hours, p.temp.minutes), isOpen := false)
      else p
  }

  /** Opening and applying at once leaves the value as it was. */
  lemma OpenThenApplyKeepsValue(p: Picker)
    requires p.Valid() && !p.isOpen
    ensures Step(Step(p, Toggle), Apply).value == p.value
  {
  }

  /** After a minute button the column shows a quarter hour, even when the
      bound value held another minute. */
  lemma MinuteButtonsSnapToQuarters(p: Picker, up: bool)
    requires p.Valid() && p.isOpen
    ensures var q := Step(p, if up then MinuteUp else MinuteDown);
      q.temp.minutes % 15 == 0 && q.temp.minutes <= 45
  {
    var q := Step(p, if up then MinuteUp else MinuteDown);
    ValidValuesMembers(0, 45, 15, q.temp.minutes);
  }
}

=== FILE: wrappers.dfy ===
/** Failure-compatible wrapper shared by the model: JavaScript's `null` and
    `undefined` results become `None`, a present value becomes `Some`. */
module Wrappers {

  datatype Option<+T> = None | Some(value: T) {

    /** Returns the value in `Some`, or `default` for `None` (the `??` operator). */
    function GetOr(default: T): T {
      match this
      case Some(v) => v
      case None => default
    }
  }
}
